=== FILE: README.md ===
# s21 containers in Dafny

A model of the s21 container library. The library is a header-only C++ re-implementation of
`std::set`, `std::map`, `std::multiset`, `std::list`, `std::vector`, `std::stack`,
`std::queue` and `std::array`.

The centre of the library is the red-black tree `s21::rbtree<Key, T>`, which backs the
three associative containers:

- It is modelled as an immutable `Leaf | Node(color, left, key, value, right)` tree.
- Its in-order sequence of (key, value) pairs is the abstraction every contract speaks about.
- Parent links are a zipper (`RbPath.Cursor`): a focused subtree plus the path of ancestor steps. Climbing to a parent, descending, rotating about a node and the colour repairs walk that zipper the way the C++ walks `parent` pointers.
- An iterator is an in-order position, with the number of elements standing for `end()`.

The sequential containers are a `seq` of their elements plus the counters the C++ keeps beside
the nodes or the buffer (`size_`, and for vector `capacity_` and the buffer `data_`). A counter
that drifts away from the element sequence is visible in the model, and several do.

Errors follow one scheme, `Outcomes.Outcome<T>`:

- `std::out_of_range` becomes `OutOfRange`.
- Undefined behaviour (a null dereference, a write past a buffer, a double `delete`) becomes `Undefined`.
- Everything else is `Ok(value)`.

Keys are `int`. Stored values are generic.

Module layout, following the headers:

| module | file | models |
|---|---|---|
| `Outcomes` | outcome.dfy | `Outcome` and `Option` |
| `SizeT` | sizet.dfy | `size_t` decrement, which wraps at 0 |
| `RbTree` | rbtree.dfy | tree, in-order abstraction, colour invariants, rotations |
| `RbPath` | rbpath.dfy | the zipper that stands for parent pointers |
| `RbInsert` | rbinsert.dfy | `insert`, the duplicate splice, `InsertFix` |
| `RbErase` | rberase.dfy | `getNodeRecursive`, `deleteNode`, `fixDelete`, `erase` |
| `RbIterate` | rbiterate.dfy | `increment_operator`, `decrement_operator`, `begin` |
| `RbOps` | rbops.dfy | `find`, `contains`, `size`, `clear`, `empty`, `swap`, `merge`, `insert_many`, the multiset scans |
| `Sets`, `Maps`, `Multisets` | sets.dfy, maps.dfy, multisets.dfy | the three wrappers |
| `Lists`, `Vectors`, `Stacks`, `Queues`, `Arrays` | lists.dfy … arrays.dfy | the sequential containers |

Where the C++ does something its authors evidently did not intend, the model keeps two
definitions:

- `…AsWritten` follows the code line by line, and a lemma exhibits the input that goes wrong.
- The corrected definition is proved to have the intended property, and the rest of the model builds on it.

See "## Findings".

## Model

| member | source | states |
|---|---|---|
| RbTree.RotateLeft | src/containers/s21_rbtree.h:280-295 | a left rotation keeps the in-order sequence and the node count |
| RbTree.RotateRight | src/containers/s21_rbtree.h:296-311 | a right rotation keeps the in-order sequence and the node count |
| RbTree.RotationsAreInverse | src/containers/s21_rbtree.h:280-311 | rotating right after rotating left gives back the same tree |
| RbTree.SizeIsLength | src/containers/s21_rbtree.h:419-426 | the recursive node count equals the length of the in-order sequence |
| RbInsert.SeekBounds | src/containers/s21_rbtree.h:246-268 | the descent of `insert` stops at an empty slot whose in-order neighbours bracket the new key |
| RbInsert.InsertFix | src/containers/s21_rbtree.h:195-244 | the repair keeps the in-order sequence and ends with a black root |
| RbInsert.InsertFixRestores | src/containers/s21_rbtree.h:195-244 | starting from one red node under a red parent in an otherwise valid tree, the repair gives a red-black tree: black root, no red-red edge, equal black height |
| RbInsert.NewNodeMeetsFixInv | src/containers/s21_rbtree.h:169-178 | a fresh red node hung at an empty slot of a red-black tree breaks at most the red-red rule at that node |
| RbInsert.InsertAsWrittenPlacesPair | src/containers/s21_rbtree.h:246-278 | the insert as written puts the pair at one in-order position and keeps the key order |
| RbInsert.Insert | src/containers/s21_rbtree.h:246-278 | `insert` always answers true; the new in-order sequence is the old one with the pair placed in key order; a red-black tree stays red-black |
| RbInsert.InsertInvariants | src/containers/s21_rbtree.h:246-278 | on a sorted tree the descent brackets the key, and on a red-black tree the repair after attaching gives a red-black tree |
| RbInsert.SplicePlacement | src/containers/s21_rbtree.h:257-266 | the duplicate-key splice puts the new pair just before the equal node in in-order and keeps the key order |
| RbErase.GetNode | src/containers/s21_rbtree.h:29-41 | a node that the search returns holds exactly the searched (key, value) pair, in the same tree |
| RbErase.GetNodeFinds | src/containers/s21_rbtree.h:29-41 | in a sorted tree where the key holds only that pair, the search finds it |
| RbErase.Reduce | src/containers/s21_rbtree.h:380-399 | the key/value swaps move the pair to a node with no children, keep the multiset of pairs and the colour invariants, and never dereference null |
| RbErase.ReduceOnRedBlack | src/containers/s21_rbtree.h:380-399 | on a red-black tree the reduction succeeds, and removing the moved pair removes the same position as removing the original |
| RbErase.Detach | src/containers/s21_rbtree.h:358-378 | unlinking a childless node removes exactly its position from the in-order sequence |
| RbErase.DetachRestores | src/containers/s21_rbtree.h:313-378 | after the unlink and the black-deficit repair, a red-black tree stays red-black |
| RbErase.FixDelete | src/containers/s21_rbtree.h:313-356 | the corrected black-deficit repair keeps the in-order sequence |
| RbErase.FixDeleteRestores | src/containers/s21_rbtree.h:313-356 | from a tree short of one black node on one side, the repair gives a red-black tree |
| RbErase.FixDeleteAsWritten | src/containers/s21_rbtree.h:313-356 | the repair as written never throws, and when it does not dereference null it keeps the in-order sequence |
| RbErase.EraseAsWritten | src/containers/s21_rbtree.h:401-406 | erasing `end()` changes nothing; a successful erase removes one occurrence of the pair at that position |
| RbErase.Erase | src/containers/s21_rbtree.h:358-406 | erasing `end()` changes nothing; otherwise exactly one occurrence of the pair at that position goes |
| RbErase.EraseKeepsValid | src/containers/s21_rbtree.h:358-406 | on a valid tree the erase succeeds, removes exactly that in-order position and leaves a valid tree |
| RbErase.EraseAsWrittenAtChildless | src/containers/s21_rbtree.h:359-378 | when the look-up lands on a node without children, the erase as written goes straight to unlinking it, with no key/value swap |
| RbErase.EraseAsWrittenRemoves | src/containers/s21_rbtree.h:358-406 | when the erase as written completes on a valid tree, it removes exactly that in-order position |
| RbIterate.Next | src/containers/s21_rbtree.h:100-115 | the successor is the next in-order position of the same tree, and there is none after the last |
| RbIterate.Prev | src/containers/s21_rbtree.h:84-99 | the predecessor is the previous in-order position, and there is none before the first |
| RbIterate.StepsAgree | src/containers/s21_rbtree.h:84-115 | with distinct keys, the key-comparing climbs of `increment_operator` and `decrement_operator` give exactly the in-order successor and predecessor |
| RbIterate.Begin | src/containers/s21_rbtree.h:179-183 | `begin()` is in-order position 0, or `end()` exactly when the tree is empty |
| RbIterate.Increment | src/containers/s21_rbtree.h:67-70 | `++` on `end()` dereferences null; otherwise it moves to the successor |
| RbIterate.WalkVisitsInOrder | src/containers/s21_rbtree.h:100-115 | n steps from `begin()` reach in-order position n, and reach `end()` after the last |
| RbIterate.WalkAgrees | src/containers/s21_rbtree.h:100-115 | with distinct keys, walking as written is the in-order walk |
| RbOps.Find | src/containers/s21_rbtree.h:437-442 | `find(k)` is the first in-order position holding key k, or `end()` |
| RbOps.Contains | src/containers/s21_rbtree.h:444-451 | `contains(k)` holds exactly when some stored pair has key k |
| RbOps.ContainsIffFound | src/containers/s21_rbtree.h:437-451 | `contains(k)` holds exactly when `find(k)` is not `end()` |
| RbOps.Count | src/containersplus/s21_multiset.h:64-72 | `count(k)` is the number of stored pairs with key k |
| RbOps.LowerBound | src/containersplus/s21_multiset.h:89-101 | `lower_bound(k)` is the first position whose key is at least k; every key before it is smaller |
| RbOps.UpperBound | src/containersplus/s21_multiset.h:103-117 | `upper_bound(k)` is the first position whose key exceeds k; every key before it is at most k |
| RbOps.BoundsBracketKey | src/containersplus/s21_multiset.h:83-117 | in key order, the range from `lower_bound(k)` to `upper_bound(k)` holds exactly the elements with key k |
| RbOps.EqualRange | src/containersplus/s21_multiset.h:83-87 | the length of `equal_range(k)` is `count(k)` |
| RbOps.FindIsLowerBound | src/containersplus/s21_multiset.h:74-101 | in key order, `find(k)` is `lower_bound(k)` when k is present and `end()` otherwise |
| RbOps.Empty | src/containers/s21_rbtree.h:452 | `empty()` holds exactly when the size is 0, that is when there are no pairs |
| RbOps.Clear | src/containers/s21_rbtree.h:408-418 | after `clear` the tree holds nothing, is empty, has size 0 and is valid |
| RbOps.SwapTwice | src/containers/s21_rbtree.h:428 | `swap` exchanges the two trees' contents, and swapping twice changes nothing |
| RbOps.FindMin | src/containers/s21_rbtree.h:130-134 | `findMin` on an empty tree dereferences null; otherwise it is in-order position 0 with no left child |
| RbOps.FindMax | src/containers/s21_rbtree.h:136-140 | `findMax` on an empty tree dereferences null; otherwise it is the last in-order position with no right child |
| RbOps.MinMaxBound | src/containers/s21_rbtree.h:130-140 | in a sorted tree every key lies between the minimum's key and the maximum's key |
| RbOps.InsertAll | src/containers/s21_rbtree.h:430-435 | inserting a sequence of pairs adds exactly those pairs to the multiset of pairs; over the corrected insert, a valid tree stays valid |
| RbOps.Merge | src/containers/s21_rbtree.h:430-435 | `merge` adds every pair of `other` and leaves `other` empty; over the corrected insert and in-order walk, a valid tree stays valid |
| RbOps.InsertMany | src/containers/s21_rbtree.h:469-478 | `insert_many` adds each argument as a (k, k) pair and answers true for every one; over the corrected insert, a valid tree stays valid |
| RbOps.StrictInsertion | src/containers/s21_set.h:61-67 | inserting an absent key into a strictly ordered sequence keeps it strictly ordered and adds just that key |
| RbOps.StrictRemoval | src/containers/s21_set.h:69-73 | removing one position from a strictly ordered sequence keeps it strictly ordered and drops just that key |
| Sets.SetInsert | src/containers/s21_set.h:61-67 | insert answers true exactly when the key is new; a present key leaves the set unchanged and answers `end()`; a new key is added and the iterator points at it; the set stays a set |
| Sets.SetOf | src/containers/s21_set.h:31-35 | the initializer-list constructor gives a set of exactly the listed keys |
| Sets.SetCopy | src/containers/s21_set.h:36-41 | the copy constructor gives a set with the same keys |
| Sets.SetAssignAsWritten | src/containers/s21_set.h:52-58 | copy assignment as written gives the union of the target's and the source's keys |
| Sets.SetAssign | src/containers/s21_set.h:52-58 | corrected copy assignment gives exactly the source's keys |
| Sets.SetMoveAssignAsWritten | src/containers/s21_set.h:43-51 | move assignment as written gives the union and empties the source |
| Sets.SetMoveAssign | src/containers/s21_set.h:43-51 | corrected move assignment gives exactly the source's keys and empties the source |
| Sets.SetErase | src/containers/s21_set.h:69-73 | `erase(end())` changes nothing; erasing a position drops just that key and keeps a set |
| Sets.SetFind | src/containers/s21_set.h:95-100 | `find(k)` is `end()` exactly when k is absent; otherwise the element found is k |
| Sets.SetMergeAsWritten | src/containers/s21_set.h:77 | merge as written adds every element of `other`, counting repeats, and empties `other` |
| Sets.SetMerge | src/containers/s21_set.h:77 | corrected merge gives the union of the keys, keeps a set and empties `other` |
| Sets.SetIterationAscends | src/containers/s21_set.h:79-90 | iterating a set from `begin()` visits its keys in strictly ascending order and reaches `end()` after the last |
| Maps.MapAt | src/containers/s21_map.h:76-82 | `at(k)` throws exactly when k is absent; otherwise it returns a value stored with k |
| Maps.MapAtIsFirstValue | src/containers/s21_map.h:76-82 | `at(k)` answers the first entry in order with key k, or throws when there is none |
| Maps.MapAtMembership | src/containers/s21_map.h:76-82 | in a map, `at(k)` returns w exactly when (k, w) is stored |
| Maps.MapInsert | src/containers/s21_map.h:51-58 | insert answers true exactly when the key is new; a present key leaves the map unchanged; a new entry is added and pointed at |
| Maps.MapInsertUpdates | src/containers/s21_map.h:51-58 | after insert, `at` gives the new value for a new key and the old answer for every other key |
| Maps.MapIndex | src/containers/s21_map.h:84-91 | `operator[]` returns the stored value of a present key without changing the map; an absent key is added with the default value, which is returned |
| Maps.InsertOrAssign | src/containers/s21_map.h:60-74 | over the corrected erase, after `insert_or_assign(k, v)` the map holds (k, v), and the answer is false exactly when (k, v) was already there |
| Maps.InsertOrAssignUpdates | src/containers/s21_map.h:60-74 | over the corrected erase, after `insert_or_assign(k, v)`, `at(k)` is v and every other key's answer is unchanged |
| Maps.ReplaceUpdates | src/containers/s21_map.h:69-74 | over the corrected erase, for a key stored with another value, erasing the old entry and inserting the new one leaves `at(k)` equal to the new value and every other key unchanged |
| Maps.InsertOrAssignAsWritten | src/containers/s21_map.h:60-74 | `insert_or_assign(k, v)` as written: a stored (k, v) is left in place with `false`; an absent key is inserted with `true`; for a key stored with another value the call succeeds or dereferences null exactly as the erase as written of the old entry does, and on success the new entry sits at the answered position and the key set gains k |
| Maps.ReplaceAsWritten | src/containers/s21_map.h:68-73 | erasing the old entry of the key with the erase as written and inserting the new one fails exactly when that erase fails; otherwise, in a map, the new entry is at the answered position and no key is lost |
| Maps.ErasedKeyGone | src/containers/s21_map.h:68-70 | in a map, a completed erase as written removes the erased entry's key and keeps every other key |
| Maps.ErasedThenInserted | src/containers/s21_map.h:68-73 | in a map, inserting after the erase as written of the key's old entry always adds a new entry, at the answered position |
| Maps.InsertOrAssignAsWrittenDereferencesNull | src/containers/s21_map.h:60-74 | `insert_or_assign(15, 1)` on the map {5, 7, 10, 15} dereferences null through the erase as written, while the corrected erase completes |
| Maps.MapInsertAllValues | src/containers/s21_map.h:51-58 | after inserting a list of entries one by one, a key already stored keeps its value and any other key takes the value of its first entry in the list |
| Maps.MapInsertMany | src/containers/s21_map.h:93-102 | `insert_many` answers true for an argument exactly when its key was neither in the map nor earlier in the list |
| Maps.MapOf | src/containers/s21_map.h:20-24 | the initializer-list constructor gives a map whose keys are the listed keys |
| Maps.MapOfValues | src/containers/s21_map.h:20-24 | in the initializer-list constructor each key maps to the value of its first entry; later entries with the same key are refused |
| Maps.MapAssign | src/containers/s21_map.h:25-29 | copy construction and copy assignment give a map with the source's keys and, for a well-formed source, its entries |
| Maps.MapAssignCopies | src/containers/s21_map.h:42-50 | after copy assignment, `at` answers as it does on the source for every key |
| Maps.MapMoveAssign | src/containers/s21_map.h:32-41 | move assignment gives the source's keys and leaves the source empty |
| Maps.MapMergeAsWritten | src/containers/s21_rbtree.h:430-435 | merge as written adds every entry of `other` even when the key exists, and empties `other` |
| Maps.MapMerge | src/containers/s21_rbtree.h:430-435 | corrected merge gives the union of the keys, keeps a map and empties `other` |
| Maps.MapMergeValues | src/containers/s21_rbtree.h:430-435 | after the corrected merge a key already present keeps its value, and any other key answers `at` as in `other` |
| Multisets.MsInsert | src/containersplus/s21_multiset.h:55-59 | insert always adds one (k, k) pair; the answer is where a fresh search for (k, k) from the root stops, and `end()` when that search misses; in a multiset it never misses |
| Multisets.PairedFinds | src/containers/s21_rbtree.h:26-41 | in an ordered tree of self-paired keys the search from the root finds any stored (k, k) |
| Multisets.MsInsertAnswersSearchHit | src/containersplus/s21_multiset.h:55-59 | inserting 5 into {5} answers the second of the two equal elements in order, where the search stops, not the first |
| Multisets.MsOf | src/containersplus/s21_multiset.h:21-25 | the initializer-list constructor holds each key as often as it is listed |
| Multisets.MsErase | src/containersplus/s21_multiset.h:119-123 | `erase(end())` changes nothing; erasing a position removes one occurrence of that element |
| Multisets.MsAssign | src/containersplus/s21_multiset.h:26-53 | copy and move assignment, walking the source in order, give exactly the source's elements, counting repeats |
| Multisets.MsCountIsRange | src/containersplus/s21_multiset.h:64-117 | `count(k)` is the number of copies of k and the length of the range from `lower_bound(k)` to `upper_bound(k)` |
| Lists.Front | src/containers/s21_list.h:124 | `front()` is the first element; on an empty list it dereferences null |
| Lists.Back | src/containers/s21_list.h:125 | `back()` is the last element; on an empty list it dereferences null |
| Lists.PushBack | src/containers/s21_list.h:245-259 | `push_back` appends, making the value the back, and raises the count by one |
| Lists.PushFrontAsWritten | src/containers/s21_list.h:234-244 | `push_front` as written prepends but raises the count by two on an empty list |
| Lists.PushFront | src/containers/s21_list.h:234-244 | corrected `push_front` prepends and raises the count by one |
| Lists.PopBack | src/containers/s21_list.h:206-220 | `pop_back` drops the last element and lowers the count, and does nothing on an empty list |
| Lists.PopFront | src/containers/s21_list.h:221-233 | `pop_front` drops the first element and lowers the count, and does nothing on an empty list |
| Lists.PushPopInverse | src/containers/s21_list.h:206-259 | a pop undoes the push at the same end |
| Lists.InsertAsWritten | src/containers/s21_list.h:150-180 | insert as written places the value before `pos` and raises the count; it returns `pos` except at `end()` of a non-empty list |
| Lists.Insert | src/containers/s21_list.h:150-180 | corrected insert places the value before `pos` and returns its position |
| Lists.Erase | src/containers/s21_list.h:181-205 | `erase(end())` throws; otherwise exactly that element goes and the count drops by one |
| Lists.InsertEraseInverse | src/containers/s21_list.h:150-205 | erasing the element just inserted gives the list back |
| Lists.Clear | src/containers/s21_list.h:139-149 | `clear` leaves no elements and a count of 0 |
| Lists.SwapTwice | src/containers/s21_list.h:260-264 | `swap` exchanges the two lists, and swapping twice changes nothing |
| Lists.Reverse | src/containers/s21_list.h:266-283 | `reverse` gives the elements in the opposite order with the same count |
| Lists.Dedup | src/containers/s21_list.h:284-300 | the walk of `unique` keeps the first element, leaves no two equal neighbours and keeps the same set of values |
| Lists.DedupSnoc | src/containers/s21_list.h:284-300 | a value appended after the rest is dropped exactly when it equals the last value, and otherwise kept at the end of what the walk kept before; with the empty list this fixes the result on every input |
| Lists.DedupKeepsDistinctRuns | src/containers/s21_list.h:284-300 | a list without equal neighbours is left as it is |
| Lists.DedupIdempotent | src/containers/s21_list.h:284-300 | `unique` twice is `unique` once |
| Lists.UniqueAsWritten | src/containers/s21_list.h:284-300 | `unique` as written removes equal neighbours but leaves the count unchanged |
| Lists.Unique | src/containers/s21_list.h:284-300 | corrected `unique` removes equal neighbours and the count matches the nodes |
| Lists.UniquePushBack | src/containers/s21_list.h:284-300 | `unique` after `push_back(x)` drops the new node exactly when x equals the old back, both versions keep the same nodes, and the count as written includes the new node either way |
| Lists.SplitWalk | src/containers/s21_list.h:324-338 | the slow/fast walk of `split` cuts the list after (n + 1) / 2 nodes |
| Lists.MergeSeq | src/containers/s21_list.h:340-357 | the recursive node merge keeps every element of both inputs, counting repeats, and starts with the head of one of them |
| Lists.MergeSorted | src/containers/s21_list.h:340-357 | merging two non-decreasing sequences gives a non-decreasing sequence |
| Lists.MergeSort | src/containers/s21_list.h:359-365 | `mergeSort` gives a non-decreasing permutation of its input |
| Lists.Sort | src/containers/s21_list.h:367-375 | `sort` gives a non-decreasing permutation of the elements with the same count |
| Lists.Merge | src/containers/s21_list.h:309-322 | `merge` with a non-empty `other` holds both lists' elements, is sorted when both were, and empties `other`; an empty `other` changes nothing |
| Lists.InsertManyAsWritten | src/containers/s21_list.h:377-385 | `insert_many` as written places the values in order before `pos`, counts each, and answers the last value's position when `pos` is a node, `end()` for no values, and some position within the list otherwise |
| Lists.InsertManyAtEndAsWrittenMisplaces | src/containers/s21_list.h:377-385 | 5 and 6 at `end()` of [1, 2] answer position 1, which holds 2, and into an empty list answer `end()` |
| Lists.InsertMany | src/containers/s21_list.h:377-385 | corrected `insert_many` places the values in order before `pos` and answers the position of the last one even at `end()` |
| Lists.Splice | src/containers/s21_list.h:302-308 | `splice` places `other`'s elements before `pos`; an empty `other` changes nothing |
| Lists.InsertManyBack | src/containers/s21_list.h:386-392 | `insert_many_back` appends the values in order |
| Lists.InsertManyFrontAsWritten | src/containers/s21_list.h:393-399 | `insert_many_front` as written puts the values in front in reverse order and over-counts by one on an empty list |
| Lists.InsertManyFront | src/containers/s21_list.h:393-399 | corrected `insert_many_front` puts the values in front in reverse order and counts each once |
| Lists.Assign | src/containers/s21_list.h:114-122 | copy assignment gives exactly the source's elements |
| Lists.MoveAssign | src/containers/s21_list.h:103-112 | move assignment gives the source's elements and leaves the source empty |
| Lists.ListOfSize | src/containers/s21_list.h:84-88 | `list(n)` holds n default values |
| Lists.IsEmpty | src/containers/s21_list.h:133 | `empty()` holds exactly when there are no elements |
| Vectors.VecWithCapacity | src/containers/s21_vector.h:74 | `vector(n)` has no elements and capacity n |
| Vectors.VecOf | src/containers/s21_vector.h:75-79 | the initializer-list constructor holds the items and has capacity equal to their number |
| Vectors.At | src/containers/s21_vector.h:117-122 | `at(pos)` throws exactly when `pos >= size`, and otherwise returns the element at pos |
| Vectors.Front | src/containers/s21_vector.h:124 | `front()` is the first element, and reading it without an element or a buffer is undefined |
| Vectors.Back | src/containers/s21_vector.h:125 | `back()` is the last element; on an empty vector it is undefined |
| Vectors.Reserve | src/containers/s21_vector.h:140-153 | `reserve(n)` throws exactly when n exceeds `max_size`; it keeps the elements and raises the capacity to n only if n is larger |
| Vectors.ShrinkToFit | src/containers/s21_vector.h:155-165 | `shrink_to_fit` keeps the elements and lowers the capacity to the size when it is larger |
| Vectors.ClearAsWritten | src/containers/s21_vector.h:167-173 | `clear` as written frees the buffer and nulls it but keeps the capacity |
| Vectors.Clear | src/containers/s21_vector.h:167-173 | corrected `clear` leaves no elements, keeps the capacity and keeps the buffer in step |
| Vectors.PushBack | src/containers/s21_vector.h:211-217 | `push_back` appends; when full, capacity goes from 0 to 1 and otherwise doubles |
| Vectors.PopBack | src/containers/s21_vector.h:218-222 | `pop_back` drops the last element and does nothing on an empty vector; capacity and buffer are unchanged |
| Vectors.PushPopInverse | src/containers/s21_vector.h:211-222 | `pop_back` undoes `push_back` |
| Vectors.InsertAsWritten | src/containers/s21_vector.h:174-194 | insert as written places the value at pos, but the new buffer has size + 1 slots and `capacity_` is unchanged |
| Vectors.Insert | src/containers/s21_vector.h:174-194 | corrected insert places the value at pos and keeps capacity and buffer in step |
| Vectors.EraseAsWritten | src/containers/s21_vector.h:195-210 | erase as written removes the element at pos, but the new buffer has size - 1 slots and `capacity_` is unchanged |
| Vectors.Erase | src/containers/s21_vector.h:195-210 | corrected erase removes the element at pos and keeps capacity and buffer in step |
| Vectors.InsertEraseInverse | src/containers/s21_vector.h:174-210 | erasing the element just inserted gives back the elements |
| Vectors.InsertManyAsWritten | src/containers/s21_vector.h:229-260 | `insert_many` as written places the values in order at pos, but the buffer has size + k slots while `capacity_` may be larger |
| Vectors.InsertMany | src/containers/s21_vector.h:229-260 | corrected `insert_many` places the values in order at pos and keeps capacity and buffer in step |
| Vectors.InsertManyBack | src/containers/s21_vector.h:262-265 | over the corrected `insert_many`, `insert_many_back` appends the values in order and keeps `capacity_` equal to the buffer length |
| Vectors.InsertManyBackAsWritten | src/containers/s21_vector.h:262-265 | `insert_many_back` as written appends the values in order over a buffer of exactly the new size, while `capacity_` becomes the larger of the old capacity and the new size |
| Vectors.InsertManyBackAsWrittenKeepsCapacity | src/containers/s21_vector.h:262-265 | on `vector(10)`, `insert_many_back(1)` as written keeps capacity 10 over a one-slot buffer, so the next `push_back` writes past it; the corrected one has capacity 1 |
| Vectors.PushAllDoubles | src/containers/s21_vector.h:80-84 | repeated `push_back` from a power-of-two capacity keeps the capacity the least power of two that holds the elements |
| Vectors.Copy | src/containers/s21_vector.h:80-84 | the copy constructor gives the same elements with a power-of-two capacity |
| Vectors.MoveConstruct | src/containers/s21_vector.h:85 | the move constructor copies the elements and leaves the source empty |
| Vectors.MoveAssign | src/containers/s21_vector.h:87-101 | move assignment takes the source's state and leaves the source empty |
| Vectors.CopyAssignAsWritten | src/containers/s21_vector.h:103-115 | copy assignment as written, from a non-empty source onto a target with a buffer, deletes that buffer twice |
| Vectors.CopyAssign | src/containers/s21_vector.h:103-115 | corrected copy assignment gives the source's elements |
| Vectors.SwapTwice | src/containers/s21_vector.h:223-227 | swapping twice changes nothing and `swap` keeps both vectors well-formed |
| Stacks.Top | src/containers/s21_stack.h:82-85 | `top()` throws exactly on an empty stack and otherwise is the last pushed value |
| Stacks.Push | src/containers/s21_stack.h:90-100 | after `push(v)`, `top()` is v, the rest is the old stack and the count rose by one |
| Stacks.Pop | src/containers/s21_stack.h:101-107 | `pop` throws exactly on an empty stack and otherwise drops the top |
| Stacks.PushPopInverse | src/containers/s21_stack.h:90-107 | `pop` after `push` gives the stack back |
| Stacks.PushAll | src/containers/s21_stack.h:113-119 | `insert_many_back` pushes in argument order, so the last argument is on top |
| Stacks.StackOf | src/containers/s21_stack.h:18-23 | the initializer-list constructor puts the last listed value on top |
| Stacks.Copy | src/containers/s21_stack.h:24-35 | the copy constructor gives the same elements in the same order; a count above the nodes throws |
| Stacks.Equal | src/containers/s21_stack.h:63-80 | `==` is false when the counts differ and otherwise holds exactly when the elements agree top to bottom |
| Stacks.Move | src/containers/s21_stack.h:36-62 | move construction and assignment take over the elements and leave the source empty |
| Stacks.SwapTwice | src/containers/s21_stack.h:108-111 | `swap` exchanges the two stacks' tops, and swapping twice changes nothing |
| Queues.Front | src/containers/s21_queue.h:77 | `front()` is the oldest element and is undefined on an empty queue |
| Queues.Back | src/containers/s21_queue.h:78 | `back()` is the newest element and is undefined on an empty queue |
| Queues.Push | src/containers/s21_queue.h:83-101 | `push(v)` appends v at the back and raises the count by one |
| Queues.Pop | src/containers/s21_queue.h:103-112 | `pop` drops the oldest element, is undefined on an empty queue, and leaves no back once the queue is emptied |
| Queues.PushPopCommute | src/containers/s21_queue.h:83-112 | on a non-empty queue a push and a pop commute, so elements leave in push order |
| Queues.PushPopEmpty | src/containers/s21_queue.h:83-112 | a value pushed onto an empty queue is the front and pops back out to an empty queue |
| Queues.PushAll | src/containers/s21_queue.h:119-125 | `insert_many_back` appends the values in order |
| Queues.CopyAssign | src/containers/s21_queue.h:59-75 | copy assignment gives exactly the source's elements in order |
| Queues.Copy | src/containers/s21_queue.h:23-25 | the copy constructor gives the source's elements in order |
| Queues.Move | src/containers/s21_queue.h:26-30 | the move constructor takes over the contents and leaves the source empty with count 0 |
| Queues.SwapTwice | src/containers/s21_queue.h:114-118 | `swap` exchanges the two queues' fronts, and swapping twice changes nothing |
| Arrays.ArrayNew | src/containersplus/s21_array.h:18-22 | the default constructor gives N slots that all hold zero |
| Arrays.ArrayOf | src/containersplus/s21_array.h:23-28 | the initializer-list constructor sets the first slots in order; more values than slots is undefined |
| Arrays.AtAsWritten | src/containersplus/s21_array.h:53-58 | `at` as written throws only past `size`, so `at(size)` reads past the end |
| Arrays.At | src/containersplus/s21_array.h:53-58 | corrected `at` throws exactly when `pos >= size` and otherwise returns the slot |
| Arrays.AtAgreesBelowEnd | src/containersplus/s21_array.h:53-58 | the two versions of `at` differ only at `pos == size` |
| Arrays.Front | src/containersplus/s21_array.h:60 | `front()` is slot 0 |
| Arrays.Back | src/containersplus/s21_array.h:61 | `back()` is slot N - 1 |
| Arrays.Fill | src/containersplus/s21_array.h:76-80 | after `fill(v)` every slot reads v |
| Arrays.Size | src/containersplus/s21_array.h:68 | `size()` is N |
| Arrays.MaxSize | src/containersplus/s21_array.h:69 | `max_size()` equals `size()` |
| Arrays.IsEmpty | src/containersplus/s21_array.h:67 | `empty()` holds exactly when N is 0 |
| Arrays.CopyAssign | src/containersplus/s21_array.h:29-51 | copy and move assignment copy every slot index by index |

## Left out

- Console output: `inorder` and `print` of the tree are debugging only.
- `max_size()` formulas built from `sizeof` and `numeric_limits` are not modelled. Where `reserve`, `push_back` and `insert_many` need the limit, it is a parameter `maxSize`.
- Memory management is mostly not modelled:
  - allocation, destructors, and the dangling-iterator hazards of node containers;
  - the vector buffer is modelled only as far as `Null | Live(slots) | Freed`, so that writes past it and double deletes show up as `Undefined`.
- The iterator class hierarchies and `TreeIterator::operator*` returning `{0, 0}` on null are not modelled. Iterators are in-order positions.
- `operator[]` on vector and array and reference writes through `at`, `front` and `back` are not modelled. The model reads values and never writes through references.
- Self-assignment (`this == &other`) is not modelled. The values are immutable, so aliasing does not exist.
- Overflow of `size_` at 2^64 on increment is not modelled. The decrement of `size_t` at 0 is modelled by `SizeT.Dec`.
- `vector::data()`, `empty()`, `size()`, `capacity()` and `array::data()` are left out: they are plain field reads. `array::swap` is also left out.
- `list::max_size`, and `stack::empty` and `size`, are left out as plain field reads.
- Lists.Swap, Stacks.Swap, Queues.Swap, Vectors.Swap and RbOps.Swap carry no ensures of their own. Each is stated through its `SwapTwice` lemma, because exchanging two values has no content beyond the exchange.
- RbTree.RotateLeft: parent links are not separate data. The zipper keeps every parent link consistent with its child slot by construction, so that part of the rotation's promise is not a separate clause.
- Arrays.ArrayOf: slots the initializer list does not reach are indeterminate (`None`) for every element type, including class types whose default constructor would run.
- Vectors.Front: reading `data_[0]` of an empty vector that has a buffer returns whatever the slot holds. The model only says the read is not `Ok` with an element.
- RbOps.InsertAll, RbOps.Merge, RbOps.InsertMany, Sets.SetInsertAll, Sets.SetInsert, Sets.SetOf, Sets.SetCopy, Sets.SetAssign, Sets.SetAssignAsWritten, Sets.SetMoveAssignAsWritten, Sets.SetMerge, Sets.SetErase, Maps.MapInsertAll, Maps.MapInsert, Maps.MapIndex, Maps.MapOf, Maps.MapAssign, Maps.MapMerge, Multisets.MsInsertAll, Multisets.MsInsert, Multisets.MsOf, Multisets.MsAssign and Multisets.MsErase: their validity clauses hold over the corrected insert, erase repair and iterator (findings 1, 2, 3 and 4), which is what the rest of the model builds on. They walk `other` or the source in in-order order. The source inserts with `insert` as written and walks with the iterator as written. It can therefore leave a tree that is not red-black; RbInsert.ZigZagAsWrittenUnbalances shows this for 10, 5, 7, which a merge of {7} into {10, 5} performs. On a multiset with repeated keys such as {10, 10, 5}, its merge and assignment loops never reach `end()` (RbIterate.WalkAsWrittenNeverEnds).
- RbOps.Find, RbOps.Contains, RbOps.Count, RbOps.LowerBound and RbOps.UpperBound are linear scans over the in-order sequence. They are stated for that order, which is the order of the corrected iterator. The iterator as written visits that order only when keys are distinct (finding 4).
- RbOps.Contains: it is the same in-order scan as RbOps.Find. On a multiset with repeated keys such as {10, 10, 5}, the iterator as written never reaches `end()`, so `contains` of an absent key does not return there (RbIterate.WalkAsWrittenNeverEnds). The model answers false.
- Sets.SetAssignAsWritten: only the missing `clear` of the target is as written. The keys are added with the corrected insert, so its SetInv clause does not cover the source's insert: assigning {7} onto {10, 5} as written inserts 10, 5, 7 and leaves a tree that is not red-black (RbInsert.ZigZagAsWrittenUnbalances).
- Sets.SetMoveAssignAsWritten: as Sets.SetAssignAsWritten, only the missing `clear` is as written and the insert underneath is the corrected one; its SetInv clause does not hold for the source's insert on the same input.
- Maps.MapIndex: an absent key is added with the corrected insert, so its MapInv clause does not cover the source's insert: `m[7]` on the map {10, 5} inserts 7 into 10, 5 and leaves a tree that is not red-black (RbInsert.ZigZagAsWrittenUnbalances).
- Maps.InsertOrAssign, Maps.InsertOrAssignUpdates and Maps.ReplaceUpdates: they erase with the corrected erase repair (finding 3). The source erases with `erase` as written; that branch is Maps.InsertOrAssignAsWritten, which fails wherever the erase as written fails.
- RbErase.EraseKeepsValid: needs every occurrence of the erased key to carry the same pair. Otherwise `getNodeRecursive` may find a different occurrence of the pair than the one at `pos`, or miss the pair and pass null to `deleteNode`. One such case: erase (10, 2) after the as-written merge of {10: 2} into {10: 1}; the search for (10, 2) goes right at the root, but the duplicate hangs on the left. Sets, multisets, and maps filled only through map `insert` always meet the condition.
- RbErase.Reduce and RbErase.EraseAsWritten: when `deleteNode` throws on a red node with one child, the key and value swaps already made on the way down stay in the source's tree. The model returns only the error and drops that partly changed tree. The throw needs a tree that is not red-black (RbErase.ReduceOnRedBlack), such as one left by the as-written insert or merge.
- Vectors.InsertManyAsWritten: when the closing `reserve(size_)` throws `std::out_of_range`, the source has already installed the new buffer and size. The model returns only `OutOfRange` and drops that state.
- Vectors.EraseAsWritten: on an empty vector the source throws `std::bad_array_new_length`, because `size_ - 1` wraps, and nothing changes. The model answers `Undefined` there, as it does for the copy past the buffer.
- RbOps.InsertMany and Maps.MapInsertMany: the source returns an iterator per argument as well as the flag. The model keeps only the flags, because each iterator is a position that every later insert of the same call may shift. The final tree and every flag are stated.

## Findings

| source | as written | input that shows it | evidently intended | confidence | as-written member | corrected member |
|---|---|---|---|---|---|---|
| src/containers/s21_rbtree.h:213-219 | in the zig-zag case `InsertFix` repaints the old parent black instead of the node that becomes the subtree root | insert 10, 5, 7 into an empty tree: the black heights of the two sides of the root differ | the textbook double rotation, which paints the new subtree root black | not executed | RbInsert.ZigZagAsWrittenUnbalances | RbInsert.InsertFixRestores |
| src/containers/s21_rbtree.h:257-266 | a duplicate key is spliced in red as the left child of the equal red or black node, above its old left subtree, without repair below | insert 10, 5, 10: the new red 10 sits above the red 5 | the equal key descends left like any smaller key and is repaired by `InsertFix` | not executed | RbInsert.DuplicateSpliceAsWrittenBreaksRedRule | RbInsert.Insert |
| src/containers/s21_rbtree.h:313-356 | `fixDelete` takes the left child as the sibling and rotates left when its right child is red, even when the node rotated about has no right child | insert 10, 5, 15, 7, then erase 15: `rotateLeft` on 10 dereferences its null right child | the textbook black-deficit repair, which chooses the sibling by side | not executed | RbErase.EraseAsWrittenDereferencesNull | RbErase.EraseKeepsValid |
| src/containers/s21_rbtree.h:100-115 | `increment_operator` decides where it came from by comparing keys, which fails when keys repeat | multiset insert 10, 10, 5: from the right child 10 the step goes back to the root 10, so iteration never reaches `end()` | climb while the node is a right child, comparing links, not keys | not executed | RbIterate.WalkAsWrittenNeverEnds | RbIterate.WalkVisitsInOrder |
| src/containers/s21_list.h:235-243 | `push_front` on an empty list increments `size_` in the empty branch and again after it | `push_front(1)` on an empty list gives size 2 | one increment | not executed | Lists.PushFrontAsWrittenCountsTwice | Lists.PushFront |
| src/containers/s21_list.h:377-385 | `insert_many` answers what the last `insert` as written answered, which at `end()` is the node before the old tail, or `end()` | `insert_many(end(), 5, 6)` on [1, 2] answers position 1, which holds 2 | the position of the last value inserted | not executed | Lists.InsertManyAtEndAsWrittenMisplaces | Lists.InsertMany |
| src/containers/s21_list.h:284-300 | `unique` deletes nodes without decrementing `size_` | `unique` on [1, 1] keeps one node and size 2 | decrement once per deleted node | not executed | Lists.UniqueAsWrittenMiscounts | Lists.Unique |
| src/containers/s21_list.h:161-179 | `insert` at `end()` returns an iterator to the node before the old tail instead of the new node | insert 3 at `end()` of [1, 2] returns position 0 | return the new node, as for every other position | not executed | Lists.InsertAtEndAsWrittenMisplaces | Lists.Insert |
| src/containers/s21_vector.h:174-194 | `insert` allocates size + 1 slots but leaves `capacity_`, so a later `push_back` writes past the buffer | `{1, 2, 3}.insert(begin(), 0)` then `push_back(4)` | keep `capacity_` equal to the buffer length | not executed | Vectors.InsertThenPushBackAsWrittenOverruns | Vectors.Insert |
| src/containers/s21_vector.h:195-210 | `erase` allocates size - 1 slots but leaves `capacity_` | `{1, 2, 3}.erase(begin())` then `push_back(4)` | keep `capacity_` equal to the buffer length | not executed | Vectors.EraseThenPushBackAsWrittenOverruns | Vectors.Erase |
| src/containers/s21_vector.h:229-260 | `insert_many` allocates exactly size + k slots but may keep a larger `capacity_` | `vector(10)`, `insert_many(begin(), 1)`, then `push_back(2)` | keep `capacity_` equal to the buffer length | not executed | Vectors.InsertManyAsWrittenOverruns | Vectors.InsertMany |
| src/containers/s21_vector.h:167-173 | `clear` frees and nulls the buffer but keeps `capacity_`, so `push_back` writes through null | `{1, 2, 3}.clear()` then `push_back(4)` | keep the buffer, or reset `capacity_` to 0 | not executed | Vectors.ClearThenPushBackAsWrittenFails | Vectors.Clear |
| src/containers/s21_vector.h:103-115 | copy assignment deletes the target's buffer without nulling `data_`; with capacity 0 the first `push_back` reserves a new buffer and deletes the old pointer a second time | assign `{2}` to `{1}` | null `data_` after the delete | not executed | Vectors.CopyAssignAsWrittenDeletesTwice | Vectors.CopyAssign |
| src/containersplus/s21_array.h:53-58 | `at` throws only for `pos > size_` | `at(3)` on a three-slot array reads past the end | throw for `pos >= size_` | not executed | Arrays.AtAsWrittenPastEnd | Arrays.At |
| src/containers/s21_map.h:60-74 | `insert_or_assign` erases the old entry of a key stored with another value through the tree's `erase`, whose `fixDelete` can dereference null | `insert_or_assign(15, 1)` on the map {5, 7, 10, 15}, all mapped to 0 | erase with the textbook repair, then insert | not executed | Maps.InsertOrAssignAsWrittenDereferencesNull | Maps.InsertOrAssign |
| src/containers/s21_vector.h:262-265 | `insert_many_back` is `insert_many` at `end()`, so it also allocates exactly size + k slots and may keep a larger `capacity_` | `vector(10)`, `insert_many_back(1)`, then `push_back(2)` | keep `capacity_` equal to the buffer length | not executed | Vectors.InsertManyBackAsWrittenKeepsCapacity | Vectors.InsertManyBack |
| src/containers/s21_set.h:77 | `merge` inserts through the tree's `insert`, which has no `contains` check | `{1}.merge({1})` stores 1 twice | insert through `set::insert` | not executed | Sets.MergeAsWrittenDuplicates | Sets.SetMerge |
| src/containers/s21_rbtree.h:430-435 | `map::merge` is the tree's merge, so a key present in both maps is stored twice | `{1: 1}.merge({1: 1})` | insert through `map::insert` | not executed | Maps.MapMergeAsWrittenDuplicates | Maps.MapMerge |
| src/containers/s21_set.h:52-58 | copy assignment inserts the source's keys without clearing the target | assigning `{2}` to `{1}` gives `{1, 2}` | clear the target first, as `map` and `multiset` do | not executed | Sets.AssignAsWrittenKeepsOldKeys | Sets.SetAssign |

=== FILE: arrays.dfy ===
/** `array<T, N>`: `N` slots inside the object and a `size_` member that
    starts as `N`.  A slot that nothing has written holds an indeterminate
    value, shown as `None`; reading one is undefined behaviour. */
module Arrays {
  import opened Outcomes

  datatype Arr<T> = Arr(cells: seq<Option<T>>, size: nat)

  /** `size_` is the template size. */
  predicate ArrInv<T>(a: Arr<T>)
  {
    a.size == |a.cells|
  }

  /** The default constructor (lines 18-22): every slot set to 0, here the
      value `zero`. */
  function ArrayNew<T>(n: nat, zero: T): (r: Arr<T>)
    ensures ArrInv(r) && |r.cells| == n
    ensures forall i :: 0 <= i < n ==> r.cells[i] == Some(zero)
  {
    Arr(seq(n, _ => Some(zero)), n)
  }

  /** The initializer-list constructor (lines 23-28): the listed values fill
      the first slots in order; the others are not written.  More values than
      slots write past the object. */
  function ArrayOf<T>(n: nat, xs: seq<T>): (r: Outcome<Arr<T>>)
    ensures r.Ok? <==> |xs| <= n
    ensures r.Ok? ==> ArrInv(r.value) && |r.value.cells| == n
    ensures r.Ok? ==> forall i :: 0 <= i < n ==> r.value.cells[i] == if i < |xs| then Some(xs[i]) else None
  {
    if |xs| > n then Undefined
    else Ok(Arr(seq(n, i => if 0 <= i < |xs| then Some(xs[i]) else None), n))
  }

  /** Reading one slot. */
  function Read<T>(a: Arr<T>, pos: nat): (r: Outcome<T>)
    ensures r.Ok? <==> pos < |a.cells| && a.cells[pos].Some?
    ensures r.Ok? ==> a.cells[pos] == Some(r.value)
  {
    if pos >= |a.cells| || a.cells[pos].None? then Undefined else Ok(a.cells[pos].value)
  }

  /** `at(pos)` as written (lines 53-58): only `pos > size_` throws, so
      `pos == size_` reads the slot past the end. */
  function AtAsWritten<T>(a: Arr<T>, pos: nat): (r: Outcome<T>)
    ensures r.OutOfRange? <==> pos > a.size
    ensures ArrInv(a) && pos == a.size ==> r.Undefined?
    ensures r.Ok? ==> pos < |a.cells| && a.cells[pos] == Some(r.value)
  {
    if pos > a.size then OutOfRange else Read(a, pos)
  }

  /** `at(pos)` throwing for every position that is not a slot. */
  function At<T>(a: Arr<T>, pos: nat): (r: Outcome<T>)
    ensures r.OutOfRange? <==> pos >= a.size
    ensures ArrInv(a) && pos < a.size && a.cells[pos].Some? ==> r == Ok(a.cells[pos].value)
    ensures r.Ok? ==> pos < |a.cells| && a.cells[pos] == Some(r.value)
  {
    if pos >= a.size then OutOfRange else Read(a, pos)
  }

  /** The two agree at every position except `size_`, where the one as
      written reads past the end instead of throwing. */
  lemma AtAgreesBelowEnd<T>(a: Arr<T>, pos: nat)
    requires ArrInv(a)
    ensures pos != a.size ==> AtAsWritten(a, pos) == At(a, pos)
    ensures pos == a.size ==> AtAsWritten(a, pos).Undefined? && At(a, pos).OutOfRange?
  {
  }

  /** `at(3)` on a three-slot array. */
  lemma AtAsWrittenPastEnd()
    ensures ArrayOf(3, [1, 2, 3]).Ok?
    ensures AtAsWritten(ArrayOf(3, [1, 2, 3]).value, 3).Undefined?
    ensures At(ArrayOf(3, [1, 2, 3]).value, 3).OutOfRange?
  {
  }

  /** `front()` and `back()` (lines 60-61): the first and the last slot. */
  function Front<T>(a: Arr<T>): (r: Outcome<T>)
    ensures ArrInv(a) && a.size > 0 && a.cells[0].Some? ==> r == Ok(a.cells[0].value)
    ensures a.size == 0 ==> r.Undefined?
  {
    if a.size == 0 then Undefined else Read(a, 0)
  }

  function Back<T>(a: Arr<T>): (r: Outcome<T>)
    ensures ArrInv(a) && a.size > 0 && a.cells[a.size - 1].Some? ==> r == Ok(a.cells[a.size - 1].value)
    ensures a.size == 0 ==> r.Undefined?
  {
    if a.size == 0 then Undefined else Read(a, a.size - 1)
  }

  /** `fill(value)` (lines 76-80): every one of the `size_` slots. */
  function Fill<T>(a: Arr<T>, v: T): (r: Arr<T>)
    ensures r.size == a.size && ArrInv(r)
    ensures ArrInv(a) ==> |r.cells| == |a.cells|
    ensures forall i :: 0 <= i < |r.cells| ==> Read(r, i) == Ok(v)
  {
    Arr(seq(a.size, _ => Some(v)), a.size)
  }

  /** `size()`, `max_size()` and `empty()` (lines 67-69). */
  function Size<T>(a: Arr<T>): (r: nat)
    ensures ArrInv(a) ==> r == |a.cells|
  {
    a.size
  }

  function MaxSize<T>(a: Arr<T>): (r: nat)
    ensures r == Size(a)
  {
    Size(a)
  }

  function IsEmpty<T>(a: Arr<T>): (r: bool)
    ensures ArrInv(a) ==> (r <==> a.cells == [])
  {
    a.size == 0
  }

  /** Copy and move assignment (lines 36-51) and the copy constructor
      (lines 29-33): slot by slot over the source's `size_`.  Both arrays
      have the same template size, so the same number of slots. */
  function CopyAssign<T>(t: Arr<T>, src: Arr<T>): (r: Outcome<Arr<T>>)
    requires |t.cells| == |src.cells|
    ensures r.Ok? <==> src.size <= |t.cells|
    ensures r.Ok? ==> r.value.size == t.size && |r.value.cells| == |t.cells|
    ensures r.Ok? ==> forall i :: 0 <= i < src.size ==> Read(r.value, i) == Read(src, i)
    ensures ArrInv(t) && ArrInv(src) ==> r.Ok? && ArrInv(r.value)
    ensures ArrInv(t) && ArrInv(src) ==> forall i :: 0 <= i < |t.cells| ==> Read(r.value, i) == Read(src, i)
  {
    if src.size > |t.cells| then Undefined
    else
      Ok(Arr(seq(|t.cells|, i requires 0 <= i < |t.cells| => if i < src.size then src.cells[i] else t.cells[i]), t.size))
  }
}

=== FILE: lists.dfy ===
/** `list<T>`: a doubly linked list with a separately kept `size_` counter.
    The nodes from `head_` to `tail_` are the sequence `items`; an iterator is
    a position in it, `|items|` standing for `end()` (the null pointer).
    Pointer surgery is not modelled, only the sequence it produces and the
    counter it maintains. */
module Lists {
  import opened Outcomes
  import RbErase
  import opened SizeT

  datatype List<T> = List(items: seq<T>, size: nat)

  /** The counter agrees with the nodes. */
  predicate ListInv<T>(l: List<T>)
  {
    l.size == |l.items|
  }

  function NewList<T>(): (r: List<T>)
    ensures ListInv(r) && r.items == []
  {
    List([], 0)
  }

  /** `front()` and `back()` (lines 124-125) read through `head_` and `tail_`,
      which are null for an empty list. */
  function Front<T>(l: List<T>): (r: Outcome<T>)
    ensures r.Undefined? <==> l.items == []
    ensures r.Ok? ==> r.value == l.items[0]
  {
    if l.items == [] then Undefined else Ok(l.items[0])
  }

  function Back<T>(l: List<T>): (r: Outcome<T>)
    ensures r.Undefined? <==> l.items == []
    ensures r.Ok? ==> r.value == l.items[|l.items| - 1]
  {
    if l.items == [] then Undefined else Ok(l.items[|l.items| - 1])
  }

  /** `push_back` (lines 245-259): the new node becomes the tail. */
  function PushBack<T>(l: List<T>, v: T): (r: List<T>)
    ensures Back(r) == Ok(v) && r.size == l.size + 1
    ensures |r.items| == |l.items| + 1 && r.items[..|l.items|] == l.items
    ensures ListInv(l) ==> ListInv(r)
  {
    List(l.items + [v], l.size + 1)
  }

  /** `push_front` as written (lines 234-244): on an empty list it calls
      `push_back`, which counts the node, and then counts it again. */
  function PushFrontAsWritten<T>(l: List<T>, v: T): (r: List<T>)
    ensures Front(r) == Ok(v) && r.items[1..] == l.items
    ensures r.size == l.size + (if l.items == [] then 2 else 1)
  {
    if l.items == [] then
      var p := PushBack(l, v);
      List(p.items, p.size + 1)
    else List([v] + l.items, l.size + 1)
  }

  /** `push_front` counting the new node once. */
  function PushFront<T>(l: List<T>, v: T): (r: List<T>)
    ensures Front(r) == Ok(v) && r.items[1..] == l.items && r.size == l.size + 1
    ensures ListInv(l) ==> ListInv(r)
  {
    List([v] + l.items, l.size + 1)
  }

  /** Pushing one element onto an empty list as written leaves a count of two. */
  lemma PushFrontAsWrittenCountsTwice<T>(v: T)
    ensures var r := PushFrontAsWritten(NewList<T>(), v);
      |r.items| == 1 && r.size == 2 && !ListInv(r)
    ensures ListInv(PushFront(NewList<T>(), v))
  {
  }

  /** `pop_back` (lines 206-220): nothing on an empty list, otherwise the
      tail is unlinked and the count lowered. */
  function PopBack<T>(l: List<T>): (r: List<T>)
    ensures l.items == [] ==> r == l
    ensures l.items != [] ==> r.items == l.items[..|l.items| - 1] && r.size == Dec(l.size)
    ensures ListInv(l) ==> ListInv(r)
  {
    if l.items == [] then l else List(l.items[..|l.items| - 1], Dec(l.size))
  }

  /** `pop_front` (lines 221-233). */
  function PopFront<T>(l: List<T>): (r: List<T>)
    ensures l.items == [] ==> r == l
    ensures l.items != [] ==> r.items == l.items[1..] && r.size == Dec(l.size)
    ensures ListInv(l) ==> ListInv(r)
  {
    if l.items == [] then l else List(l.items[1..], Dec(l.size))
  }

  /** Popping what was just pushed gives the list back. */
  lemma PushPopInverse<T>(l: List<T>, v: T)
    ensures PopBack(PushBack(l, v)) == l
    ensures PopFront(PushFront(l, v)) == l
  {
    assert (l.items + [v])[..|l.items|] == l.items;
  }

  /** `insert(pos, value)` as written (lines 150-180).  An empty list gets the
      value by `push_back` and the result is `begin()`.  Otherwise the value
      goes before the node at `pos`, or after the tail for `end()`, and the
      result is the node before the one `current` points to, which for
      `end()` is the node before the old tail rather than the new node. */
  function InsertAsWritten<T>(l: List<T>, pos: nat, v: T): (r: (List<T>, nat))
    requires pos <= |l.items|
    ensures r.0.items == l.items[..pos] + [v] + l.items[pos..]
    ensures r.0.size == l.size + 1
    ensures r.1 <= |r.0.items|
    ensures pos < |l.items| || l.items == [] ==> r.1 == pos
  {
    if l.items == [] then (PushBack(l, v), 0)
    else
      var items := l.items[..pos] + [v] + l.items[pos..];
      var ret := if pos < |l.items| then pos
        else if |l.items| >= 2 then |l.items| - 2
        else |items|;
      (List(items, l.size + 1), ret)
  }

  /** `insert(pos, value)` returning the position of the new node. */
  function Insert<T>(l: List<T>, pos: nat, v: T): (r: (List<T>, nat))
    requires pos <= |l.items|
    ensures r.0.items == l.items[..pos] + [v] + l.items[pos..]
    ensures r.0.size == l.size + 1 && r.1 == pos && r.0.items[r.1] == v
    ensures ListInv(l) ==> ListInv(r.0)
  {
    (List(l.items[..pos] + [v] + l.items[pos..], l.size + 1), pos)
  }

  /** Inserting 3 at `end()` of [1, 2] as written answers position 0, which
      holds 1, instead of position 2, which holds 3. */
  lemma InsertAtEndAsWrittenMisplaces()
    ensures var r := InsertAsWritten(List([1, 2], 2), 2, 3);
      r.0.items == [1, 2, 3] && r.1 == 0 && r.0.items[r.1] == 1
    ensures Insert(List([1, 2], 2), 2, 3).1 == 2
  {
  }

  /** `erase(pos)` (lines 181-205): `end()` throws `std::out_of_range`;
      otherwise exactly the node at `pos` is unlinked (through `pop_front` or
      `pop_back` at either end) and the count lowered. */
  function Erase<T>(l: List<T>, pos: nat): (r: Outcome<List<T>>)
    requires pos <= |l.items|
    ensures r.OutOfRange? <==> pos == |l.items|
    ensures r.Ok? ==> r.value.items == RbErase.Remove(l.items, pos) && r.value.size == Dec(l.size)
    ensures !r.Undefined?
    ensures ListInv(l) && r.Ok? ==> ListInv(r.value)
  {
    if pos == |l.items| then OutOfRange
    else if pos == 0 then
      assert l.items[1..] == RbErase.Remove(l.items, 0);
      Ok(PopFront(l))
    else if pos == |l.items| - 1 then
      assert l.items[..|l.items| - 1] == RbErase.Remove(l.items, pos);
      Ok(PopBack(l))
    else Ok(List(RbErase.Remove(l.items, pos), Dec(l.size)))
  }

  /** Erasing the element just inserted gives the list back. */
  lemma InsertEraseInverse<T>(l: List<T>, pos: nat, v: T)
    requires ListInv(l) && pos <= |l.items|
    ensures Erase(Insert(l, pos, v).0, pos) == Ok(l)
  {
    var items := Insert(l, pos, v).0.items;
    assert RbErase.Remove(items, pos) == l.items;
  }

  /** `clear()` (lines 139-149). */
  function Clear<T>(l: List<T>): (r: List<T>)
    ensures r.items == [] && r.size == 0 && ListInv(r)
  {
    List([], 0)
  }

  /** `swap(other)` (lines 260-264) exchanges heads, tails and counts. */
  function Swap<T>(a: List<T>, b: List<T>): (r: (List<T>, List<T>))
  {
    (b, a)
  }

  lemma SwapTwice<T>(a: List<T>, b: List<T>)
    ensures var r := Swap(a, b); Swap(r.0, r.1) == (a, b)
    ensures Front(Swap(a, b).0) == Front(b) && Back(Swap(a, b).1) == Back(a)
  {
  }

  /** `reverse()` (lines 266-283): every node's links are exchanged while the
      walk moves to the old `next_`, and the old tail becomes the head. */
  method Reverse<T>(l: List<T>) returns (r: List<T>)
    ensures r.size == l.size && |r.items| == |l.items|
    ensures forall i :: 0 <= i < |l.items| ==> r.items[i] == l.items[|l.items| - 1 - i]
  {
    var acc: seq<T> := [];
    var i := 0;
    while i < |l.items|
      invariant 0 <= i <= |l.items| && |acc| == i
      invariant forall j :: 0 <= j < i ==> acc[j] == l.items[i - 1 - j]
    {
      acc := [l.items[i]] + acc;
      i := i + 1;
    }
    r := List(acc, l.size);
  }

  // ----- unique -----

  predicate NoAdjacentEqual<T(==,!new)>(s: seq<T>)
  {
    forall i :: 0 <= i < |s| - 1 ==> s[i] != s[i + 1]
  }

  /** The walk of `unique()` (lines 284-300): a node equal to its successor
      absorbs it, otherwise the walk moves on.  One element per run of equal
      neighbours remains, in order. */
  function Dedup<T(==,!new)>(s: seq<T>): (r: seq<T>)
    ensures |r| <= |s|
    ensures s != [] ==> r != [] && r[0] == s[0]
    ensures NoAdjacentEqual(r)
    ensures forall x :: x in r <==> x in s
    decreases |s|
  {
    if |s| <= 1 then s
    else if s[0] == s[1] then Dedup(s[1..])
    else
      var rest := Dedup(s[1..]);
      assert forall x :: x in s <==> x == s[0] || x in s[1..];
      [s[0]] + rest
  }

  /** A sequence without equal neighbours is left as it is, so `unique` is idempotent. */
  lemma {:induction false} DedupKeepsDistinctRuns<T(!new)>(s: seq<T>)
    requires NoAdjacentEqual(s)
    ensures Dedup(s) == s
    decreases |s|
  {
    if |s| > 1 {
      assert NoAdjacentEqual(s[1..]) by {
        forall i | 0 <= i < |s[1..]| - 1 ensures s[1..][i] != s[1..][i + 1]
        {
          assert s[1..][i] == s[i + 1] && s[1..][i + 1] == s[i + 2];
        }
      }
      DedupKeepsDistinctRuns(s[1..]);
      assert s == [s[0]] + s[1..];
    }
  }

  lemma DedupIdempotent<T(!new)>(s: seq<T>)
    ensures Dedup(Dedup(s)) == Dedup(s)
  {
    DedupKeepsDistinctRuns(Dedup(s));
  }

  /** Appending a value: it is absorbed exactly when it equals the last one,
      and otherwise kept after everything the walk kept before.  With
      `Dedup([]) == []` this fixes the result on every input. */
  lemma {:induction false} DedupSnoc<T(!new)>(s: seq<T>, x: T)
    ensures Dedup(s + [x]) == if s != [] && s[|s| - 1] == x then Dedup(s) else Dedup(s) + [x]
    decreases |s|
  {
    if |s| >= 2 {
      assert (s + [x])[1..] == s[1..] + [x];
      assert s[1..][|s[1..]| - 1] == s[|s| - 1];
      DedupSnoc(s[1..], x);
    } else if |s| == 1 {
      assert (s + [x])[1..] == [x];
    }
  }

  /** `unique` after `push_back(x)`, both as written and corrected: the new
      node goes exactly when it equals the old back; the count as written
      still includes it. */
  lemma UniquePushBack<T(!new)>(l: List<T>, x: T)
    ensures Unique(PushBack(l, x)).items ==
      if l.items != [] && l.items[|l.items| - 1] == x then Unique(l).items else Unique(l).items + [x]
    ensures UniqueAsWritten(PushBack(l, x)).items == Unique(PushBack(l, x)).items
    ensures UniqueAsWritten(PushBack(l, x)).size == l.size + 1
  {
    DedupSnoc(l.items, x);
  }

  /** `unique()` as written: the nodes go but `size_` stays. */
  function UniqueAsWritten<T(==,!new)>(l: List<T>): (r: List<T>)
    ensures NoAdjacentEqual(r.items) && r.size == l.size
    ensures forall x :: x in r.items <==> x in l.items
  {
    List(Dedup(l.items), l.size)
  }

  /** `unique()` counting the nodes that remain. */
  function Unique<T(==,!new)>(l: List<T>): (r: List<T>)
    ensures NoAdjacentEqual(r.items) && ListInv(r)
    ensures forall x :: x in r.items <==> x in l.items
  {
    var items := Dedup(l.items);
    List(items, |items|)
  }

  /** `unique()` on [1, 1] as written keeps one node and a count of two. */
  lemma UniqueAsWrittenMiscounts()
    ensures var r := UniqueAsWritten(List([1, 1], 2));
      r.items == [1] && r.size == 2 && !ListInv(r)
    ensures Unique(List([1, 1], 2)) == List([1], 1)
  {
    assert [1, 1][1..] == [1];
  }

  // ----- sort and merge -----

  predicate NonDecreasing(s: seq<int>)
  {
    forall i, j :: 0 <= i < j < |s| ==> s[i] <= s[j]
  }

  /** The slow/fast walk of `split` (lines 324-338): `fast` moves two nodes
      while both exist, `slow` one; the first half ends at `slow`. */
  function SplitWalk(n: nat, slow: nat, fast: nat): (r: nat)
    requires slow <= fast < n && fast == 2 * slow
    ensures r == (n + 1) / 2
    decreases n - fast
  {
    if fast + 2 < n then SplitWalk(n, slow + 1, fast + 2) else slow + 1
  }

  /** The length of the first half `split` cuts off a list of `n >= 1` nodes. */
  function Half(n: nat): (r: nat)
    requires n >= 1
    ensures 1 <= r <= n && (n >= 2 ==> r < n)
    ensures r == n - n / 2
  {
    SplitWalk(n, 0, 0)
  }

  /** The recursive `merge(first, second)` (lines 340-357) and the walk of
      `merge(other)` (lines 309-322): the smaller head goes first, and on a tie
      the head of the second sequence. */
  function MergeSeq(a: seq<int>, b: seq<int>): (r: seq<int>)
    ensures multiset(r) == multiset(a) + multiset(b)
    ensures r != [] ==> (a != [] && r[0] == a[0]) || (b != [] && r[0] == b[0])
    decreases |a| + |b|
  {
    if a == [] then b
    else if b == [] then a
    else if a[0] < b[0] then
      assert multiset(a) == multiset{a[0]} + multiset(a[1..]) by {
        assert a == [a[0]] + a[1..];
      }
      [a[0]] + MergeSeq(a[1..], b)
    else
      assert multiset(b) == multiset{b[0]} + multiset(b[1..]) by {
        assert b == [b[0]] + b[1..];
      }
      [b[0]] + MergeSeq(a, b[1..])
  }

  lemma TailNonDecreasing(s: seq<int>)
    requires NonDecreasing(s) && s != []
    ensures NonDecreasing(s[1..]) && (|s| > 1 ==> s[0] <= s[1])
  {
    assert forall i, j :: 0 <= i < j < |s[1..]| ==> s[1..][i] == s[i + 1] && s[1..][j] == s[j + 1];
  }

  /** Merging two ordered sequences gives an ordered sequence. */
  lemma {:induction false} MergeSorted(a: seq<int>, b: seq<int>)
    ensures NonDecreasing(a) && NonDecreasing(b) ==> NonDecreasing(MergeSeq(a, b))
    decreases |a| + |b|
  {
    if NonDecreasing(a) && NonDecreasing(b) && a != [] && b != [] {
      TailNonDecreasing(a);
      TailNonDecreasing(b);
      if a[0] < b[0] {
        MergeSorted(a[1..], b);
        MergeHead(a[0], MergeSeq(a[1..], b));
      } else {
        MergeSorted(a, b[1..]);
        MergeHead(b[0], MergeSeq(a, b[1..]));
      }
    }
  }

  /** A sequence stays ordered when an element no larger than its head goes first. */
  lemma MergeHead(x: int, rest: seq<int>)
    requires NonDecreasing(rest) && (rest != [] ==> x <= rest[0])
    ensures NonDecreasing([x] + rest)
  {
    var s := [x] + rest;
    forall i, j | 0 <= i < j < |s| ensures s[i] <= s[j]
    {
      if i > 0 {
        assert s[i] == rest[i - 1] && s[j] == rest[j - 1];
      } else {
        assert s[j] == rest[j - 1];
      }
    }
  }

  /** `mergeSort` (lines 359-365): split, sort both halves, merge. */
  function MergeSort(s: seq<int>): (r: seq<int>)
    ensures multiset(r) == multiset(s)
    ensures NonDecreasing(r)
    decreases |s|
  {
    if |s| <= 1 then s
    else
      var h := Half(|s|);
      assert s == s[..h] + s[h..];
      MergeSorted(MergeSort(s[..h]), MergeSort(s[h..]));
      MergeSeq(MergeSort(s[..h]), MergeSort(s[h..]))
  }

  /** `sort()` (lines 367-375): the nodes are re-linked in order; the count
      is untouched. */
  function Sort(l: List<int>): (r: List<int>)
    ensures NonDecreasing(r.items) && multiset(r.items) == multiset(l.items)
    ensures r.size == l.size
  {
    List(MergeSort(l.items), l.size)
  }

  /** `merge(other)` (lines 309-322): each element of `other` is inserted
      before the first element of this list that is not smaller, and `other`
      is cleared.  An empty `other` (by its count) leaves both alone. */
  function Merge(l: List<int>, other: List<int>): (r: (List<int>, List<int>))
    ensures other.size == 0 ==> r == (l, other)
    ensures other.size != 0 ==> multiset(r.0.items) == multiset(l.items) + multiset(other.items)
    ensures other.size != 0 ==> r.0.size == l.size + |other.items| && r.1 == Clear(other)
    ensures NonDecreasing(l.items) && NonDecreasing(other.items) ==> NonDecreasing(r.0.items)
    ensures ListInv(l) && ListInv(other) ==> ListInv(r.0) && ListInv(r.1)
  {
    MergeSorted(l.items, other.items);
    if other.size == 0 then (l, other)
    else (List(MergeSeq(l.items, other.items), l.size + |other.items|), Clear(other))
  }

  // ----- several elements at once -----

  /** The inserts of `insert_many(pos, args...)` (lines 377-385) and of
      `splice` (lines 302-308): each value goes before the same node, so the
      values end up in order in front of it. */
  function InsertAllAt<T>(l: List<T>, pos: nat, xs: seq<T>): (r: (List<T>, nat))
    requires pos <= |l.items|
    ensures r.0.items == l.items[..pos] + xs + l.items[pos..]
    ensures r.0.size == l.size + |xs|
    ensures xs == [] ==> r.1 == |l.items|
    ensures xs != [] ==> r.1 == pos + |xs| - 1 && r.0.items[r.1] == xs[|xs| - 1]
    decreases |xs|
  {
    if xs == [] then (l, |l.items|)
    else
      var (l1, it) := Insert(l, pos, xs[0]);
      if |xs| == 1 then (l1, it)
      else
        var r := InsertAllAt(l1, pos + 1, xs[1..]);
        assert l1.items[..pos + 1] == l.items[..pos] + [xs[0]];
        assert l1.items[pos + 1..] == l.items[pos..];
        r
  }

  /** `insert_many(pos, args...)` as written (lines 377-385): each value goes
      through `insert` as written before the same node, whose position moves
      up by one each time (`end()` stays the end), and the result is what the
      last `insert` answered, or `end()` for no values. */
  function InsertManyAsWritten<T>(l: List<T>, pos: nat, xs: seq<T>): (r: (List<T>, nat))
    requires pos <= |l.items|
    ensures r.0.items == l.items[..pos] + xs + l.items[pos..]
    ensures r.0.size == l.size + |xs|
    ensures r.1 <= |r.0.items|
    ensures xs == [] ==> r.1 == |l.items|
    ensures xs != [] && pos < |l.items| ==> r.1 == pos + |xs| - 1 && r.0.items[r.1] == xs[|xs| - 1]
    decreases |xs|
  {
    if xs == [] then (l, |l.items|)
    else
      var (l1, it) := InsertAsWritten(l, pos, xs[0]);
      if |xs| == 1 then (l1, it)
      else
        var r := InsertManyAsWritten(l1, pos + 1, xs[1..]);
        assert l1.items[..pos + 1] == l.items[..pos] + [xs[0]];
        assert l1.items[pos + 1..] == l.items[pos..];
        r
  }

  /** At `end()` as written the answer is not the last value: 5 and 6 after
      [1, 2] give position 1, which holds 2, and 5 and 6 into an empty list
      give `end()`. */
  lemma InsertManyAtEndAsWrittenMisplaces()
    ensures var r := InsertManyAsWritten(List([1, 2], 2), 2, [5, 6]);
      r.0.items == [1, 2, 5, 6] && r.1 == 1 && r.0.items[r.1] == 2
    ensures InsertMany(List([1, 2], 2), 2, [5, 6]).1 == 3
    ensures var e := InsertManyAsWritten(List([], 0), 0, [5, 6]);
      e.0.items == [5, 6] && e.1 == |e.0.items|
    ensures InsertMany(List([], 0), 0, [5, 6]).1 == 1
  {
    assert [5, 6][1..] == [6];
  }

  /** `insert_many(pos, args...)` answering the position of the last value
      inserted, or `end()` for none. */
  function InsertMany<T>(l: List<T>, pos: nat, xs: seq<T>): (r: (List<T>, nat))
    requires pos <= |l.items|
    ensures r.0.items == l.items[..pos] + xs + l.items[pos..]
    ensures ListInv(l) ==> ListInv(r.0)
    ensures xs != [] ==> r.1 < |r.0.items| && r.0.items[r.1] == xs[|xs| - 1]
  {
    InsertAllAt(l, pos, xs)
  }

  /** `splice(pos, other)` (lines 302-308): the elements of `other` are
      copied in before `pos`; `other` itself is left as it is. */
  function Splice<T>(l: List<T>, pos: nat, other: List<T>): (r: List<T>)
    requires pos <= |l.items|
    ensures other.size != 0 ==> r.items == l.items[..pos] + other.items + l.items[pos..]
    ensures other.size == 0 ==> r == l
    ensures ListInv(l) ==> ListInv(r)
  {
    if other.size != 0 then InsertAllAt(l, pos, other.items).0 else l
  }

  /** `insert_many_back(args...)` (lines 386-392), and with it the
      initializer-list constructor, the copy constructor and both assignments,
      which clear the target and `push_back` every element of the source. */
  function InsertManyBack<T>(l: List<T>, xs: seq<T>): (r: List<T>)
    ensures r.items == l.items + xs && r.size == l.size + |xs|
    decreases |xs|
  {
    if xs == [] then l
    else
      assert l.items + xs == (l.items + [xs[0]]) + xs[1..];
      InsertManyBack(PushBack(l, xs[0]), xs[1..])
  }

  /** Copy assignment (lines 114-122): a copy of `src`, whatever the target held. */
  function Assign<T>(l: List<T>, src: List<T>): (r: List<T>)
    ensures r.items == src.items && ListInv(r)
  {
    InsertManyBack(Clear(l), src.items)
  }

  /** The constructor `list(n)` (lines 84-88): `n` default values pushed back. */
  function ListOfSize<T>(n: nat, d: T): (r: List<T>)
    ensures ListInv(r) && |r.items| == n
    ensures forall i :: 0 <= i < n ==> r.items[i] == d
  {
    InsertManyBack(NewList(), seq(n, _ => d))
  }

  /** Move assignment (lines 103-112): the target becomes a copy of `src`
      and `src` is cleared. */
  function MoveAssign<T>(l: List<T>, src: List<T>): (r: (List<T>, List<T>))
    ensures r.0.items == src.items && ListInv(r.0)
    ensures r.1.items == [] && ListInv(r.1)
  {
    (Assign(l, src), Clear(src))
  }

  /** `empty()` (line 133) asks the counter, which answers for the nodes
      while the counter is right. */
  function IsEmpty<T>(l: List<T>): (r: bool)
    ensures ListInv(l) ==> (r <==> l.items == [])
  {
    l.size == 0
  }

  /** `insert_many_front(args...)` (lines 393-399) as written: each value is
      pushed to the front, so they end up reversed, and on an empty list the
      first one is counted twice. */
  function InsertManyFrontAsWritten<T>(l: List<T>, xs: seq<T>): (r: List<T>)
    ensures |r.items| == |l.items| + |xs|
    ensures forall i :: 0 <= i < |xs| ==> r.items[i] == xs[|xs| - 1 - i]
    ensures r.items[|xs|..] == l.items
    ensures r.size == l.size + |xs| + (if l.items == [] && xs != [] then 1 else 0)
    decreases |xs|
  {
    if xs == [] then l
    else InsertManyFrontAsWritten(PushFrontAsWritten(l, xs[0]), xs[1..])
  }

  function InsertManyFront<T>(l: List<T>, xs: seq<T>): (r: List<T>)
    ensures |r.items| == |l.items| + |xs|
    ensures forall i :: 0 <= i < |xs| ==> r.items[i] == xs[|xs| - 1 - i]
    ensures r.items[|xs|..] == l.items
    ensures r.size == l.size + |xs|
    decreases |xs|
  {
    if xs == [] then l
    else InsertManyFront(PushFront(l, xs[0]), xs[1..])
  }
}

=== FILE: maps.dfy ===
/** `map<Key, T>`: a red-black tree of (key, value) pairs whose `insert`
    refuses a key already present, so that every key has one value.
    Positions are in-order indices, the number of entries standing for `end()`. */
module Maps {
  import opened Outcomes
  import opened RbTree
  import opened RbPath
  import opened RbInsert
  import opened RbErase
  import opened RbOps
  import Sets

  /** What a map keeps true between calls: a valid tree whose keys are distinct. */
  predicate MapInv<V>(t: Tree<V>)
  {
    Valid(t) && StrictlySorted(InOrder(t))
  }

  /** A key is present exactly when some entry carries it. */
  lemma KeyHasEntry<V>(s: seq<(int, V)>, k: int)
    requires k in KeySet(s)
    ensures exists w :: (k, w) in s
  {
    var i :| 0 <= i < |s| && s[i].0 == k;
    assert (k, s[i].1) == s[i];
  }

  lemma EntryHasKey<V>(s: seq<(int, V)>, k: int, w: V)
    requires (k, w) in s
    ensures k in KeySet(s)
  {
    var i :| 0 <= i < |s| && s[i] == (k, w);
    assert s[i].0 in KeySet(s);
  }

  /** A splice adds exactly the key of the new pair. */
  lemma KeySetInsertion<V>(before: seq<(int, V)>, after: seq<(int, V)>, x: (int, V))
    requires InsertedSomewhere(before, after, x)
    ensures KeySet(after) == KeySet(before) + {x.0}
  {
    var i :| 0 <= i <= |before| && after == before[..i] + [x] + before[i..];
    SpliceIndices(before, x, i);
    StrictInsertionKeys(before, after, x, i);
  }

  /** `at(key)` (map.h lines 76-82): the value stored under `key`, or
      `std::out_of_range` when the search reaches `end()`. */
  function MapAt<V>(t: Tree<V>, k: int): (r: Outcome<V>)
    ensures !r.Undefined?
    ensures r.OutOfRange? <==> k !in KeySet(InOrder(t))
    ensures r.Ok? ==> (k, r.value) in InOrder(t)
  {
    var s := InOrder(t);
    KeySetContains(s, k);
    ContainsIffFound(s, k);
    var i := Find(s, k);
    if i == |s| then OutOfRange
    else
      assert (k, s[i].1) == s[i];
      Ok(s[i].1)
  }

  /** In a map, `at` gives a value exactly when that entry is stored. */
  lemma MapAtMembership<V>(t: Tree<V>, k: int, w: V)
    requires MapInv(t)
    ensures MapAt(t, k) == Ok(w) <==> (k, w) in InOrder(t)
  {
    var s := InOrder(t);
    if (k, w) in s {
      EntryHasKey(s, k, w);
      var j :| 0 <= j < |s| && s[j] == (k, w);
      var i := Find(s, k);
      assert s[i].0 == k;
      assert i == j;
    }
  }

  /** Two maps holding the same entries for `j` give the same `at(j)`. */
  lemma SameEntries<V>(t: Tree<V>, u: Tree<V>, j: int)
    requires MapInv(t) && MapInv(u)
    requires forall w :: (j, w) in InOrder(t) <==> (j, w) in InOrder(u)
    ensures MapAt(t, j) == MapAt(u, j)
  {
    match MapAt(t, j)
    case Ok(w) =>
      MapAtMembership(u, j, w);
    case OutOfRange =>
      if MapAt(u, j).Ok? {
        var w := MapAt(u, j).value;
        MapAtMembership(t, j, w);
      }
  }

  /** `insert(key, obj)` and `insert(value)` (lines 51-58): a key already
      present gives `{end(), false}` and changes nothing; otherwise the tree
      insert adds the entry and the iterator points at it. */
  function MapInsert<V>(t: Tree<V>, k: int, v: V): (r: (Tree<V>, nat, bool))
    ensures r.2 <==> k !in KeySet(InOrder(t))
    ensures !r.2 ==> r.0 == t && r.1 == |InOrder(t)|
    ensures r.2 ==> multiset(InOrder(r.0)) == multiset(InOrder(t)) + multiset{(k, v)}
    ensures r.2 ==> r.1 < |InOrder(r.0)| && InOrder(r.0)[r.1] == (k, v)
    ensures KeySet(InOrder(r.0)) == KeySet(InOrder(t)) + {k}
    ensures MapInv(t) ==> MapInv(r.0)
  {
    var s := InOrder(t);
    KeySetContains(s, k);
    if Contains(s, k) then (t, |s|, false)
    else
      var t' := Insert(t, k, v).0;
      NewKeyFacts(t, k, v);
      (t', Find(InOrder(t'), k), true)
  }

  lemma NewKeyFacts<V>(t: Tree<V>, k: int, v: V)
    requires !Contains(InOrder(t), k)
    ensures var s' := InOrder(Insert(t, k, v).0);
      multiset(s') == multiset(InOrder(t)) + multiset{(k, v)} &&
      KeySet(s') == KeySet(InOrder(t)) + {k} &&
      Find(s', k) < |s'| && s'[Find(s', k)] == (k, v) &&
      (MapInv(t) ==> MapInv(Insert(t, k, v).0))
  {
    var s := InOrder(t);
    var t' := Insert(t, k, v).0;
    InsertedSomewhereMultiset(s, InOrder(t'), (k, v));
    KeySetInsertion(s, InOrder(t'), (k, v));
    if MapInv(t) {
      StrictInsertion(s, InOrder(t'), (k, v));
    }
    FindNewKey(s, InOrder(t'), (k, v));
  }

  /** A new key maps to its value and every other key keeps its value. */
  lemma MapInsertUpdates<V>(t: Tree<V>, k: int, v: V, j: int)
    requires MapInv(t)
    ensures var r := MapInsert(t, k, v);
      MapAt(r.0, j) == if j == k && r.2 then Ok(v) else MapAt(t, j)
  {
    var r := MapInsert(t, k, v);
    if r.2 {
      var s := InOrder(t);
      var s' := InOrder(r.0);
      if j == k {
        MapAtMembership(r.0, k, v);
      } else {
        forall w ensures (j, w) in s <==> (j, w) in s'
        {
          assert (j, w) in s <==> (j, w) in multiset(s);
          assert (j, w) in s' <==> (j, w) in multiset(s');
        }
        SameEntries(t, r.0, j);
      }
    }
  }

  /** `operator[](key)` (lines 84-91): the stored value, or, for a missing
      key, a default-constructed value `d` inserted under it by the corrected
      insert. */
  function MapIndex<V>(t: Tree<V>, k: int, d: V): (r: (Tree<V>, V))
    ensures k in KeySet(InOrder(t)) ==> r.0 == t && MapAt(t, k) == Ok(r.1)
    ensures k !in KeySet(InOrder(t)) ==>
      r.1 == d && multiset(InOrder(r.0)) == multiset(InOrder(t)) + multiset{(k, d)}
    ensures MapInv(t) ==> MapInv(r.0) && MapAt(r.0, k) == Ok(r.1)
  {
    match MapAt(t, k)
    case Ok(w) => (t, w)
    case _ =>
      var r := MapInsert(t, k, d);
      if MapInv(t) then MapInsertUpdates(t, k, d, k); (r.0, d)
      else (r.0, d)
  }

  /** `insert_or_assign(key, obj)` (lines 60-74) over the corrected erase:
      when the entry (key, obj) is already stored, its position and `false`;
      otherwise an entry with the key is erased and (key, obj) inserted,
      reporting the insert's flag. */
  function InsertOrAssign<V(==)>(t: Tree<V>, k: int, v: V): (r: Outcome<(Tree<V>, nat, bool)>)
    ensures MapInv(t) ==> r.Ok? && MapInv(r.value.0)
    ensures MapInv(t) ==> r.value.1 < |InOrder(r.value.0)| && InOrder(r.value.0)[r.value.1] == (k, v)
    ensures MapInv(t) ==> (r.value.2 <==> (k, v) !in InOrder(t))
  {
    var s := InOrder(t);
    match GetNode(Cursor(t, Top), (k, v))
    case Some(c) =>
      IndexLocates(c);
      if MapInv(t) then
        MapAtMembership(t, k, v);
        Ok((t, Find(s, k), false))
      else Ok((t, Find(s, k), false))
    case None =>
      GetNodeMisses(t, k, v);
      KeySetContains(s, k);
      ContainsIffFound(s, k);
      if Contains(s, k) then
        var i := Find(s, k);
        if MapInv(t) then
          StrictKeyHoldsOnly(s, i);
          EraseKeepsValid(t, i);
          StrictRemoval(s, i);
          var t1 := Erase(t, i).value;
          Ok(MapInsert(t1, k, v))
        else
          match Erase(t, i)
          case Ok(t1) => Ok(MapInsert(t1, k, v))
          case OutOfRange => OutOfRange
          case Undefined => Undefined
      else Ok(MapInsert(t, k, v))
  }

  /** `insert_or_assign(key, obj)` as written: the same branches, but the
      replacing branch erases through the tree's `erase` as written, whose
      repair can fail; that failure is the answer. */
  function InsertOrAssignAsWritten<V(==)>(t: Tree<V>, k: int, v: V): (r: Outcome<(Tree<V>, nat, bool)>)
    ensures MapInv(t) && (k, v) in InOrder(t) ==> r.Ok? && r.value.0 == t && !r.value.2
    ensures k !in KeySet(InOrder(t)) ==>
      r.Ok? && r.value.2 && multiset(InOrder(r.value.0)) == multiset(InOrder(t)) + multiset{(k, v)}
    ensures MapInv(t) && (k, v) !in InOrder(t) && k in KeySet(InOrder(t)) ==>
      Find(InOrder(t), k) < |InOrder(t)| && (r.Ok? <==> EraseAsWritten(t, Find(InOrder(t), k)).Ok?) &&
      (r.Undefined? <==> EraseAsWritten(t, Find(InOrder(t), k)).Undefined?)
    ensures MapInv(t) && r.Ok? ==> r.value.1 < |InOrder(r.value.0)| && InOrder(r.value.0)[r.value.1] == (k, v)
    ensures MapInv(t) && r.Ok? ==> (r.value.2 <==> (k, v) !in InOrder(t))
    ensures MapInv(t) && r.Ok? ==> KeySet(InOrder(r.value.0)) == KeySet(InOrder(t)) + {k}
  {
    var s := InOrder(t);
    KeySetContains(s, k);
    ContainsIffFound(s, k);
    match GetNode(Cursor(t, Top), (k, v))
    case Some(c) =>
      IndexLocates(c);
      assert (k, v) in s;
      if MapInv(t) then
        MapAtMembership(t, k, v);
        Ok((t, Find(s, k), false))
      else Ok((t, Find(s, k), false))
    case None =>
      GetNodeMisses(t, k, v);
      if Contains(s, k) then ReplaceAsWritten(t, k, v, Find(s, k))
      else Ok(MapInsert(t, k, v))
  }

  /** The replacing branch as written: the entry at `i`, which holds the key,
      is erased by the erase as written and the new entry inserted; a failed
      erase is the answer. */
  function ReplaceAsWritten<V(==)>(t: Tree<V>, k: int, v: V, i: nat): (r: Outcome<(Tree<V>, nat, bool)>)
    requires i < |InOrder(t)| && InOrder(t)[i].0 == k
    ensures r.Ok? <==> EraseAsWritten(t, i).Ok?
    ensures r.Undefined? <==> EraseAsWritten(t, i).Undefined?
    ensures MapInv(t) && r.Ok? ==> r.value.2 && r.value.1 < |InOrder(r.value.0)| && InOrder(r.value.0)[r.value.1] == (k, v)
    ensures MapInv(t) && r.Ok? ==> KeySet(InOrder(r.value.0)) == KeySet(InOrder(t)) + {k}
  {
    var e := EraseAsWritten(t, i);
    if e.Ok? then
      ErasedThenInserted(t, k, v, i, e.value);
      Ok(MapInsert(e.value, k, v))
    else if e.OutOfRange? then OutOfRange
    else Undefined
  }

  /** In a map, inserting `(k, v)` after the erase as written has taken out
      the old entry of `k` adds a new entry at the reported position. */
  lemma ErasedThenInserted<V>(t: Tree<V>, k: int, v: V, i: nat, t1: Tree<V>)
    requires i < |InOrder(t)| && InOrder(t)[i].0 == k && EraseAsWritten(t, i) == Ok(t1)
    ensures MapInv(t) ==> var r := MapInsert(t1, k, v);
      r.2 && r.1 < |InOrder(r.0)| && InOrder(r.0)[r.1] == (k, v) &&
      KeySet(InOrder(r.0)) == KeySet(InOrder(t)) + {k}
  {
    if MapInv(t) {
      ErasedKeyGone(t, i, t1);
      FreshKeyInserted(t1, k, v, KeySet(InOrder(t)));
    }
  }

  /** Inserting a key that the erase took out of the key set `keys` adds a
      new entry and gives the key set back. */
  lemma FreshKeyInserted<V>(t1: Tree<V>, k: int, v: V, keys: set<int>)
    requires k in keys && KeySet(InOrder(t1)) == keys - {k}
    ensures var r := MapInsert(t1, k, v);
      r.2 && r.1 < |InOrder(r.0)| && InOrder(r.0)[r.1] == (k, v) &&
      KeySet(InOrder(r.0)) == keys + {k}
  {
    var r := MapInsert(t1, k, v);
    assert k !in KeySet(InOrder(t1));
    assert KeySet(InOrder(r.0)) == (keys - {k}) + {k} == keys + {k};
  }

  /** A completed erase as written takes the key at `i` out of a map and
      leaves the other keys. */
  lemma ErasedKeyGone<V>(t: Tree<V>, i: nat, t1: Tree<V>)
    requires MapInv(t) && i < |InOrder(t)| && EraseAsWritten(t, i) == Ok(t1)
    ensures InOrder(t)[i].0 in KeySet(InOrder(t))
    ensures KeySet(InOrder(t1)) == KeySet(InOrder(t)) - {InOrder(t)[i].0}
  {
    var s := InOrder(t);
    StrictKeyHoldsOnly(s, i);
    EraseAsWrittenRemoves(t, i);
    StrictRemoval(s, i);
  }

  /** Assigning 1 to the key 15 of the map {5, 7, 10, 15} (all mapped to 0):
      the entry (15, 1) is not stored, so the old entry is erased, and the
      erase as written dereferences null; the corrected erase succeeds. */
  lemma InsertOrAssignAsWrittenDereferencesNull()
    ensures MapInv(SampleTree())
    ensures InsertOrAssignAsWritten(SampleTree(), 15, 1) == Undefined
    ensures InsertOrAssign(SampleTree(), 15, 1).Ok?
  {
    var t := SampleTree();
    var s := InOrder(t);
    SampleTreeIsValid();
    assert StrictlySorted(s);
    assert (15, 1) !in s;
    assert s[3].0 == 15 && 15 in KeySet(s);
    assert Find(s, 15) == 3;
    EraseAsWrittenDereferencesNull();
  }

  /** In a map the search by pair misses only pairs that are not stored. */
  lemma GetNodeMisses<V>(t: Tree<V>, k: int, v: V)
    ensures MapInv(t) && GetNode(Cursor(t, Top), (k, v)).None? ==> (k, v) !in InOrder(t)
  {
    var s := InOrder(t);
    if MapInv(t) && (k, v) in s {
      MapAtMembership(t, k, v);
      StrictKeyHoldsOnly(s, Find(s, k));
      GetNodeFinds(Cursor(t, Top), (k, v));
    }
  }

  /** After `insert_or_assign`, the key maps to the new value and every other
      key keeps its value. */
  lemma InsertOrAssignUpdates<V>(t: Tree<V>, k: int, v: V, j: int)
    requires MapInv(t)
    ensures MapAt(InsertOrAssign(t, k, v).value.0, j) == if j == k then Ok(v) else MapAt(t, j)
  {
    var s := InOrder(t);
    var r := InsertOrAssign(t, k, v).value;
    if (k, v) in s {
      MapAtMembership(t, k, v);
      StrictKeyHoldsOnly(s, Find(s, k));
      GetNodeFinds(Cursor(t, Top), (k, v));
      assert r.0 == t;
    } else {
      KeySetContains(s, k);
      ContainsIffFound(s, k);
      assert GetNode(Cursor(t, Top), (k, v)).None?;
      if Contains(s, k) {
        ReplaceUpdates(t, k, v, j);
        assert r == MapInsert(Erase(t, Find(s, k)).value, k, v);
      } else {
        MapInsertUpdates(t, k, v, j);
      }
    }
  }

  /** The branch of `insert_or_assign` for a key stored with another value:
      the old entry is erased and the new one inserted. */
  lemma ReplaceUpdates<V>(t: Tree<V>, k: int, v: V, j: int)
    requires MapInv(t) && Contains(InOrder(t), k)
    ensures Find(InOrder(t), k) < |InOrder(t)| && Erase(t, Find(InOrder(t), k)).Ok?
    ensures MapAt(MapInsert(Erase(t, Find(InOrder(t), k)).value, k, v).0, j) == if j == k then Ok(v) else MapAt(t, j)
  {
    var s := InOrder(t);
    ContainsIffFound(s, k);
    var i := Find(s, k);
    StrictKeyHoldsOnly(s, i);
    EraseKeepsValid(t, i);
    StrictRemoval(s, i);
    var t1 := Erase(t, i).value;
    MapInsertUpdates(t1, k, v, j);
    if j != k {
      RemovedOthersKept(t, t1, i, j);
    }
  }

  /** Removing the entry at `i` keeps `at(j)` for every other key `j`. */
  lemma RemovedOthersKept<V>(t: Tree<V>, t1: Tree<V>, i: nat, j: int)
    requires MapInv(t) && MapInv(t1) && i < |InOrder(t)|
    requires InOrder(t1) == Remove(InOrder(t), i) && InOrder(t)[i].0 != j
    ensures MapAt(t1, j) == MapAt(t, j)
  {
    var s := InOrder(t);
    RemoveMultiset(s, i);
    forall w ensures (j, w) in s <==> (j, w) in InOrder(t1)
    {
      assert (j, w) in s <==> (j, w) in multiset(s);
      assert (j, w) in InOrder(t1) <==> (j, w) in multiset(InOrder(t1));
    }
    SameEntries(t, t1, j);
  }

  /** The entries of `xs` inserted one after the other through `insert`. */
  function MapInsertAll<V>(t: Tree<V>, xs: seq<(int, V)>): (r: Tree<V>)
    ensures KeySet(InOrder(r)) == KeySet(InOrder(t)) + KeySet(xs)
    ensures MapInv(t) ==> MapInv(r)
    decreases |xs|
  {
    if xs == [] then
      assert KeySet(xs) == {};
      t
    else
      KeySetCons(xs);
      MapInsertAll(MapInsert(t, xs[0].0, xs[0].1).0, xs[1..])
  }

  /** The value the first entry of `xs` with key `k` carries, as `at` would
      answer it: `OutOfRange` when no entry has that key. */
  function FirstValue<V>(xs: seq<(int, V)>, k: int): (r: Outcome<V>)
    decreases |xs|
  {
    if xs == [] then OutOfRange
    else if xs[0].0 == k then Ok(xs[0].1)
    else FirstValue(xs[1..], k)
  }

  /** `FirstValue` is the value at the first index holding the key. */
  lemma {:induction false} FirstValueAt<V>(xs: seq<(int, V)>, k: int, i: nat)
    requires i <= |xs| && (i < |xs| ==> xs[i].0 == k)
    requires forall j :: 0 <= j < i ==> xs[j].0 != k
    ensures FirstValue(xs, k) == if i == |xs| then OutOfRange else Ok(xs[i].1)
    decreases |xs|
  {
    if xs != [] && i > 0 {
      assert xs[0].0 != k;
      forall j | 0 <= j < i - 1 ensures xs[1..][j].0 != k
      {
        assert xs[1..][j] == xs[j + 1];
      }
      FirstValueAt(xs[1..], k, i - 1);
    }
  }

  /** `at` on any tree answers the first entry in order carrying the key. */
  lemma MapAtIsFirstValue<V>(t: Tree<V>, k: int)
    ensures MapAt(t, k) == FirstValue(InOrder(t), k)
  {
    FirstValueAt(InOrder(t), k, Find(InOrder(t), k));
  }

  /** After inserting the entries of `xs`, a key already stored keeps its
      value and any other key takes the value of its first entry in `xs`;
      later entries with the same key are refused. */
  lemma {:induction false} MapInsertAllValues<V>(t: Tree<V>, xs: seq<(int, V)>, j: int)
    requires MapInv(t)
    ensures MapAt(MapInsertAll(t, xs), j) ==
      if j in KeySet(InOrder(t)) then MapAt(t, j) else FirstValue(xs, j)
    decreases |xs|
  {
    if xs != [] {
      var r := MapInsert(t, xs[0].0, xs[0].1);
      MapInsertUpdates(t, xs[0].0, xs[0].1, j);
      MapInsertAllValues(r.0, xs[1..], j);
    }
  }

  /** `insert_many(args...)` (lines 93-102): each entry through `insert`, in
      order, with one flag per entry, which is set exactly for an entry whose
      key is neither in the map nor earlier in the list. */
  function MapInsertMany<V>(t: Tree<V>, xs: seq<(int, V)>): (r: (Tree<V>, seq<bool>))
    ensures r.0 == MapInsertAll(t, xs)
    ensures |r.1| == |xs|
    ensures forall i :: 0 <= i < |xs| ==>
      (r.1[i] <==> xs[i].0 !in KeySet(InOrder(t)) && xs[i].0 !in KeySet(xs[..i]))
    decreases |xs|
  {
    if xs == [] then (t, [])
    else
      var (t', _, b) := MapInsert(t, xs[0].0, xs[0].1);
      var rest := MapInsertMany(t', xs[1..]);
      PrefixKeys(xs);
      (rest.0, [b] + rest.1)
  }

  lemma PrefixKeys<V>(xs: seq<(int, V)>)
    requires xs != []
    ensures KeySet(xs[..0]) == {}
    ensures forall i :: 1 <= i <= |xs| ==> KeySet(xs[..i]) == {xs[0].0} + KeySet(xs[1..][..i - 1])
  {
    forall i | 1 <= i <= |xs|
      ensures KeySet(xs[..i]) == {xs[0].0} + KeySet(xs[1..][..i - 1])
    {
      KeySetCons(xs[..i]);
      assert xs[..i][1..] == xs[1..][..i - 1];
    }
    assert KeySet(xs[..0]) == {};
  }

  lemma KeySetCons<V>(xs: seq<(int, V)>)
    requires xs != []
    ensures KeySet(xs) == {xs[0].0} + KeySet(xs[1..])
  {
    forall k | k in KeySet(xs) ensures k == xs[0].0 || k in KeySet(xs[1..])
    {
      var i :| 0 <= i < |xs| && xs[i].0 == k;
      if i > 0 {
        assert xs[1..][i - 1].0 == k;
      }
    }
    forall k | k in KeySet(xs[1..]) ensures k in KeySet(xs)
    {
      var i :| 0 <= i < |xs[1..]| && xs[1..][i].0 == k;
      assert xs[i + 1].0 == k;
    }
    assert xs[0].0 in KeySet(xs);
  }

  /** Entries whose keys are distinct and new are all stored as given. */
  lemma {:induction false} MapInsertAllFresh<V>(t: Tree<V>, xs: seq<(int, V)>)
    requires StrictlySorted(xs) && KeySet(xs) !! KeySet(InOrder(t))
    ensures multiset(InOrder(MapInsertAll(t, xs))) == multiset(InOrder(t)) + multiset(xs)
    decreases |xs|
  {
    if xs != [] {
      var t' := MapInsert(t, xs[0].0, xs[0].1).0;
      FreshInsertStep(t, xs);
      MapInsertAllFresh(t', xs[1..]);
      MultisetStep(multiset(InOrder(t)), multiset(InOrder(t')), multiset(InOrder(MapInsertAll(t, xs))), xs);
    }
  }

  /** One step of the above: the first entry is new, so it is stored, and the
      rest stay new and distinct. */
  lemma FreshInsertStep<V>(t: Tree<V>, xs: seq<(int, V)>)
    requires xs != [] && StrictlySorted(xs) && KeySet(xs) !! KeySet(InOrder(t))
    ensures var t' := MapInsert(t, xs[0].0, xs[0].1).0;
      multiset(InOrder(t')) == multiset(InOrder(t)) + multiset{xs[0]} &&
      StrictlySorted(xs[1..]) && KeySet(xs[1..]) !! KeySet(InOrder(t'))
  {
    var r := MapInsert(t, xs[0].0, xs[0].1);
    StrictTail(xs);
    KeySetCons(xs);
    assert r.2 by {
      assert xs[0].0 in KeySet(xs);
    }
    assert (xs[0].0, xs[0].1) == xs[0];
  }


  lemma StrictTail<V>(xs: seq<(int, V)>)
    requires StrictlySorted(xs) && xs != []
    ensures StrictlySorted(xs[1..]) && xs[0].0 !in KeySet(xs[1..])
  {
    forall a, b | 0 <= a < b < |xs[1..]| ensures xs[1..][a].0 < xs[1..][b].0
    {
      assert xs[1..][a] == xs[a + 1] && xs[1..][b] == xs[b + 1];
    }
  }

  /** `map(std::initializer_list)` (lines 20-24). */
  function MapOf<V>(xs: seq<(int, V)>): (r: Tree<V>)
    ensures MapInv(r) && KeySet(InOrder(r)) == KeySet(xs)
  {
    var e: Tree<V> := Leaf;
    assert InOrder(e) == [] && MapInv(e);
    assert KeySet(InOrder(e)) == {};
    MapInsertAll(e, xs)
  }

  /** The initializer list maps each key to the value of its first entry. */
  lemma MapOfValues<V>(xs: seq<(int, V)>, j: int)
    ensures MapAt(MapOf(xs), j) == FirstValue(xs, j)
  {
    var e: Tree<V> := Leaf;
    assert InOrder(e) == [] && MapInv(e);
    assert KeySet(InOrder(e)) == {};
    MapInsertAllValues(e, xs, j);
  }

  /** The copy constructor (lines 25-29) and copy assignment (lines 42-50):
      the target is cleared and every entry of `m` inserted, so the copy maps
      every key as `m` does. */
  function MapAssign<V>(t: Tree<V>, m: Tree<V>): (r: Tree<V>)
    ensures MapInv(r) && KeySet(InOrder(r)) == KeySet(InOrder(m))
    ensures MapInv(m) ==> multiset(InOrder(r)) == multiset(InOrder(m))
  {
    var e := Clear(t);
    assert InOrder(e) == [] && MapInv(e) && KeySet(InOrder(e)) == {};
    CopyFresh(t, m);
    MapInsertAll(e, InOrder(m))
  }

  lemma CopyFresh<V>(t: Tree<V>, m: Tree<V>)
    ensures MapInv(m) ==> multiset(InOrder(MapInsertAll(Clear(t), InOrder(m)))) == multiset(InOrder(m))
  {
    assert InOrder(Clear(t)) == [];
    if MapInv(m) {
      MapInsertAllFresh(Clear(t), InOrder(m));
    }
  }

  /** A copy answers `at` exactly as the original does. */
  lemma MapAssignCopies<V>(t: Tree<V>, m: Tree<V>, j: int)
    requires MapInv(m)
    ensures MapAt(MapAssign(t, m), j) == MapAt(m, j)
  {
    var r := MapAssign(t, m);
    forall w ensures (j, w) in InOrder(r) <==> (j, w) in InOrder(m)
    {
      assert (j, w) in InOrder(r) <==> (j, w) in multiset(InOrder(r));
      assert (j, w) in InOrder(m) <==> (j, w) in multiset(InOrder(m));
    }
    SameEntries(r, m, j);
  }

  /** Move assignment (lines 32-41) and the move constructor (line 30): a
      copy, after which the source is cleared. */
  function MapMoveAssign<V>(t: Tree<V>, m: Tree<V>): (r: (Tree<V>, Tree<V>))
    ensures MapInv(r.0) && KeySet(InOrder(r.0)) == KeySet(InOrder(m))
    ensures r.1 == Leaf
  {
    (MapAssign(t, m), Clear(m))
  }

  /** `merge(other)`, inherited from the tree (rbtree.h lines 430-435): the
      tree's `insert` takes every entry of `other`, present key or not. */
  function MapMergeAsWritten<V>(t: Tree<V>, other: Tree<V>): (r: (Tree<V>, Tree<V>))
    ensures multiset(InOrder(r.0)) == multiset(InOrder(t)) + multiset(InOrder(other))
    ensures r.1 == Leaf
  {
    Merge(t, other)
  }

  /** `merge` as intended for a map: the entries of `other` go through the
      map's `insert`, so keys stay distinct and present keys keep their values. */
  function MapMerge<V>(t: Tree<V>, other: Tree<V>): (r: (Tree<V>, Tree<V>))
    ensures KeySet(InOrder(r.0)) == KeySet(InOrder(t)) + KeySet(InOrder(other))
    ensures MapInv(t) ==> MapInv(r.0)
    ensures r.1 == Leaf
  {
    (MapInsertAll(t, InOrder(other)), Clear(other))
  }

  /** After the intended merge a key keeps its value when it was present, and
      otherwise answers as in `other`. */
  lemma MapMergeValues<V>(t: Tree<V>, other: Tree<V>, j: int)
    requires MapInv(t)
    ensures MapAt(MapMerge(t, other).0, j) ==
      if j in KeySet(InOrder(t)) then MapAt(t, j) else MapAt(other, j)
  {
    MapInsertAllValues(t, InOrder(other), j);
    MapAtIsFirstValue(other, j);
  }

  /** Merging {1: 1} into {1: 1} as written stores the key 1 twice. */
  lemma MapMergeAsWrittenDuplicates()
    ensures MapInv(Sets.One(1))
    ensures !MapInv(MapMergeAsWritten(Sets.One(1), Sets.One(1)).0)
  {
    Sets.OneHoldsItsKey(1);
    Sets.TwiceNotStrict(InOrder(MapMergeAsWritten(Sets.One(1), Sets.One(1)).0), (1, 1));
  }
}

=== FILE: multisets.dfy ===
/** `multiset<Key>`: the set's tree of (key, key) pairs, but `insert` always
    adds, so a key may be stored several times.  The searches (`count`,
    `find`, `lower_bound`, `upper_bound`, `equal_range`) are the scans of
    `RbOps` over the in-order sequence. */
module Multisets {
  import opened Outcomes
  import opened RbTree
  import opened RbInsert
  import opened RbPath
  import opened RbErase
  import opened RbOps
  import opened Sets

  /** What a multiset keeps true between calls: a valid tree of self-paired keys. */
  predicate MsInv(t: Tree<int>)
  {
    Valid(t) && Paired(InOrder(t))
  }

  /** `insert(value)` (multiset.h lines 55-59): the pair (key, key) is always
      added, and the answer is a fresh `getNode` search for that pair from the
      root, which stops at the first equal pair on its path; a search that
      misses answers `end()`.  In a multiset it always finds the pair. */
  function MsInsert(t: Tree<int>, k: int): (r: (Tree<int>, nat))
    ensures multiset(InOrder(r.0)) == multiset(InOrder(t)) + multiset{(k, k)}
    ensures r.1 <= |InOrder(r.0)|
    ensures r.1 < |InOrder(r.0)| <==> GetNode(Cursor(r.0, Top), (k, k)).Some?
    ensures r.1 < |InOrder(r.0)| ==> InOrder(r.0)[r.1] == (k, k)
    ensures MsInv(t) ==> MsInv(r.0) && r.1 < |InOrder(r.0)|
  {
    var t' := Insert(t, k, k).0;
    InsertionContains(InOrder(t), InOrder(t'), (k, k));
    InsertedSomewhereMultiset(InOrder(t), InOrder(t'), (k, k));
    if Paired(InOrder(t)) && Sorted(InOrder(t')) then
      PairedInsertion(InOrder(t), InOrder(t'), k);
      PairedFinds(t', k);
      SearchAnswer(t', k)
    else
      if Paired(InOrder(t)) then PairedInsertion(InOrder(t), InOrder(t'), k); SearchAnswer(t', k)
      else SearchAnswer(t', k)
  }

  /** The position `getNode` reaches for (k, k), or `end()`. */
  function SearchAnswer(t: Tree<int>, k: int): (r: (Tree<int>, nat))
    ensures r.0 == t && r.1 <= |InOrder(t)|
    ensures r.1 < |InOrder(t)| <==> GetNode(Cursor(t, Top), (k, k)).Some?
    ensures r.1 < |InOrder(t)| ==> InOrder(t)[r.1] == (k, k)
  {
    var hit := GetNode(Cursor(t, Top), (k, k));
    if hit.Some? then
      IndexLocates(hit.value);
      assert Whole(hit.value) == t;
      (t, Index(hit.value))
    else (t, |InOrder(t)|)
  }

  /** In an ordered tree of self-paired keys the search finds a stored (k, k). */
  lemma PairedFinds(t: Tree<int>, k: int)
    requires Sorted(InOrder(t)) && Paired(InOrder(t)) && (k, k) in InOrder(t)
    ensures GetNode(Cursor(t, Top), (k, k)).Some?
  {
    var s := InOrder(t);
    var i :| 0 <= i < |s| && s[i] == (k, k);
    PairedKeyHoldsOnly(s, i);
    GetNodeFinds(Cursor(t, Top), (k, k));
  }

  /** The answer is the search's hit, not the first copy in order: a second 5
      goes below the first, and the search stops at the root, in second place. */
  lemma MsInsertAnswersSearchHit()
    ensures var r := MsInsert(Node(Black, Leaf, 5, 5, Leaf), 5);
      InOrder(r.0) == [(5, 5), (5, 5)] && r.1 == 1
  {
    var t0: Tree<int> := Node(Black, Leaf, 5, 5, Leaf);
    var t1: Tree<int> := Node(Black, Node(Red, Leaf, 5, 5, Leaf), 5, 5, Leaf);
    var c := Seek(Cursor(t0, Top), 5);
    assert c == DownLeft(Cursor(t0, Top));
    var start := Cursor(Node(Red, Leaf, 5, 5, Leaf), c.path);
    assert !RedParent(start) && Whole(start) == t1;
    assert Insert(t0, 5, 5).0 == t1;
    assert GetNode(Cursor(t1, Top), (5, 5)) == Some(Cursor(t1, Top));
    assert SearchAnswer(t1, 5).1 == 1;
  }

  /** Inserting the keys of `xs` one after the other. */
  function MsInsertAll(t: Tree<int>, xs: seq<int>): (r: Tree<int>)
    ensures multiset(InOrder(r)) == multiset(InOrder(t)) + multiset(Pairs(xs))
    ensures MsInv(t) ==> MsInv(r)
    decreases |xs|
  {
    if xs == [] then t
    else
      var t' := MsInsert(t, xs[0]).0;
      var r := MsInsertAll(t', xs[1..]);
      PairsCons(xs);
      MultisetStep(multiset(InOrder(t)), multiset(InOrder(t')), multiset(InOrder(r)), Pairs(xs));
      r
  }

  /** Counting a key among self-paired pairs counts the pair (key, key). */
  lemma {:induction false} PairsCount(xs: seq<int>, k: int)
    ensures multiset(Pairs(xs))[(k, k)] == multiset(xs)[k]
    decreases |xs|
  {
    if xs != [] {
      PairsCons(xs);
      MultisetCons(Pairs(xs));
      MultisetCons(xs);
      PairsCount(xs[1..], k);
    }
  }

  lemma PairsCons(xs: seq<int>)
    requires xs != []
    ensures Pairs(xs) == [(xs[0], xs[0])] + Pairs(xs[1..])
  {
    assert Pairs(xs)[1..] == Pairs(xs[1..]);
  }

  /** `multiset(std::initializer_list)` (lines 21-25): every listed key, as
      often as it is listed. */
  function MsOf(xs: seq<int>): (r: Tree<int>)
    ensures MsInv(r)
    ensures forall k :: multiset(InOrder(r))[(k, k)] == multiset(xs)[k]
  {
    MsOfFacts(xs);
    MsInsertAll(Leaf, xs)
  }

  lemma MsOfFacts(xs: seq<int>)
    ensures MsInv(MsInsertAll(Leaf, xs))
    ensures forall k :: multiset(InOrder(MsInsertAll(Leaf, xs)))[(k, k)] == multiset(xs)[k]
  {
    var e: Tree<int> := Leaf;
    assert InOrder(e) == [];
    assert MsInv(e);
    var m := multiset(InOrder(MsInsertAll(e, xs)));
    assert m == multiset(Pairs(xs));
    forall k ensures m[(k, k)] == multiset(xs)[k] {
      PairsCount(xs, k);
    }
  }

  /** Every stored pair with a given key is the same pair (key, key). */
  lemma PairedKeyHoldsOnly(s: seq<(int, int)>, i: nat)
    requires Paired(s) && i < |s|
    ensures KeyHoldsOnly(s, s[i])
  {
  }

  /** `erase(pos)` (lines 119-123): `end()` does nothing; otherwise one node
      holding the pair at `pos` is removed, which for equal pairs is the same
      as removing the one at `pos`. */
  function MsErase(t: Tree<int>, pos: nat): (r: Outcome<Tree<int>>)
    requires pos <= |InOrder(t)|
    ensures pos == |InOrder(t)| ==> r == Ok(t)
    ensures MsInv(t) ==> r.Ok? && MsInv(r.value)
    ensures MsInv(t) && pos < |InOrder(t)| ==>
      multiset(InOrder(r.value)) == multiset(InOrder(t)) - multiset{InOrder(t)[pos]}
  {
    var s := InOrder(t);
    if MsInv(t) && pos < |s| then
      PairedKeyHoldsOnly(s, pos);
      EraseKeepsValid(t, pos);
      PairedRemoval(s, pos);
      Erase(t, pos)
    else Erase(t, pos)
  }

  /** Copy and move assignment (lines 33-53) and the copy constructor
      (lines 26-30): the target is cleared and every key of `m` inserted,
      taking `m` in in-order order, the walk of the corrected iterator. */
  function MsAssign(t: Tree<int>, m: Tree<int>): (r: Tree<int>)
    ensures MsInv(r)
    ensures MsInv(m) ==> multiset(InOrder(r)) == multiset(InOrder(m))
  {
    assert InOrder(Clear(t)) == [];
    var ks := SetKeys(m);
    assert MsInv(m) ==> Pairs(ks) == InOrder(m);
    MsInsertAll(Clear(t), ks)
  }

  /** `count` equals the width of `equal_range` (lines 64-72 and 83-117): in
      the ordered sequence the copies of a key sit together, between the
      lower and the upper bound. */
  lemma MsCountIsRange(t: Tree<int>, k: int)
    requires MsInv(t)
    ensures LowerBound(InOrder(t), k) <= UpperBound(InOrder(t), k)
    ensures Count(InOrder(t), k) == UpperBound(InOrder(t), k) - LowerBound(InOrder(t), k)
    ensures Count(InOrder(t), k) == multiset(InOrder(t))[(k, k)]
  {
    var s := InOrder(t);
    EqualRange(s, k);
    PairedCount(s, k);
  }

  /** Among self-paired pairs, the keys equal to `k` are the pairs (k, k). */
  lemma {:induction false} PairedCount(s: seq<(int, int)>, k: int)
    requires Paired(s)
    ensures CountOf(s, k) == multiset(s)[(k, k)]
  {
    if s != [] {
      assert s == [s[0]] + s[1..];
      KeysAppend([s[0]], s[1..]);
      PairedCount(s[1..], k);
    }
  }
}

=== FILE: outcome.dfy ===
/** How a C++ operation of the containers ends: with a value, with a thrown
    `std::out_of_range`, or in undefined behaviour (a null dereference, a write
    past the end of an allocation). */
module Outcomes {

  datatype Outcome<+T> = Ok(value: T) | OutOfRange | Undefined {

    predicate IsFailure() {
      !Ok?
    }

    function PropagateFailure<U>(): Outcome<U>
      requires !Ok?
    {
      if OutOfRange? then OutOfRange else Undefined
    }

    function Extract(): T
      requires Ok?
    {
      value
    }
  }

  datatype Option<+T> = None | Some(value: T)
}

=== FILE: queues.dfy ===
/** `queue<T>`: a singly linked chain from `head_` to `tail_` and the count
    `size_`.  `items` lists the nodes from the head (the oldest) to the tail. */
module Queues {
  import opened Outcomes
  import opened SizeT

  datatype Queue<T> = Queue(items: seq<T>, size: nat)

  predicate QueueInv<T>(q: Queue<T>)
  {
    q.size == |q.items|
  }

  function NewQueue<T>(): (r: Queue<T>)
    ensures QueueInv(r) && r.items == []
  {
    Queue([], 0)
  }

  /** `front()` and `back()` (lines 77-78) read through `head_` and `tail_`
      unchecked; both are null for an empty queue.  The queue's nodes are laid
      out as the list's, so these read exactly as `Lists.Front` and `Lists.Back`. */
  function Front<T>(q: Queue<T>): (r: Outcome<T>)
    ensures r.Undefined? <==> q.items == []
    ensures r.Ok? ==> r.value == q.items[0]
  {
    if q.items == [] then Undefined else Ok(q.items[0])
  }

  function Back<T>(q: Queue<T>): (r: Outcome<T>)
    ensures r.Undefined? <==> q.items == []
    ensures r.Ok? ==> r.value == q.items[|q.items| - 1]
  {
    if q.items == [] then Undefined else Ok(q.items[|q.items| - 1])
  }

  /** `push(value)` (lines 83-101): the new node is linked after the tail. */
  function Push<T>(q: Queue<T>, v: T): (r: Queue<T>)
    ensures |r.items| == |q.items| + 1 && r.items[..|q.items|] == q.items && Back(r) == Ok(v)
    ensures r.size == q.size + 1
    ensures QueueInv(q) ==> QueueInv(r)
  {
    Queue(q.items + [v], q.size + 1)
  }

  /** `pop()` (lines 103-112): the head node goes without a check, so an
      empty queue dereferences null.  A pop that leaves no node also resets
      `tail_` to null; the model has no separate tail, so that reset shows
      only as `back()` becoming undefined, which the third clause records. */
  function Pop<T>(q: Queue<T>): (r: Outcome<Queue<T>>)
    ensures r.Undefined? <==> q.items == []
    ensures r.Ok? ==> r.value.items == q.items[1..] && r.value.size == Dec(q.size)
    ensures r.Ok? && |q.items| == 1 ==> Back(r.value).Undefined?
    ensures QueueInv(q) && r.Ok? ==> QueueInv(r.value)
  {
    if q.items == [] then Undefined else Ok(Queue(q.items[1..], Dec(q.size)))
  }

  /** First in, first out: on a non-empty queue, a push and a pop commute,
      so the element popped is the oldest one. */
  lemma PushPopCommute<T>(q: Queue<T>, v: T)
    requires QueueInv(q) && q.items != []
    ensures Pop(Push(q, v)).Ok? && Pop(q).Ok?
    ensures Pop(Push(q, v)).value == Push(Pop(q).value, v)
    ensures Front(Push(q, v)) == Front(q)
  {
    assert (q.items + [v])[1..] == q.items[1..] + [v];
    assert (q.items + [v])[0] == q.items[0];
  }

  /** A value pushed onto an empty queue comes straight back out. */
  lemma PushPopEmpty<T>(v: T)
    ensures Front(Push(NewQueue<T>(), v)) == Ok(v)
    ensures Pop(Push(NewQueue<T>(), v)) == Ok(NewQueue<T>())
  {
  }

  /** `push` of every value in turn: the initializer-list constructor
      (lines 17-22) and `insert_many_back(args...)` (lines 119-125). */
  function PushAll<T>(q: Queue<T>, xs: seq<T>): (r: Queue<T>)
    ensures r.items == q.items + xs && r.size == q.size + |xs|
    decreases |xs|
  {
    if xs == [] then q
    else
      assert q.items + xs == (q.items + [xs[0]]) + xs[1..];
      PushAll(Push(q, xs[0]), xs[1..])
  }

  /** The `pop` loop that empties a queue before an assignment: it runs while
      `head_` is not null, lowering the count once per node. */
  function PopAll<T>(q: Queue<T>): (r: Queue<T>)
    ensures r.items == []
    ensures QueueInv(q) ==> QueueInv(r)
    decreases |q.items|
  {
    if q.items == [] then q else PopAll(Pop(q).value)
  }

  /** Copy assignment (lines 59-75), and the copy constructor (lines 23-25)
      that calls it: the target is emptied and every node of `src` pushed. */
  function CopyAssign<T>(t: Queue<T>, src: Queue<T>): (r: Queue<T>)
    ensures r.items == src.items
    ensures QueueInv(t) ==> QueueInv(r)
  {
    PushAll(PopAll(t), src.items)
  }

  function Copy<T>(src: Queue<T>): (r: Queue<T>)
    ensures r.items == src.items && QueueInv(r)
  {
    CopyAssign(NewQueue(), src)
  }

  /** The move constructor (lines 26-30) and move assignment (lines 41-57):
      the target takes the source's chain and count, the source is left
      empty. */
  function Move<T>(src: Queue<T>): (r: (Queue<T>, Queue<T>))
    ensures r.0 == src && r.1.items == [] && r.1.size == 0
  {
    (src, NewQueue())
  }

  /** `swap(other)` (lines 114-118) exchanges chains and counts. */
  function Swap<T>(a: Queue<T>, b: Queue<T>): (r: (Queue<T>, Queue<T>))
  {
    (b, a)
  }

  lemma SwapTwice<T>(a: Queue<T>, b: Queue<T>)
    ensures var r := Swap(a, b); Swap(r.0, r.1) == (a, b)
    ensures Front(Swap(a, b).0) == Front(b) && Front(Swap(a, b).1) == Front(a)
  {
  }
}

=== FILE: rberase.dfy ===
/** Deletion from the red-black tree: `erase` (lines 401-406), the search
    `getNodeRecursive` (lines 29-41), `deleteNode` (lines 358-400), which swaps
    key and value downwards until the node to unlink has no child, and the
    black-deficit repair `fixDelete` (lines 313-356), as written and corrected. */
module RbErase {
  import opened Outcomes
  import opened RbTree
  import opened RbPath
  import opened RbInsert

  /** The sequence with the element at `i` taken out. */
  function Remove<T>(s: seq<T>, i: nat): (r: seq<T>)
    requires i < |s|
    ensures |r| == |s| - 1
    ensures forall j :: 0 <= j < i ==> r[j] == s[j]
    ensures forall j :: i <= j < |r| ==> r[j] == s[j + 1]
  {
    s[..i] + s[i + 1..]
  }

  lemma RemoveMultiset<T>(s: seq<T>, i: nat)
    requires i < |s|
    ensures multiset(Remove(s, i)) == multiset(s) - multiset{s[i]}
  {
    assert s == s[..i] + [s[i]] + s[i + 1..];
  }

  /** Taking out one element is undone by putting it back where it was. */
  lemma RemoveIsInsertedSomewhere<V>(s: seq<(int, V)>, i: nat)
    requires i < |s|
    ensures InsertedSomewhere(Remove(s, i), s, s[i])
  {
    var r := Remove(s, i);
    assert r[..i] == s[..i] && r[i..] == s[i + 1..];
    assert s == r[..i] + [s[i]] + r[i..];
  }

  lemma RemoveKeepsSorted<V>(s: seq<(int, V)>, i: nat)
    requires i < |s| && Sorted(s)
    ensures Sorted(Remove(s, i))
  {
    var r := Remove(s, i);
    forall a, b | 0 <= a < b < |r|
      ensures r[a].0 <= r[b].0
    {
      var a' := if a < i then a else a + 1;
      var b' := if b < i then b else b + 1;
      assert r[a] == s[a'] && r[b] == s[b'];
    }
  }

  /** Exchanging a position with a neighbour and then removing the neighbour
      removes the original position. */
  lemma RemoveAfterSwap<T>(s: seq<T>, i: nat, j: nat)
    requires i < |s| && j < |s| && (j + 1 == i || i + 1 == j)
    ensures Remove(s[i := s[j]][j := s[i]], j) == Remove(s, i)
  {
  }

  lemma SwapMultiset<T>(s: seq<T>, i: nat, j: nat)
    requires i < |s| && j < |s|
    ensures multiset(s[i := s[j]][j := s[i]]) == multiset(s)
  {
  }

  // ----- moving a key and value between nodes -----

  /** Writing a key and value into the node at a cursor; shape and colours stay. */
  function SetData<V>(c: Cursor<V>, k: int, v: V): (r: Cursor<V>)
    requires c.focus.Node?
    ensures r.path == c.path && r.focus.Node?
    ensures r.focus.color == c.focus.color && r.focus.left == c.focus.left && r.focus.right == c.focus.right
    ensures (r.focus.key, r.focus.value) == (k, v)
  {
    Cursor(c.focus.(key := k, value := v), c.path)
  }

  lemma SetDataInOrder<V>(c: Cursor<V>, k: int, v: V)
    requires c.focus.Node?
    ensures Index(c) < |InOrder(Whole(c))|
    ensures InOrder(Whole(SetData(c, k, v))) == InOrder(Whole(c))[Index(c) := (k, v)]
  {
    var d := SetData(c, k, v);
    InOrderPlug(c.focus, c.path);
    InOrderPlug(d.focus, c.path);
    assert InOrder(c.focus) == InOrder(c.focus.left) + [(c.focus.key, c.focus.value)] + InOrder(c.focus.right);
    assert InOrder(d.focus) == InOrder(c.focus.left) + [(k, v)] + InOrder(c.focus.right);
    UpdateMiddle(Before(c.path), InOrder(c.focus.left), (c.focus.key, c.focus.value), (k, v), InOrder(c.focus.right), After(c.path));
  }

  /** Replacing the element between `l` and `r`, in the middle of a longer sequence. */
  lemma UpdateMiddle<T>(b: seq<T>, l: seq<T>, x: T, y: T, r: seq<T>, a: seq<T>)
    ensures b + (l + [y] + r) + a == (b + (l + [x] + r) + a)[|b| + |l| := y]
  {
    var s := b + (l + [x] + r) + a;
    var s' := b + (l + [y] + r) + a;
    forall i | 0 <= i < |s'|
      ensures s'[i] == s[|b| + |l| := y][i]
    {
      if i < |b| + |l| {
        assert s'[i] == (b + l)[i] && s[i] == (b + l)[i];
      } else if i > |b| + |l| {
        assert s'[i] == (r + a)[i - |b| - |l| - 1] && s[i] == (r + a)[i - |b| - |l| - 1];
      }
    }
  }

  lemma SetDataKeepsColors<V>(c: Cursor<V>, k: int, v: V)
    requires c.focus.Node?
    ensures IsRedBlack(Whole(SetData(c, k, v))) == IsRedBlack(Whole(c))
  {
    var d := SetData(c, k, v);
    BalancedPlug(c.focus, c.path);
    BalancedPlug(d.focus, c.path);
    RedOkPlug(c.focus, c.path);
    RedOkPlug(d.focus, c.path);
    if c.path.Step? {
      PlugRootSame(c.focus, d.focus, c.path);
    }
  }

  /** Below a step, the colour of the root does not depend on the subtree plugged in. */
  lemma {:induction false} PlugRootSame<V>(t: Tree<V>, u: Tree<V>, p: Path<V>)
    requires p.Step?
    ensures Plug(t, p).Node? && Plug(u, p).Node?
    ensures Plug(t, p).color == Plug(u, p).color
    decreases p
  {
    if p.up.Step? {
      PlugRootSame(Attach(p, t), Attach(p, u), p.up);
    }
  }

  /** The `while (update->right)` walk of lines 392-395. */
  function Rightmost<V>(c: Cursor<V>): (r: Cursor<V>)
    requires c.focus.Node?
    ensures r.focus.Node? && r.focus.right.Leaf?
    ensures Whole(r) == Whole(c)
    ensures Size(r.focus) <= Size(c.focus)
    ensures Index(r) + 1 == |Before(c.path)| + |InOrder(c.focus)|
    decreases c.focus
  {
    if c.focus.right.Leaf? then c else Rightmost(DownRight(c))
  }

  /** The walk depends only on the subtree it starts from. */
  lemma RightmostFocus<V>(c: Cursor<V>, d: Cursor<V>)
    requires c.focus.Node? && c.focus == d.focus
    ensures Rightmost(c).focus == Rightmost(d).focus
    decreases c.focus
  {
    if c.focus.right.Node? {
      RightmostFocus(DownRight(c), DownRight(d));
    }
  }

  // ----- the search -----

  /** `getNodeRecursive` (lines 29-41): stop at the node holding exactly this
      pair, otherwise go left for a smaller key and right for any other. */
  function GetNode<V(==)>(c: Cursor<V>, x: (int, V)): (r: Option<Cursor<V>>)
    ensures r.Some? ==> r.value.focus.Node? && (r.value.focus.key, r.value.focus.value) == x
    ensures r.Some? ==> Whole(r.value) == Whole(c)
    decreases c.focus
  {
    match c.focus
    case Leaf => None
    case Node(_, _, key, value, _) =>
      if key == x.0 && value == x.1 then Some(c)
      else if x.0 < key then GetNode(DownLeft(c), x)
      else GetNode(DownRight(c), x)
  }

  /** Every pair with the key of `x` is `x` itself. */
  ghost predicate KeyHoldsOnly<V>(s: seq<(int, V)>, x: (int, V))
  {
    forall i :: 0 <= i < |s| && s[i].0 == x.0 ==> s[i] == x
  }

  /** In an ordered tree the search finds a pair that is present, provided no
      other pair shares its key (always so in a set, a map or a multiset, whose
      values are their keys or whose keys are distinct). */
  lemma {:induction false} GetNodeFinds<V>(c: Cursor<V>, x: (int, V))
    requires Sorted(InOrder(c.focus)) && x in InOrder(c.focus) && KeyHoldsOnly(InOrder(c.focus), x)
    ensures GetNode(c, x).Some?
    decreases c.focus
  {
    var Node(col, l, key, value, rt) := c.focus;
    var s := InOrder(c.focus);
    assert s == InOrder(l) + [(key, value)] + InOrder(rt);
    SortedAroundPivot(InOrder(l), (key, value), InOrder(rt));
    if key == x.0 && value == x.1 {
    } else if x.0 < key {
      forall j | 0 <= j < |InOrder(rt)|
        ensures InOrder(rt)[j] != x
      {
        assert key <= InOrder(rt)[j].0;
      }
      forall i | 0 <= i < |InOrder(l)| && InOrder(l)[i].0 == x.0
        ensures InOrder(l)[i] == x
      {
        assert InOrder(l)[i] == s[i];
      }
      GetNodeFinds(DownLeft(c), x);
    } else {
      assert key != x.0 by {
        assert s[|InOrder(l)|] == (key, value);
      }
      forall j | 0 <= j < |InOrder(l)|
        ensures InOrder(l)[j] != x
      {
        assert InOrder(l)[j].0 <= key;
      }
      forall i | 0 <= i < |InOrder(rt)| && InOrder(rt)[i].0 == x.0
        ensures InOrder(rt)[i] == x
      {
        assert InOrder(rt)[i] == s[|InOrder(l)| + 1 + i];
      }
      GetNodeFinds(DownRight(c), x);
    }
  }

  // ----- deleteNode: down to a node without children -----

  /** One exchange of cases 1 and 2 of `deleteNode` (lines 386-389 and
      392-398): a node with two children trades key and value with the largest
      node of its left subtree, a node with one child trades them with that
      child (the right one when both tests of line 386 could apply), and the
      walk moves to the node that now holds the pair. */
  function ReduceStep<V>(z: Cursor<V>): (r: Cursor<V>)
    requires z.focus.Node? && (z.focus.left.Node? || z.focus.right.Node?)
    ensures r.focus.Node? && Size(r.focus) < Size(z.focus)
    ensures (r.focus.key, r.focus.value) == (z.focus.key, z.focus.value)
    ensures multiset(InOrder(Whole(r))) == multiset(InOrder(Whole(z)))
    ensures IsRedBlack(Whole(r)) == IsRedBlack(Whole(z))
  {
    var Node(col, l, k, v, rt) := z.focus;
    if l.Leaf? || rt.Leaf? then
      var child := if rt.Node? then rt else l;
      var z' := SetData(z, child.key, child.value);
      var d := if rt.Node? then DownRight(z') else DownLeft(z');
      SwapFacts(z, d, k, v);
      SingleChildNeighbour(z, z', d);
      SetData(d, k, v)
    else
      var m := Rightmost(DownLeft(z)).focus;
      var z' := SetData(z, m.key, m.value);
      var d := Rightmost(DownLeft(z'));
      RightmostFocus(DownLeft(z), DownLeft(z'));
      SwapFacts(z, d, k, v);
      SetData(d, k, v)
  }

  /** On a red-black tree each exchange is with an in-order neighbour, so
      removing the new position afterwards removes the old one now. */
  lemma ReduceStepRemoves<V>(z: Cursor<V>)
    requires z.focus.Node? && (z.focus.left.Node? || z.focus.right.Node?) && IsRedBlack(Whole(z))
    ensures z.focus.left.Leaf? || z.focus.right.Leaf? ==> z.focus.color == Black
    ensures Index(z) < |InOrder(Whole(z))| && Index(ReduceStep(z)) < |InOrder(Whole(ReduceStep(z)))|
    ensures Remove(InOrder(Whole(ReduceStep(z))), Index(ReduceStep(z))) == Remove(InOrder(Whole(z)), Index(z))
  {
    if z.focus.left.Leaf? || z.focus.right.Leaf? {
      OneChildStepRemoves(z);
    } else {
      TwoChildStepRemoves(z);
    }
  }

  lemma OneChildStepRemoves<V>(z: Cursor<V>)
    requires z.focus.Node? && (z.focus.left.Node? || z.focus.right.Node?) && IsRedBlack(Whole(z))
    requires z.focus.left.Leaf? || z.focus.right.Leaf?
    ensures z.focus.color == Black
    ensures Index(z) < |InOrder(Whole(z))| && Index(ReduceStep(z)) < |InOrder(Whole(ReduceStep(z)))|
    ensures Remove(InOrder(Whole(ReduceStep(z))), Index(ReduceStep(z))) == Remove(InOrder(Whole(z)), Index(z))
  {
    var Node(col, l, k, v, rt) := z.focus;
    if rt.Node? {
      var z' := SetData(z, rt.key, rt.value);
      var d := DownRight(z');
      assert ReduceStep(z) == SetData(d, k, v);
      SingleChildNeighbour(z, z', d);
      NeighbourSwapRemoves(z, d, k, v);
    } else {
      var z' := SetData(z, l.key, l.value);
      var d := DownLeft(z');
      assert ReduceStep(z) == SetData(d, k, v);
      SingleChildNeighbour(z, z', d);
      NeighbourSwapRemoves(z, d, k, v);
    }
  }

  lemma TwoChildStepRemoves<V>(z: Cursor<V>)
    requires z.focus.Node? && z.focus.left.Node? && z.focus.right.Node?
    ensures Index(z) < |InOrder(Whole(z))| && Index(ReduceStep(z)) < |InOrder(Whole(ReduceStep(z)))|
    ensures Remove(InOrder(Whole(ReduceStep(z))), Index(ReduceStep(z))) == Remove(InOrder(Whole(z)), Index(z))
  {
    var Node(col, l, k, v, rt) := z.focus;
    var m := Rightmost(DownLeft(z)).focus;
    var z' := SetData(z, m.key, m.value);
    var d := Rightmost(DownLeft(z'));
    assert ReduceStep(z) == SetData(d, k, v);
    assert Before(DownLeft(z').path) == Before(z.path);
    assert Index(d) + 1 == Index(z);
    RightmostFocus(DownLeft(z), DownLeft(z'));
    NeighbourSwapRemoves(z, d, k, v);
  }

  /** `deleteNode` down to the node it finally unlinks (lines 380-399): while
      the node has a child it exchanges its pair with a neighbour and follows
      the pair; a red node with exactly one child throws (lines 382-384). */
  function Reduce<V>(z: Cursor<V>): (r: Outcome<Cursor<V>>)
    requires z.focus.Node?
    ensures !r.Undefined?
    ensures r.Ok? ==> r.value.focus.Node? && r.value.focus.left.Leaf? && r.value.focus.right.Leaf?
    ensures r.Ok? ==> (r.value.focus.key, r.value.focus.value) == (z.focus.key, z.focus.value)
    ensures r.Ok? ==> multiset(InOrder(Whole(r.value))) == multiset(InOrder(Whole(z)))
    ensures r.Ok? ==> IsRedBlack(Whole(r.value)) == IsRedBlack(Whole(z))
    decreases Size(z.focus)
  {
    if z.focus.color == Red && (z.focus.left.Leaf? != z.focus.right.Leaf?) then OutOfRange
    else if z.focus.left.Node? || z.focus.right.Node? then Reduce(ReduceStep(z))
    else Ok(z)
  }

  /** On a red-black tree the walk never throws, and unlinking the node it
      ends at removes, from the in-order sequence, the element the walk
      started at. */
  lemma {:induction false} ReduceOnRedBlack<V>(z: Cursor<V>)
    requires z.focus.Node? && IsRedBlack(Whole(z))
    ensures Reduce(z).Ok?
    ensures Index(z) < |InOrder(Whole(z))| && Index(Reduce(z).value) < |InOrder(Whole(Reduce(z).value))|
    ensures Remove(InOrder(Whole(Reduce(z).value)), Index(Reduce(z).value)) == Remove(InOrder(Whole(z)), Index(z))
    decreases Size(z.focus)
  {
    IndexLocates(z);
    if z.focus.left.Node? || z.focus.right.Node? {
      ReduceStepRemoves(z);
      ReduceOnRedBlack(ReduceStep(z));
    }
  }

  /** A balanced tree of black height 0 with a black (or absent) root is empty. */
  lemma ZeroHeightIsLeaf<V>(t: Tree<V>)
    requires Balanced(t) && BlackHeight(t) == 0 && !IsRed(t)
    ensures t.Leaf?
  {
  }

  /** In a tree without red-red edges and with uniform black height, a node
      with one child is black and its child is a red node without children. */
  lemma SingleChildShape<V>(t: Tree<V>)
    requires t.Node? && RedOk(t) && Balanced(t) && (t.left.Leaf? != t.right.Leaf?)
    ensures t.color == Black
    ensures t.left.Node? ==> t.left.left.Leaf? && t.left.right.Leaf?
    ensures t.right.Node? ==> t.right.left.Leaf? && t.right.right.Leaf?
  {
    var c := if t.left.Node? then t.left else t.right;
    assert BlackHeight(c) == 0;
    assert IsRed(c);
    ZeroHeightIsLeaf(c.left);
    ZeroHeightIsLeaf(c.right);
  }

  /** Case 1 of `deleteNode`: `z'` is `z` after it took its child's pair and
      `d` is that child.  The child is smaller, and on a red-black tree it is
      the in-order neighbour of `z`. */
  lemma SingleChildNeighbour<V>(z: Cursor<V>, z': Cursor<V>, d: Cursor<V>)
    requires z.focus.Node? && (z.focus.left.Leaf? != z.focus.right.Leaf?)
    requires z'.focus.Node? && z'.path == z.path && z'.focus.left == z.focus.left && z'.focus.right == z.focus.right
    requires d == if z.focus.right.Node? then DownRight(z') else DownLeft(z')
    ensures Size(d.focus) < Size(z.focus)
    ensures IsRedBlack(Whole(z)) ==> z.focus.color == Black
    ensures IsRedBlack(Whole(z)) ==> Index(d) + 1 == Index(z) || Index(z) + 1 == Index(d)
  {
    if IsRedBlack(Whole(z)) {
      RedOkPlug(z.focus, z.path);
      BalancedPlug(z.focus, z.path);
      SingleChildShape(z.focus);
    }
  }

  /** An exchange with an in-order neighbour: removing the neighbour's position
      afterwards removes the position of `z` now. */
  lemma NeighbourSwapRemoves<V>(z: Cursor<V>, d: Cursor<V>, k: int, v: V)
    requires z.focus.Node? && d.focus.Node? && (z.focus.key, z.focus.value) == (k, v)
    requires Whole(d) == Whole(SetData(z, d.focus.key, d.focus.value))
    requires Index(d) + 1 == Index(z) || Index(z) + 1 == Index(d)
    ensures Index(z) < |InOrder(Whole(z))| && Index(SetData(d, k, v)) < |InOrder(Whole(SetData(d, k, v)))|
    ensures Remove(InOrder(Whole(SetData(d, k, v))), Index(SetData(d, k, v))) == Remove(InOrder(Whole(z)), Index(z))
  {
    SwapFacts(z, d, k, v);
  }

  /** The facts about one exchange of key and value between the node at `z` and
      the node reached from it: `d` is `z` after `z` took over `d`'s data, moved
      to the other node. */
  lemma SwapFacts<V>(z: Cursor<V>, d: Cursor<V>, k: int, v: V)
    requires z.focus.Node? && d.focus.Node? && (z.focus.key, z.focus.value) == (k, v)
    requires Whole(d) == Whole(SetData(z, d.focus.key, d.focus.value))
    ensures Index(z) < |InOrder(Whole(z))| && Index(d) < |InOrder(Whole(d))|
    ensures |InOrder(Whole(d))| == |InOrder(Whole(z))|
    ensures multiset(InOrder(Whole(SetData(d, k, v)))) == multiset(InOrder(Whole(z)))
    ensures IsRedBlack(Whole(SetData(d, k, v))) == IsRedBlack(Whole(z))
    ensures Index(d) != Index(z) ==>
      InOrder(Whole(SetData(d, k, v))) ==
      InOrder(Whole(z))[Index(z) := InOrder(Whole(z))[Index(d)]][Index(d) := InOrder(Whole(z))[Index(z)]]
    ensures Index(d) + 1 == Index(z) || Index(z) + 1 == Index(d) ==>
      Remove(InOrder(Whole(SetData(d, k, v))), Index(d)) == Remove(InOrder(Whole(z)), Index(z))
  {
    var s := InOrder(Whole(z));
    var x := (d.focus.key, d.focus.value);
    SetDataInOrder(z, x.0, x.1);
    SetDataInOrder(d, k, v);
    IndexLocates(z);
    IndexLocates(d);
    SetDataKeepsColors(z, x.0, x.1);
    SetDataKeepsColors(d, k, v);
    SwapSequence(s, InOrder(Whole(SetData(d, k, v))), Index(z), Index(d), x);
  }

  /** The same exchange on the in-order sequence alone: position `i` took the
      value `x` found at `j`, and then `j` took what `i` held. */
  lemma SwapSequence<T>(s: seq<T>, s2: seq<T>, i: nat, j: nat, x: T)
    requires i < |s| && j < |s|
    requires s2 == s[i := x][j := s[i]]
    requires i != j ==> s[j] == x
    ensures multiset(s2) == multiset(s)
    ensures i != j ==> s2 == s[i := s[j]][j := s[i]]
    ensures j + 1 == i || i + 1 == j ==> Remove(s2, j) == Remove(s, i)
  {
    if i != j {
      SwapMultiset(s, i, j);
      if j + 1 == i || i + 1 == j {
        RemoveAfterSwap(s, i, j);
      }
    } else {
      assert s2 == s;
    }
  }

  // ----- fixDelete as written -----

  /** The child `fixDelete` takes for the sibling of the removed node (lines
      315-317): the left child of `parent` whenever there is one. */
  function SiblingOf<V>(p: Tree<V>): Tree<V>
    requires p.Node?
  {
    if p.left.Node? then p.left else p.right
  }

  /** `parent` with the subtree in the sibling's slot replaced. */
  function WithSibling<V>(p: Tree<V>, s: Tree<V>): (r: Tree<V>)
    requires p.Node? && s.Node?
    ensures r.Node? && r.color == p.color && SiblingOf(r) == s
    ensures InOrder(s) == InOrder(SiblingOf(p)) ==> InOrder(r) == InOrder(p)
    ensures Size(s) == Size(SiblingOf(p)) ==> Size(r) == Size(p)
  {
    if p.left.Node? then p.(left := s) else p.(right := s)
  }

  /** Which branch of `fixDelete` comes next, used to show that the re-entries
      of lines 331 and 339 on the same `parent` end: a red sibling or a red
      right nephew lead to no re-entry on the same node. */
  function FixRank<V>(p: Tree<V>): nat
    requires p.Node?
  {
    var s := SiblingOf(p);
    if s.Leaf? || s.color == Red || IsRed(s.right) then 0
    else if s.left.Node? && s.right.Node? && s.left.color == Red && s.right.color == Black then 2
    else 1
  }

  /** `fixDelete(parent)` (lines 313-356) as written.  A missing sibling, or a
      rotation whose pivot child is missing, dereferences a null pointer. */
  function FixDeleteAsWritten<V>(z: Cursor<V>): (r: Outcome<Tree<V>>)
    requires z.focus.Node?
    ensures !r.OutOfRange?
    ensures r.Ok? ==> InOrder(r.value) == InOrder(Whole(z))
    decreases Size(z.focus), FixRank(z.focus)
  {
    var p := z.focus;
    var s := SiblingOf(p);
    if s.Leaf? then Undefined
    else if s.color == Black then
      if IsRed(s.right) then
        // lines 319-323
        var s' := Node(p.color, s.left, s.key, s.value, Blacken(s.right));
        assert InOrder(s') == InOrder(s);
        var p' := WithSibling(p, s').(color := Black);
        SameInOrderPlug(p, p', z.path);
        if p'.right.Leaf? then Undefined
        else Ok(Whole(RotateLeftAt(Cursor(p', z.path))))
      else if s.left.Node? && s.right.Node? && s.left.color == Red && s.right.color == Black then
        // lines 324-328
        var l' := s.left.(color := Black);
        assert InOrder(l') == InOrder(s.left) && Size(l') == Size(s.left);
        var t := Node(Red, l', s.key, s.value, s.right);
        assert InOrder(t) == InOrder(s) && Size(t) == Size(s);
        var s' := RotateRight(t);
        var p' := WithSibling(p, s');
        SameInOrderPlug(p, p', z.path);
        assert FixRank(p') == 0;
        FixDeleteAsWritten(Cursor(p', z.path))
      else
        // lines 329-337
        var s' := Node(Red, Blacken(s.left), s.key, s.value, s.right);
        assert InOrder(s') == InOrder(s) && Size(s') == Size(s);
        var p' := WithSibling(p, s').(color := Black);
        SameInOrderPlug(p, p', z.path);
        if p.color == Black && z.path.Step? then
          assert FixRank(p') == 0;
          FixDeleteAsWritten(Cursor(p', z.path))
        else Ok(Whole(Cursor(p', z.path)))
    else
      // lines 340-354
      var s' := Node(Black, Blacken(s.left), s.key, s.value, Blacken(s.right));
      assert InOrder(s') == InOrder(s) && Size(s') == Size(s);
      var p' := WithSibling(p, s').(color := Red);
      SameInOrderPlug(p, p', z.path);
      if p.left.Node? then
        var q := RotateRightAt(Cursor(p', z.path));
        assert Size(q.focus.right) < Size(p);
        FixDeleteAsWritten(DownRight(q))
      else
        var q := RotateLeftAt(Cursor(p', z.path));
        assert Size(q.focus.left) < Size(p);
        FixDeleteAsWritten(DownLeft(q))
  }

  /** Case 0 of `deleteNode` (lines 359-378) as written: a childless node is
      unlinked from its parent, and a black one leaves `fixDelete` to repair
      the parent.  A red root has no parent to unlink it from. */
  function DetachAsWritten<V>(w: Cursor<V>): (r: Outcome<Tree<V>>)
    requires w.focus.Node? && w.focus.left.Leaf? && w.focus.right.Leaf?
    ensures Index(w) < |InOrder(Whole(w))|
    ensures !r.OutOfRange?
    ensures r.Ok? ==> InOrder(r.value) == Remove(InOrder(Whole(w)), Index(w))
  {
    UnlinkInOrder(w);
    if w.focus.color == Red then
      if w.path.Top? then Undefined else Ok(Plug(Leaf, w.path))
    else if w.path.Top? then Ok(Leaf)
    else FixDeleteAsWritten(Up(Cursor(Leaf, w.path)))
  }

  /** Putting a missing child where a childless node was removes that node
      from the in-order sequence. */
  lemma UnlinkInOrder<V>(w: Cursor<V>)
    requires w.focus.Node? && w.focus.left.Leaf? && w.focus.right.Leaf?
    ensures Index(w) < |InOrder(Whole(w))|
    ensures InOrder(Plug(Leaf, w.path)) == Remove(InOrder(Whole(w)), Index(w))
  {
    InOrderPlug(w.focus, w.path);
    InOrderPlug(Leaf, w.path);
    var b, a := Before(w.path), After(w.path);
    assert InOrder(Whole(w)) == b + [(w.focus.key, w.focus.value)] + a;
    assert Index(w) == |b|;
    assert InOrder(Plug(Leaf, w.path)) == b + a;
    var s := InOrder(Whole(w));
    assert s[..|b|] == b && s[|b| + 1..] == a;
  }

  // ----- the corrected repair -----

  /** A node whose child on `side` is `a` and whose other child is `b`. */
  function Join<V>(side: Side, c: Color, a: Tree<V>, k: int, v: V, b: Tree<V>): Tree<V>
  {
    if side == Left then Node(c, a, k, v, b) else Node(c, b, k, v, a)
  }

  /** The child of `t` on `side`, and the one on the other side. */
  function Inner<V>(side: Side, t: Tree<V>): Tree<V>
    requires t.Node?
  {
    if side == Left then t.left else t.right
  }

  function Outer<V>(side: Side, t: Tree<V>): Tree<V>
    requires t.Node?
  {
    if side == Left then t.right else t.left
  }

  /** The number of nodes hanging off a path, which moving up shrinks. */
  function PathSize<V>(p: Path<V>): nat
  {
    if p.Top? then 0 else 1 + Size(p.sibling) + PathSize(p.up)
  }

  /** A red sibling (the first case of the textbook repair): rotate it above
      the parent and paint it black and the parent red; the subtree short of
      one black node is still `x.focus`, now with a black sibling. */
  function RedSiblingStep<V>(x: Cursor<V>): (r: Cursor<V>)
    requires x.path.Step? && x.path.sibling.Node?
    ensures r.focus == x.focus && r.path.Step? && r.path.side == x.path.side
    ensures InOrder(Whole(r)) == InOrder(Whole(x))
    ensures PathSize(r.path) == PathSize(x.path)
    ensures Size(r.path.sibling) < Size(x.path.sibling)
  {
    var Step(side, pc, pk, pv, s, up) := x.path;
    var near := Inner(side, s);
    var far := Outer(side, s);
    var t := Join(side, pc, x.focus, pk, pv, s);
    var t' := Join(side, Black, Join(side, Red, x.focus, pk, pv, near), s.key, s.value, far);
    assert InOrder(t) == InOrder(t');
    SameInOrderPlug(t, t', up);
    var q := Step(side, Red, pk, pv, near, Step(side, Black, s.key, s.value, far, up));
    assert Whole(x) == Plug(t, up) by {
      assert Attach(x.path, x.focus) == t;
    }
    assert Whole(Cursor(x.focus, q)) == Plug(t', up) by {
      assert Attach(q.up, Attach(q, x.focus)) == t';
      assert Plug(x.focus, q) == Plug(Attach(q, x.focus), q.up);
    }
    Cursor(x.focus, q)
  }

  /** A black sibling without a red child (the second case): paint the
      sibling red, which moves the missing black node up to the parent. */
  function PushUp<V>(x: Cursor<V>): (r: Cursor<V>)
    requires x.path.Step? && x.path.sibling.Node?
    ensures InOrder(Whole(r)) == InOrder(Whole(x))
    ensures PathSize(r.path) < PathSize(x.path)
  {
    var Step(side, pc, pk, pv, s, up) := x.path;
    var t := Join(side, pc, x.focus, pk, pv, s);
    var t' := Join(side, pc, x.focus, pk, pv, s.(color := Red));
    assert InOrder(t) == InOrder(t');
    SameInOrderPlug(t, t', up);
    Cursor(t', up)
  }

  /** A black sibling with a red child (the third and fourth cases): one or
      two rotations at the parent give the short side an extra black node,
      and the repair ends. */
  function Resolve<V>(x: Cursor<V>): (r: Tree<V>)
    requires x.path.Step? && x.path.sibling.Node?
    ensures InOrder(r) == InOrder(Whole(x))
  {
    var Step(side, pc, pk, pv, s, up) := x.path;
    var near := Inner(side, s);
    var far := Outer(side, s);
    var t := Join(side, pc, x.focus, pk, pv, s);
    var t' :=
      if IsRed(far) then
        RotationKeepsInOrder(side, pc, x.focus, pk, pv, s);
        Join(side, pc, Join(side, Black, x.focus, pk, pv, near), s.key, s.value, Blacken(far))
      else if near.Node? then
        RotationsKeepInOrder(side, pc, x.focus, pk, pv, s);
        Join(side, pc, Join(side, Black, x.focus, pk, pv, Inner(side, near)), near.key, near.value,
             Join(side, Black, Outer(side, near), s.key, s.value, far))
      else t;
    assert InOrder(t) == InOrder(t');
    SameInOrderPlug(t, t', up);
    Blacken(Plug(t', up))
  }

  lemma RotationKeepsInOrder<V>(side: Side, pc: Color, xf: Tree<V>, pk: int, pv: V, s: Tree<V>)
    requires s.Node?
    ensures InOrder(Join(side, pc, xf, pk, pv, s)) ==
            InOrder(Join(side, pc, Join(side, Black, xf, pk, pv, Inner(side, s)), s.key, s.value, Blacken(Outer(side, s))))
  {
    var Node(sc, a, sk, sv, b) := s;
    if side == Left {
      assert Join(side, pc, xf, pk, pv, s) == Node(pc, xf, pk, pv, Node(sc, a, sk, sv, b));
      assert Join(side, pc, Join(side, Black, xf, pk, pv, Inner(side, s)), s.key, s.value, Blacken(Outer(side, s)))
          == Node(pc, Node(Black, xf, pk, pv, a), sk, sv, Blacken(b));
      SingleRotationInOrder(pc, xf, pk, pv, sc, a, sk, sv, b);
    } else {
      assert Join(side, pc, xf, pk, pv, s) == Node(pc, Node(sc, a, sk, sv, b), pk, pv, xf);
      assert Join(side, pc, Join(side, Black, xf, pk, pv, Inner(side, s)), s.key, s.value, Blacken(Outer(side, s)))
          == Node(pc, Blacken(a), sk, sv, Node(Black, b, pk, pv, xf));
      SingleRotationInOrderMirror(pc, xf, pk, pv, sc, a, sk, sv, b);
    }
  }

  lemma SingleRotationInOrder<V>(pc: Color, xf: Tree<V>, pk: int, pv: V, sc: Color, a: Tree<V>, sk: int, sv: V, b: Tree<V>)
    ensures InOrder(Node(pc, xf, pk, pv, Node(sc, a, sk, sv, b))) ==
            InOrder(Node(pc, Node(Black, xf, pk, pv, a), sk, sv, Blacken(b)))
  {
    var X, A, B := InOrder(xf), InOrder(a), InOrder(b);
    assert InOrder(Blacken(b)) == B;
    assert X + [(pk, pv)] + (A + [(sk, sv)] + B) == (X + [(pk, pv)] + A) + [(sk, sv)] + B;
  }

  lemma SingleRotationInOrderMirror<V>(pc: Color, xf: Tree<V>, pk: int, pv: V, sc: Color, a: Tree<V>, sk: int, sv: V, b: Tree<V>)
    ensures InOrder(Node(pc, Node(sc, a, sk, sv, b), pk, pv, xf)) ==
            InOrder(Node(pc, Blacken(a), sk, sv, Node(Black, b, pk, pv, xf)))
  {
    var X, A, B := InOrder(xf), InOrder(a), InOrder(b);
    assert InOrder(Blacken(a)) == A;
    assert (A + [(sk, sv)] + B) + [(pk, pv)] + X == A + [(sk, sv)] + (B + [(pk, pv)] + X);
  }

  lemma RotationsKeepInOrder<V>(side: Side, pc: Color, xf: Tree<V>, pk: int, pv: V, s: Tree<V>)
    requires s.Node? && Inner(side, s).Node?
    ensures var near := Inner(side, s);
      InOrder(Join(side, pc, xf, pk, pv, s)) ==
      InOrder(Join(side, pc, Join(side, Black, xf, pk, pv, Inner(side, near)), near.key, near.value,
                    Join(side, Black, Outer(side, near), s.key, s.value, Outer(side, s))))
  {
    var near := Inner(side, s);
    var t := Join(side, pc, xf, pk, pv, s);
    var u := Join(side, pc, Join(side, Black, xf, pk, pv, Inner(side, near)), near.key, near.value,
                  Join(side, Black, Outer(side, near), s.key, s.value, Outer(side, s)));
    if side == Left {
      var Node(sc, Node(nc, a1, nk, nv, a2), sk, sv, b) := s;
      assert t == Node(pc, xf, pk, pv, Node(sc, Node(nc, a1, nk, nv, a2), sk, sv, b));
      assert u == Node(pc, Node(Black, xf, pk, pv, a1), nk, nv, Node(Black, a2, sk, sv, b));
      DoubleRotationInOrder(pc, xf, pk, pv, sc, a1, nk, nv, a2, nc, sk, sv, b);
    } else {
      var Node(sc, a, sk, sv, Node(nc, b1, nk, nv, b2)) := s;
      assert t == Node(pc, Node(sc, a, sk, sv, Node(nc, b1, nk, nv, b2)), pk, pv, xf);
      assert u == Node(pc, Node(Black, a, sk, sv, b1), nk, nv, Node(Black, b2, pk, pv, xf));
      DoubleRotationInOrderMirror(pc, xf, pk, pv, sc, a, sk, sv, nc, b1, nk, nv, b2);
    }
  }

  lemma DoubleRotationInOrder<V>(pc: Color, xf: Tree<V>, pk: int, pv: V, sc: Color, a1: Tree<V>, nk: int, nv: V,
                                 a2: Tree<V>, nc: Color, sk: int, sv: V, b: Tree<V>)
    ensures InOrder(Node(pc, xf, pk, pv, Node(sc, Node(nc, a1, nk, nv, a2), sk, sv, b))) ==
            InOrder(Node(pc, Node(Black, xf, pk, pv, a1), nk, nv, Node(Black, a2, sk, sv, b)))
  {
    var X, A1, A2, B := InOrder(xf), InOrder(a1), InOrder(a2), InOrder(b);
    assert InOrder(Node(nc, a1, nk, nv, a2)) == A1 + [(nk, nv)] + A2;
    assert InOrder(Node(sc, Node(nc, a1, nk, nv, a2), sk, sv, b)) == A1 + [(nk, nv)] + A2 + [(sk, sv)] + B;
    assert InOrder(Node(Black, xf, pk, pv, a1)) == X + [(pk, pv)] + A1;
    assert InOrder(Node(Black, a2, sk, sv, b)) == A2 + [(sk, sv)] + B;
    SpliceSix(X, [(pk, pv)], A1, [(nk, nv)], A2, [(sk, sv)], B);
  }

  lemma DoubleRotationInOrderMirror<V>(pc: Color, xf: Tree<V>, pk: int, pv: V, sc: Color, a: Tree<V>, sk: int, sv: V,
                                       nc: Color, b1: Tree<V>, nk: int, nv: V, b2: Tree<V>)
    ensures InOrder(Node(pc, Node(sc, a, sk, sv, Node(nc, b1, nk, nv, b2)), pk, pv, xf)) ==
            InOrder(Node(pc, Node(Black, a, sk, sv, b1), nk, nv, Node(Black, b2, pk, pv, xf)))
  {
    var X, A, B1, B2 := InOrder(xf), InOrder(a), InOrder(b1), InOrder(b2);
    assert InOrder(Node(nc, b1, nk, nv, b2)) == B1 + [(nk, nv)] + B2;
    assert InOrder(Node(sc, a, sk, sv, Node(nc, b1, nk, nv, b2))) == A + [(sk, sv)] + (B1 + [(nk, nv)] + B2);
    assert InOrder(Node(Black, a, sk, sv, b1)) == A + [(sk, sv)] + B1;
    assert InOrder(Node(Black, b2, pk, pv, xf)) == B2 + [(pk, pv)] + X;
    SpliceSix(A, [(sk, sv)], B1, [(nk, nv)], B2, [(pk, pv)], X);
  }

  lemma SpliceSix<T>(a: seq<T>, b: seq<T>, c: seq<T>, d: seq<T>, e: seq<T>, f: seq<T>, g: seq<T>)
    ensures a + b + (c + d + e + f + g) == (a + b + c) + d + (e + f + g)
    ensures a + b + (c + d + e) + f + g == (a + b + c) + d + (e + f + g)
  {
  }

  /** The textbook delete repair (Cormen et al., Introduction to Algorithms,
      RB-DELETE-FIXUP), which `fixDelete` is evidently meant to be: `x.focus`
      is a subtree, possibly empty, with one black node fewer than its
      sibling. */
  function FixDelete<V>(x: Cursor<V>): (r: Tree<V>)
    ensures InOrder(r) == InOrder(Whole(x))
    decreases PathSize(x.path), if x.path.Step? then Size(x.path.sibling) else 0
  {
    if x.path.Top? || IsRed(x.focus) then
      SameInOrderPlug(x.focus, Blacken(x.focus), x.path);
      Blacken(Plug(Blacken(x.focus), x.path))
    else if x.path.sibling.Leaf? then Whole(x)
    else if x.path.sibling.color == Red then FixDelete(RedSiblingStep(x))
    else if !IsRed(x.path.sibling.left) && !IsRed(x.path.sibling.right) then FixDelete(PushUp(x))
    else Resolve(x)
  }

  // ----- the corrected repair restores the colour invariants -----

  /** The state the repair works on: the colour invariants hold except that
      the subtree at `x` has one black node fewer than its sibling, and that
      `x.focus` itself may be red with a red child. */
  predicate DelInv<V>(x: Cursor<V>)
  {
    Balanced(x.focus) &&
    (x.focus.Leaf? || (RedOk(x.focus.left) && RedOk(x.focus.right))) &&
    PathBalanced(x.path, BlackHeight(x.focus) + 1) &&
    PathRedOk(x.path, IsRed(x.focus))
  }

  lemma JoinFacts<V>(side: Side, c: Color, a: Tree<V>, k: int, v: V, b: Tree<V>)
    ensures Balanced(Join(side, c, a, k, v, b)) <==> Balanced(a) && Balanced(b) && BlackHeight(a) == BlackHeight(b)
    ensures Balanced(Join(side, c, a, k, v, b)) ==>
      BlackHeight(Join(side, c, a, k, v, b)) == BlackHeight(a) + (if c == Black then 1 else 0)
    ensures RedOk(Join(side, c, a, k, v, b)) <==> RedOk(a) && RedOk(b) && (c == Red ==> !IsRed(a) && !IsRed(b))
    ensures IsRed(Join(side, c, a, k, v, b)) <==> c == Red
  {
  }

  lemma SplitFacts<V>(side: Side, s: Tree<V>)
    requires s.Node?
    ensures s == Join(side, s.color, Inner(side, s), s.key, s.value, Outer(side, s))
  {
  }

  lemma PathRedOkWeaken<V>(p: Path<V>)
    requires PathRedOk(p, true)
    ensures PathRedOk(p, false)
  {
  }

  /** The subtree at `x` stands on a step, so it has a sibling (at least one black node high). */
  lemma SiblingPresent<V>(x: Cursor<V>)
    requires DelInv(x) && x.path.Step?
    ensures x.path.sibling.Node?
  {
  }

  lemma ExitRestores<V>(x: Cursor<V>)
    requires DelInv(x) && (x.path.Top? || IsRed(x.focus))
    ensures IsRedBlack(Blacken(Plug(Blacken(x.focus), x.path)))
  {
    var b := Blacken(x.focus);
    if IsRed(x.focus) {
      PathRedOkWeaken(x.path);
    }
    BalancedPlug(b, x.path);
    RedOkPlug(b, x.path);
    BlackenKeepsColorInvariants(Plug(b, x.path));
  }

  lemma RedSiblingKeepsDelInv<V>(x: Cursor<V>)
    requires DelInv(x) && x.path.Step? && !IsRed(x.focus) && IsRed(x.path.sibling)
    ensures DelInv(RedSiblingStep(x))
  {
    var Step(side, pc, pk, pv, s, up) := x.path;
    SplitFacts(side, s);
    JoinFacts(side, s.color, Inner(side, s), s.key, s.value, Outer(side, s));
    assert pc == Black;
  }

  lemma PushUpKeepsDelInv<V>(x: Cursor<V>)
    requires DelInv(x) && x.path.Step? && !IsRed(x.focus)
    requires x.path.sibling.Node? && x.path.sibling.color == Black
    requires !IsRed(x.path.sibling.left) && !IsRed(x.path.sibling.right)
    ensures DelInv(PushUp(x))
  {
    var Step(side, pc, pk, pv, s, up) := x.path;
    var s' := s.(color := Red);
    assert RedOk(x.focus);
    assert Balanced(s') && BlackHeight(s') == BlackHeight(x.focus) && RedOk(s');
    JoinFacts(side, pc, x.focus, pk, pv, s');
  }

  lemma ResolveRestores<V>(x: Cursor<V>)
    requires DelInv(x) && x.path.Step? && !IsRed(x.focus)
    requires x.path.sibling.Node? && x.path.sibling.color == Black
    requires IsRed(x.path.sibling.left) || IsRed(x.path.sibling.right)
    ensures IsRedBlack(Resolve(x))
  {
    var Step(side, pc, pk, pv, s, up) := x.path;
    var xf := x.focus;
    var h := BlackHeight(xf);
    var near := Inner(side, s);
    var far := Outer(side, s);
    SplitFacts(side, s);
    JoinFacts(side, Black, near, s.key, s.value, far);
    assert RedOk(xf);
    assert BlackHeight(near) == h && BlackHeight(far) == h;
    var t' :=
      if IsRed(far) then
        Join(side, pc, Join(side, Black, xf, pk, pv, near), s.key, s.value, Blacken(far))
      else
        Join(side, pc, Join(side, Black, xf, pk, pv, Inner(side, near)), near.key, near.value,
             Join(side, Black, Outer(side, near), s.key, s.value, far));
    assert Resolve(x) == Blacken(Plug(t', up));
    if IsRed(far) {
      FarRedRotationFits(side, pc, xf, pk, pv, near, s.key, s.value, far, h);
    } else {
      assert IsRed(near);
      NearRedRotationFits(side, pc, xf, pk, pv, near, s.key, s.value, far, h);
    }
    assert Balanced(t') && BlackHeight(t') == h + 1 + (if pc == Black then 1 else 0);
    assert RedOk(t') && IsRed(t') == (pc == Red);
    BalancedPlug(t', up);
    RedOkPlug(t', up);
    BlackenKeepsColorInvariants(Plug(t', up));
  }

  /** The single rotation of a red far nephew gives a correct subtree one
      black level above the sibling's children, red exactly when the parent was. */
  lemma FarRedRotationFits<V>(side: Side, pc: Color, xf: Tree<V>, pk: int, pv: V,
                              near: Tree<V>, sk: int, sv: V, far: Tree<V>, h: nat)
    requires Balanced(xf) && RedOk(xf) && BlackHeight(xf) == h
    requires Balanced(near) && RedOk(near) && BlackHeight(near) == h
    requires Balanced(far) && RedOk(far) && IsRed(far) && BlackHeight(far) == h
    ensures var t' := Join(side, pc, Join(side, Black, xf, pk, pv, near), sk, sv, Blacken(far));
      Balanced(t') && BlackHeight(t') == h + 1 + (if pc == Black then 1 else 0) &&
      RedOk(t') && IsRed(t') == (pc == Red)
  {
    var l := Join(side, Black, xf, pk, pv, near);
    JoinFacts(side, Black, xf, pk, pv, near);
    assert Balanced(Blacken(far)) && BlackHeight(Blacken(far)) == h + 1 && RedOk(Blacken(far));
    JoinFacts(side, pc, l, sk, sv, Blacken(far));
  }

  /** The double rotation of a red near nephew, with the same outcome. */
  lemma NearRedRotationFits<V>(side: Side, pc: Color, xf: Tree<V>, pk: int, pv: V,
                               near: Tree<V>, sk: int, sv: V, far: Tree<V>, h: nat)
    requires Balanced(xf) && RedOk(xf) && BlackHeight(xf) == h
    requires near.Node? && IsRed(near) && Balanced(near) && RedOk(near) && BlackHeight(near) == h
    requires Balanced(far) && RedOk(far) && BlackHeight(far) == h
    ensures var t' := Join(side, pc, Join(side, Black, xf, pk, pv, Inner(side, near)), near.key, near.value,
                           Join(side, Black, Outer(side, near), sk, sv, far));
      Balanced(t') && BlackHeight(t') == h + 1 + (if pc == Black then 1 else 0) &&
      RedOk(t') && IsRed(t') == (pc == Red)
  {
    SplitFacts(side, near);
    JoinFacts(side, Red, Inner(side, near), near.key, near.value, Outer(side, near));
    var l := Join(side, Black, xf, pk, pv, Inner(side, near));
    var r := Join(side, Black, Outer(side, near), sk, sv, far);
    JoinFacts(side, Black, xf, pk, pv, Inner(side, near));
    JoinFacts(side, Black, Outer(side, near), sk, sv, far);
    JoinFacts(side, pc, l, near.key, near.value, r);
  }

  /** The repair started from the state a removed black leaf leaves behind
      ends in a red-black tree. */
  lemma {:induction false} FixDeleteRestores<V>(x: Cursor<V>)
    requires DelInv(x)
    ensures IsRedBlack(FixDelete(x))
    decreases PathSize(x.path), if x.path.Step? then Size(x.path.sibling) else 0
  {
    if x.path.Top? || IsRed(x.focus) {
      ExitRestores(x);
    } else {
      SiblingPresent(x);
      var s := x.path.sibling;
      if s.color == Red {
        RedSiblingKeepsDelInv(x);
        FixDeleteRestores(RedSiblingStep(x));
      } else if !IsRed(s.left) && !IsRed(s.right) {
        PushUpKeepsDelInv(x);
        FixDeleteRestores(PushUp(x));
      } else {
        ResolveRestores(x);
      }
    }
  }

  // ----- unlinking the childless node, and erase -----

  /** Case 0 of `deleteNode` with the textbook repair in place of `fixDelete`. */
  function Detach<V>(w: Cursor<V>): (r: Tree<V>)
    requires w.focus.Node? && w.focus.left.Leaf? && w.focus.right.Leaf?
    ensures Index(w) < |InOrder(Whole(w))|
    ensures InOrder(r) == Remove(InOrder(Whole(w)), Index(w))
  {
    UnlinkInOrder(w);
    if w.focus.color == Red then Plug(Leaf, w.path)
    else if w.path.Top? then Leaf
    else FixDelete(Cursor(Leaf, w.path))
  }

  lemma DetachRestores<V>(w: Cursor<V>)
    requires w.focus.Node? && w.focus.left.Leaf? && w.focus.right.Leaf?
    requires IsRedBlack(Whole(w))
    ensures IsRedBlack(Detach(w))
  {
    BalancedPlug(w.focus, w.path);
    RedOkPlug(w.focus, w.path);
    BalancedPlug(Leaf, w.path);
    RedOkPlug(Leaf, w.path);
    if w.focus.color == Red {
      PathRedOkWeaken(w.path);
      if w.path.Step? {
        PlugRootSame(w.focus, Leaf, w.path);
      }
    } else if w.path.Step? {
      assert DelInv(Cursor(Leaf, w.path));
      FixDeleteRestores(Cursor(Leaf, w.path));
    }
  }

  /** Removing either of two equal pairs from an ordered sequence in which no
      other pair shares their key gives the same sequence. */
  lemma RemoveEqualPairs<V>(s: seq<(int, V)>, i: nat, j: nat)
    requires i < |s| && j < |s| && s[i] == s[j]
    requires Sorted(s) && KeyHoldsOnly(s, s[i])
    ensures Remove(s, i) == Remove(s, j)
  {
    if i < j {
      forall m | i <= m <= j
        ensures s[m] == s[i]
      {
        assert s[i].0 <= s[m].0 <= s[j].0;
      }
    } else if j < i {
      forall m | j <= m <= i
        ensures s[m] == s[i]
      {
        assert s[j].0 <= s[m].0 <= s[i].0;
      }
    }
  }

  /** `erase(pos)` (lines 401-406) as written: `end()` is the null iterator
      and leaves the tree alone; otherwise the node is looked up by its pair,
      reduced to a childless node and unlinked.  A failed look-up hands a null
      pointer to `deleteNode`. */
  function EraseAsWritten<V(==)>(t: Tree<V>, pos: nat): (r: Outcome<Tree<V>>)
    requires pos <= |InOrder(t)|
    ensures pos == |InOrder(t)| ==> r == Ok(t)
    ensures r.Ok? && pos < |InOrder(t)| ==>
      multiset(InOrder(r.value)) == multiset(InOrder(t)) - multiset{InOrder(t)[pos]}
  {
    if pos == |InOrder(t)| then Ok(t)
    else
      match GetNode(Cursor(t, Top), InOrder(t)[pos])
      case None => Undefined
      case Some(c) =>
        match Reduce(c)
        case Ok(w) =>
          var r := DetachAsWritten(w);
          IndexLocates(w);
          RemoveMultiset(InOrder(Whole(w)), Index(w));
          r
        case _ => OutOfRange
  }

  /** `erase(pos)` with the textbook repair. */
  function Erase<V(==)>(t: Tree<V>, pos: nat): (r: Outcome<Tree<V>>)
    requires pos <= |InOrder(t)|
    ensures pos == |InOrder(t)| ==> r == Ok(t)
    ensures r.Ok? && pos < |InOrder(t)| ==>
      multiset(InOrder(r.value)) == multiset(InOrder(t)) - multiset{InOrder(t)[pos]}
  {
    if pos == |InOrder(t)| then Ok(t)
    else
      match GetNode(Cursor(t, Top), InOrder(t)[pos])
      case None => Undefined
      case Some(c) =>
        match Reduce(c)
        case Ok(w) =>
          var r := Detach(w);
          IndexLocates(w);
          RemoveMultiset(InOrder(Whole(w)), Index(w));
          Ok(r)
        case _ => OutOfRange
  }

  /** On a valid tree whose pairs are determined by their keys (as in a set,
      a map and a multiset), erasing the element at `pos` succeeds, removes
      exactly that element and leaves a valid tree. */
  lemma EraseKeepsValid<V>(t: Tree<V>, pos: nat)
    requires Valid(t) && pos < |InOrder(t)| && KeyHoldsOnly(InOrder(t), InOrder(t)[pos])
    ensures Erase(t, pos).Ok?
    ensures InOrder(Erase(t, pos).value) == Remove(InOrder(t), pos)
    ensures Valid(Erase(t, pos).value)
  {
    var s := InOrder(t);
    var x := s[pos];
    GetNodeFinds(Cursor(t, Top), x);
    var c := GetNode(Cursor(t, Top), x).value;
    ReduceOnRedBlack(c);
    var w := Reduce(c).value;
    IndexLocates(c);
    RemoveEqualPairs(s, Index(c), pos);
    DetachRestores(w);
    RemoveKeepsSorted(s, pos);
  }

  /** When the as-written erase does not fail, it removes exactly the element
      at `pos`: every branch of `fixDelete` only recolours and rotates. */
  lemma EraseAsWrittenRemoves<V>(t: Tree<V>, pos: nat)
    requires Valid(t) && pos < |InOrder(t)| && KeyHoldsOnly(InOrder(t), InOrder(t)[pos])
    requires EraseAsWritten(t, pos).Ok?
    ensures InOrder(EraseAsWritten(t, pos).value) == Remove(InOrder(t), pos)
  {
    var s := InOrder(t);
    var x := s[pos];
    GetNodeFinds(Cursor(t, Top), x);
    var c := GetNode(Cursor(t, Top), x).value;
    ReduceOnRedBlack(c);
    IndexLocates(c);
    RemoveEqualPairs(s, Index(c), pos);
  }

  /** The tree inserting 10, 5, 15 and 7 builds: 10B(5B(-, 7R), 15B). */
  function SampleTree(): Tree<int>
  {
    Node(Black, Node(Black, Leaf, 5, 0, Node(Red, Leaf, 7, 0, Leaf)), 10, 0, Node(Black, Leaf, 15, 0, Leaf))
  }

  lemma SampleTreeIsValid()
    ensures InOrder(SampleTree()) == [(5, 0), (7, 0), (10, 0), (15, 0)]
    ensures Valid(SampleTree())
  {
    assert InOrder(SampleTree().left) == [(5, 0), (7, 0)];
  }

  /** The cursor at the node holding 15 in the sample tree. */
  function SampleLeaf(): Cursor<int>
  {
    Cursor(Node(Black, Leaf, 15, 0, Leaf), Step(Right, Black, 10, 0, SampleTree().left, Top))
  }

  /** The look-up finds 15 in the right child of the root, which has no child to exchange with. */
  lemma SampleLookup()
    ensures |InOrder(SampleTree())| == 4
    ensures EraseAsWritten(SampleTree(), 3) == DetachAsWritten(SampleLeaf())
  {
    SampleTreeIsValid();
    SampleFindsLeaf();
    EraseAsWrittenAtChildless(SampleTree(), 3, SampleLeaf());
  }

  /** When the look-up lands on a node without children, the as-written erase
      unlinks that node directly. */
  lemma EraseAsWrittenAtChildless<V>(t: Tree<V>, pos: nat, c: Cursor<V>)
    requires pos < |InOrder(t)| && GetNode(Cursor(t, Top), InOrder(t)[pos]) == Some(c)
    requires c.focus.Node? && c.focus.left.Leaf? && c.focus.right.Leaf?
    ensures EraseAsWritten(t, pos) == DetachAsWritten(c)
  {
    assert Reduce(c) == Ok(c);
  }

  lemma SampleFindsLeaf()
    ensures GetNode(Cursor(SampleTree(), Top), (15, 0)) == Some(SampleLeaf())
  {
    var c := Cursor(SampleTree(), Top);
    assert DownRight(c) == SampleLeaf();
    assert GetNode(DownRight(c), (15, 0)) == Some(SampleLeaf());
  }

  /** Unlinking the black leaf 15: the repair takes 5 for the sibling, sees its
      red right child and rotates 10 to the left, although 10 no longer has a
      right child. */
  lemma SampleRepairFails()
    ensures DetachAsWritten(SampleLeaf()) == Undefined
  {
    var z := Up(Cursor(Leaf, SampleLeaf().path));
    assert z == Cursor(Node(Black, SampleTree().left, 10, 0, Leaf), Top);
    assert FixDeleteAsWritten(z) == Undefined;
  }

  /** Erasing 15 from the valid sample tree dereferences a null pointer. */
  lemma EraseAsWrittenDereferencesNull()
    ensures Valid(SampleTree()) && |InOrder(SampleTree())| == 4
    ensures EraseAsWritten(SampleTree(), 3) == Undefined
  {
    SampleTreeIsValid();
    SampleLookup();
    SampleRepairFails();
  }
}

=== FILE: rbinsert.dfy ===
/** Insertion into the red-black tree: `rbtree::insert` (lines 246-278) with
    `create_tree`/`create_node` (lines 158-178) and the colour repair
    `InsertFix` (lines 195-244), both as written and corrected.  The source
    walks the tree through `parent` pointers; the model walks it with cursors. */
module RbInsert {
  import opened RbTree
  import opened RbPath

  /** `after` is `before` with `x` put in at one position. */
  ghost predicate InsertedSomewhere<V>(before: seq<(int, V)>, after: seq<(int, V)>, x: (int, V))
  {
    exists i :: 0 <= i <= |before| && after == before[..i] + [x] + before[i..]
  }

  // ----- the descent -----

  /** The descent of `insert` (lines 251-268): a smaller key goes left, a larger
      key goes right, and the walk stops at an empty slot or at a node whose key
      equals the new one. */
  function SeekAsWritten<V>(c: Cursor<V>, k: int): (r: Cursor<V>)
    ensures Whole(r) == Whole(c)
    ensures r.focus.Leaf? || r.focus.key == k
    decreases c.focus
  {
    match c.focus
    case Leaf => c
    case Node(_, _, key, _, _) =>
      if k < key then SeekAsWritten(DownLeft(c), k)
      else if k > key then SeekAsWritten(DownRight(c), k)
      else c
  }

  /** The descent with equal keys sent left, which is where the attach step of
      line 271 hangs a new node whose key equals its parent's. */
  function Seek<V>(c: Cursor<V>, k: int): (r: Cursor<V>)
    ensures Whole(r) == Whole(c)
    ensures r.focus.Leaf?
    decreases c.focus
  {
    match c.focus
    case Leaf => c
    case Node(_, _, key, _, _) =>
      if k <= key then Seek(DownLeft(c), k) else Seek(DownRight(c), k)
  }

  /** The pairs before the cursor's slot are at most `k` and those after it at least `k`. */
  predicate Brackets<V>(c: Cursor<V>, k: int)
  {
    AllAtMost(Before(c.path), k) && AllAtLeast(After(c.path), k)
  }

  /** Stepping left from a node whose key is at least `k` keeps `k` bracketed. */
  lemma DescendLeftBrackets<V>(c: Cursor<V>, k: int)
    requires c.focus.Node? && k <= c.focus.key
    requires Sorted(InOrder(Whole(c))) && Brackets(c, k)
    ensures Brackets(DownLeft(c), k)
  {
    InOrderPlug(c.focus, c.path);
    PivotBounds(Before(c.path), InOrder(c.focus.left), (c.focus.key, c.focus.value), InOrder(c.focus.right), After(c.path), k);
  }

  /** Stepping right from a node whose key is at most `k` keeps `k` bracketed. */
  lemma DescendRightBrackets<V>(c: Cursor<V>, k: int)
    requires c.focus.Node? && c.focus.key <= k
    requires Sorted(InOrder(Whole(c))) && Brackets(c, k)
    ensures Brackets(DownRight(c), k)
  {
    InOrderPlug(c.focus, c.path);
    PivotBounds(Before(c.path), InOrder(c.focus.left), (c.focus.key, c.focus.value), InOrder(c.focus.right), After(c.path), k);
  }

  /** In a sorted `b + (l + [x] + r) + a`, a key at most `x`'s is at most
      everything from `x` on, and a key at least `x`'s is at least everything
      up to `x`. */
  lemma PivotBounds<V>(b: seq<(int, V)>, l: seq<(int, V)>, x: (int, V), r: seq<(int, V)>, a: seq<(int, V)>, k: int)
    requires Sorted(b + (l + [x] + r) + a)
    ensures k <= x.0 ==> AllAtLeast([x] + r + a, k)
    ensures x.0 <= k ==> AllAtMost(b + l + [x], k)
  {
    var s := b + (l + [x] + r) + a;
    var n := |b| + |l|;
    assert s[n] == x;
    if k <= x.0 {
      var t := [x] + r + a;
      forall i | 0 <= i < |t|
        ensures k <= t[i].0
      {
        assert t[i] == s[n + i];
      }
    }
    if x.0 <= k {
      var t := b + l + [x];
      forall i | 0 <= i < |t|
        ensures t[i].0 <= k
      {
        assert t[i] == s[i];
      }
    }
  }

  /** The as-written descent ends in a slot (or at an equal key) that brackets `k`. */
  lemma {:induction false} SeekAsWrittenBounds<V>(c: Cursor<V>, k: int)
    requires Sorted(InOrder(Whole(c))) && Brackets(c, k)
    ensures Brackets(SeekAsWritten(c, k), k)
    decreases c.focus
  {
    if c.focus.Node? {
      if k < c.focus.key {
        DescendLeftBrackets(c, k);
        SeekAsWrittenBounds(DownLeft(c), k);
      } else if k > c.focus.key {
        DescendRightBrackets(c, k);
        SeekAsWrittenBounds(DownRight(c), k);
      }
    }
  }

  /** The corrected descent ends in an empty slot that brackets `k`. */
  lemma {:induction false} SeekBounds<V>(c: Cursor<V>, k: int)
    requires Sorted(InOrder(Whole(c))) && Brackets(c, k)
    ensures Brackets(Seek(c, k), k)
    decreases c.focus
  {
    if c.focus.Node? {
      if k <= c.focus.key {
        DescendLeftBrackets(c, k);
        SeekBounds(DownLeft(c), k);
      } else {
        DescendRightBrackets(c, k);
        SeekBounds(DownRight(c), k);
      }
    }
  }

  /** A new red node hung in an empty slot lands between the pairs before and after the slot. */
  lemma LeafSlotPlacement<V>(c: Cursor<V>, k: int, v: V)
    requires c.focus.Leaf?
    ensures var s := InOrder(Whole(c)); var i := |Before(c.path)|;
      i <= |s| && InOrder(Whole(Cursor(Node(Red, Leaf, k, v, Leaf), c.path))) == s[..i] + [(k, v)] + s[i..]
    ensures Sorted(InOrder(Whole(c))) && Brackets(c, k) ==>
      Sorted(InOrder(Whole(Cursor(Node(Red, Leaf, k, v, Leaf), c.path))))
  {
    var s := InOrder(Whole(c));
    InOrderPlug(c.focus, c.path);
    InOrderPlug(Node(Red, Leaf, k, v, Leaf), c.path);
    assert s == Before(c.path) + After(c.path);
    assert s[..|Before(c.path)|] == Before(c.path);
    assert s[|Before(c.path)|..] == After(c.path);
    if Sorted(s) && Brackets(c, k) {
      SortedInsertion(Before(c.path), (k, v), After(c.path));
    }
  }

  // ----- one round of InsertFix -----

  /** The loop test of `InsertFix` (lines 197-200): the node has a parent and a grandparent, and the parent is red. */
  predicate RedParent<V>(c: Cursor<V>)
  {
    c.path.Step? && c.path.up.Step? && c.path.color == Red
  }

  /** The red-uncle case (lines 207-210, 227-230): parent and uncle turn black,
      the grandparent turns red, and the repair continues at the grandparent. */
  function Recolor<V>(c: Cursor<V>): (r: Cursor<V>)
    requires c.focus.Node? && RedParent(c)
    ensures InOrder(Whole(r)) == InOrder(Whole(c))
    ensures Depth(r.path) < Depth(c.path)
    ensures r.focus.Node?
  {
    var ded := Up(Paint(Up(c), Black));
    var g := ded.focus;
    var g' := if c.path.up.side == Left then Node(Red, g.left, g.key, g.value, Blacken(g.right))
              else Node(Red, Blacken(g.left), g.key, g.value, g.right);
    SameInOrderPlug(g, g', ded.path);
    Cursor(g', ded.path)
  }

  /** One pass of the loop body of `InsertFix` as written (lines 201-241).  In
      the zig-zag case (lines 213-218, 232-235) it paints `node` black right
      after `node` was moved to the old parent, which the rotation has just
      made the child; the new subtree root stays red. */
  function InsertStepAsWritten<V>(c: Cursor<V>): (r: Cursor<V>)
    requires c.focus.Node? && RedParent(c)
    ensures r.focus.Node?
    ensures InOrder(Whole(r)) == InOrder(Whole(c))
    ensures Depth(r.path) < Depth(c.path)
  {
    if IsRed(c.path.up.sibling) then Recolor(c)
    else if c.path.up.side == Left then
      if c.path.side == Right then
        var y := Paint(DownLeft(RotateLeftAt(Up(c))), Black);
        DownLeft(RotateRightAt(Paint(Up(Up(y)), Red)))
      else
        DownLeft(RotateRightAt(Paint(Up(Paint(Up(c), Black)), Red)))
    else
      if c.path.side == Left then
        var y := Paint(DownRight(RotateRightAt(Up(c))), Black);
        DownRight(RotateLeftAt(Paint(Up(Up(y)), Red)))
      else
        DownRight(RotateLeftAt(Paint(Up(Paint(Up(c), Black)), Red)))
  }

  /** One pass of the textbook loop body: in the zig-zag case the node that the
      first rotation lifts is painted black before the second rotation. */
  function InsertStep<V>(c: Cursor<V>): (r: Cursor<V>)
    requires c.focus.Node? && RedParent(c)
    ensures r.focus.Node?
    ensures InOrder(Whole(r)) == InOrder(Whole(c))
    ensures Depth(r.path) < Depth(c.path)
  {
    if IsRed(c.path.up.sibling) then Recolor(c)
    else if c.path.up.side == Left then
      if c.path.side == Right then
        var y := Paint(Up(DownLeft(RotateLeftAt(Up(c)))), Black);
        DownLeft(RotateRightAt(Paint(Up(y), Red)))
      else
        DownLeft(RotateRightAt(Paint(Up(Paint(Up(c), Black)), Red)))
    else
      if c.path.side == Left then
        var y := Paint(Up(DownRight(RotateRightAt(Up(c)))), Black);
        DownRight(RotateLeftAt(Paint(Up(y), Red)))
      else
        DownRight(RotateLeftAt(Paint(Up(Paint(Up(c), Black)), Red)))
  }

  /** `InsertFix` as written: loop while the parent is red, then paint the root black (line 243). */
  function InsertFixAsWritten<V>(c: Cursor<V>): (r: Tree<V>)
    requires c.focus.Node?
    ensures InOrder(r) == InOrder(Whole(c))
    ensures r.Node? && r.color == Black
    decreases Depth(c.path)
  {
    if RedParent(c) then InsertFixAsWritten(InsertStepAsWritten(c))
    else
      PlugRootColor(c.focus, c.path);
      Blacken(Whole(c))
  }

  function InsertFix<V>(c: Cursor<V>): (r: Tree<V>)
    requires c.focus.Node?
    ensures InOrder(r) == InOrder(Whole(c))
    ensures r.Node? && r.color == Black
    decreases Depth(c.path)
  {
    if RedParent(c) then InsertFix(InsertStep(c))
    else
      PlugRootColor(c.focus, c.path);
      Blacken(Whole(c))
  }

  // ----- the loop invariant of the corrected repair -----

  /** The only possible violation is a red focus under a red parent: the focus
      subtree is red-rooted, red-correct and balanced, and the ancestors fit it. */
  predicate FixInv<V>(c: Cursor<V>)
  {
    c.focus.Node? && c.focus.color == Red && RedOk(c.focus) && Balanced(c.focus) &&
    PathBalanced(c.path, BlackHeight(c.focus)) && PathRedOk(c.path, false)
  }

  /** Blackening a red subtree raises its black height by one and keeps it correct. */
  lemma BlackenRed<V>(u: Tree<V>)
    requires IsRed(u) && RedOk(u) && Balanced(u)
    ensures RedOk(Blacken(u)) && Balanced(Blacken(u)) && !IsRed(Blacken(u))
    ensures BlackHeight(Blacken(u)) == BlackHeight(u) + 1
  {
  }

  lemma RecolorKeepsFixInv<V>(c: Cursor<V>)
    requires FixInv(c) && RedParent(c) && IsRed(c.path.up.sibling)
    ensures FixInv(Recolor(c))
  {
    var n := c.focus;
    var Step(sp, _, pk, pv, s, g) := c.path;
    var Step(sg, gc, gk, gv, u, rest) := g;
    var h := BlackHeight(n);
    assert Balanced(s) && BlackHeight(s) == h && RedOk(s) && PathBalanced(g, h) && PathRedOk(g, true);
    assert Balanced(u) && BlackHeight(u) == h && RedOk(u) && gc == Black;
    assert PathBalanced(rest, h + 1) && PathRedOk(rest, false);
    var pn := Attach(c.path.(color := Black), n);
    assert Balanced(pn) && RedOk(pn) && BlackHeight(pn) == h + 1 && !IsRed(pn);
    BlackenRed(u);
    var g' := if sg == Left then Node(Red, pn, gk, gv, Blacken(u)) else Node(Red, Blacken(u), gk, gv, pn);
    assert Recolor(c) == Cursor(g', rest);
    assert RedOk(g') && Balanced(g') && BlackHeight(g') == h + 1;
  }

  lemma StraightKeepsFixInv<V>(c: Cursor<V>)
    requires FixInv(c) && RedParent(c) && !IsRed(c.path.up.sibling)
    requires c.path.up.side == c.path.side
    ensures FixInv(InsertStep(c))
  {
    var n := c.focus;
    var Step(sp, _, pk, pv, s, g) := c.path;
    var Step(sg, gc, gk, gv, u, rest) := g;
    var h := BlackHeight(n);
    assert Balanced(s) && BlackHeight(s) == h && RedOk(s) && !IsRed(s) && PathBalanced(g, h) && PathRedOk(g, true);
    assert Balanced(u) && BlackHeight(u) == h && RedOk(u) && gc == Black;
    assert PathBalanced(rest, h + 1) && PathRedOk(rest, false);
    var d := if sg == Left then Node(Red, s, gk, gv, u) else Node(Red, u, gk, gv, s);
    assert RedOk(d) && Balanced(d) && BlackHeight(d) == h;
    assert InsertStep(c) == Cursor(n, Step(sg, Black, pk, pv, d, rest));
  }

  lemma ZigZagKeepsFixInv<V>(c: Cursor<V>)
    requires FixInv(c) && RedParent(c) && !IsRed(c.path.up.sibling)
    requires c.path.up.side != c.path.side
    ensures FixInv(InsertStep(c))
  {
    var Node(_, nl, nk, nv, nr) := c.focus;
    var Step(sp, _, pk, pv, s, g) := c.path;
    var Step(sg, gc, gk, gv, u, rest) := g;
    var h := BlackHeight(c.focus);
    assert Balanced(s) && BlackHeight(s) == h && RedOk(s) && !IsRed(s) && PathBalanced(g, h) && PathRedOk(g, true);
    assert Balanced(u) && BlackHeight(u) == h && RedOk(u) && gc == Black;
    assert PathBalanced(rest, h + 1) && PathRedOk(rest, false);
    assert BlackHeight(nl) == h && BlackHeight(nr) == h && !IsRed(nl) && !IsRed(nr);
    if sg == Left {
      var f := Node(Red, s, pk, pv, nl);
      var d := Node(Red, nr, gk, gv, u);
      assert RedOk(f) && Balanced(f) && BlackHeight(f) == h;
      assert RedOk(d) && Balanced(d) && BlackHeight(d) == h;
      assert InsertStep(c) == Cursor(f, Step(Left, Black, nk, nv, d, rest));
    } else {
      var f := Node(Red, nr, pk, pv, s);
      var d := Node(Red, u, gk, gv, nl);
      assert RedOk(f) && Balanced(f) && BlackHeight(f) == h;
      assert RedOk(d) && Balanced(d) && BlackHeight(d) == h;
      assert InsertStep(c) == Cursor(f, Step(Right, Black, nk, nv, d, rest));
    }
  }

  lemma InsertStepKeepsFixInv<V>(c: Cursor<V>)
    requires FixInv(c) && RedParent(c)
    ensures FixInv(InsertStep(c))
  {
    if IsRed(c.path.up.sibling) {
      RecolorKeepsFixInv(c);
    } else if c.path.up.side == c.path.side {
      StraightKeepsFixInv(c);
    } else {
      ZigZagKeepsFixInv(c);
    }
  }

  /** When the loop stops, blackening the root leaves a red-black tree. */
  lemma FixExitIsRedBlack<V>(c: Cursor<V>)
    requires FixInv(c) && !RedParent(c)
    ensures IsRedBlack(Blacken(Whole(c)))
  {
    BalancedPlug(c.focus, c.path);
    if c.path.Top? {
      BlackenKeepsColorInvariants(c.focus);
    } else if c.path.color == Black {
      RedOkPlug(c.focus, c.path);
      BlackenKeepsColorInvariants(Whole(c));
    } else {
      assert Whole(c) == Attach(c.path, c.focus);
      BlackenKeepsColorInvariants(Whole(c));
    }
  }

  lemma {:induction false} InsertFixRestores<V>(c: Cursor<V>)
    requires FixInv(c)
    ensures IsRedBlack(InsertFix(c))
    decreases Depth(c.path)
  {
    if RedParent(c) {
      InsertStepKeepsFixInv(c);
      InsertFixRestores(InsertStep(c));
    } else {
      FixExitIsRedBlack(c);
    }
  }

  /** A red node hung in an empty slot of a red-black tree meets the loop invariant. */
  lemma NewNodeMeetsFixInv<V>(c: Cursor<V>, k: int, v: V)
    requires c.focus.Leaf? && IsRedBlack(Whole(c))
    ensures FixInv(Cursor(Node(Red, Leaf, k, v, Leaf), c.path))
  {
    BalancedPlug(c.focus, c.path);
    RedOkPlug(c.focus, c.path);
  }

  // ----- insert -----

  /** `insert` as written (lines 246-278): an empty tree gets a black root; a
      new key is hung red in the empty slot the descent reaches; a key equal to
      a node's key is spliced in as that node's left child, taking over the old
      left subtree, with an empty right child. */
  function InsertAsWritten<V>(t: Tree<V>, k: int, v: V): (r: (Tree<V>, bool))
    ensures r.1 && r.0.Node?
  {
    if t.Leaf? then (Node(Black, Leaf, k, v, Leaf), true)
    else
      var c := SeekAsWritten(Cursor(t, Top), k);
      var start :=
        if c.focus.Leaf? then Cursor(Node(Red, Leaf, k, v, Leaf), c.path)
        else SpliceStart(c, k, v);
      (InsertFixAsWritten(start), true)
  }

  /** The as-written insert still puts the pair in key order. */
  lemma InsertAsWrittenPlacesPair<V>(t: Tree<V>, k: int, v: V)
    ensures InsertedSomewhere(InOrder(t), InOrder(InsertAsWritten(t, k, v).0), (k, v))
    ensures Sorted(InOrder(t)) ==> Sorted(InOrder(InsertAsWritten(t, k, v).0))
  {
    var s := InOrder(t);
    if t.Leaf? {
      assert InOrder(InsertAsWritten(t, k, v).0) == s[..0] + [(k, v)] + s[0..];
    } else {
      var c := SeekAsWritten(Cursor(t, Top), k);
      if Sorted(s) {
        SeekAsWrittenBounds(Cursor(t, Top), k);
      }
      if c.focus.Leaf? {
        LeafSlotPlacement(c, k, v);
        assert InOrder(InsertAsWritten(t, k, v).0) == s[..|Before(c.path)|] + [(k, v)] + s[|Before(c.path)|..];
      } else {
        SplicePlacement(c, k, v);
        var i := Index(c);
        assert InOrder(InsertAsWritten(t, k, v).0) == s[..i] + [(k, v)] + s[i..];
      }
    }
  }

  /** The cursor `insert` (lines 257-266) starts its repair from when the key
      equals the key at `c`: a red node above the old left subtree, hung as the
      left child of the equal node. */
  function SpliceStart<V>(c: Cursor<V>, k: int, v: V): (r: Cursor<V>)
    requires c.focus.Node?
    ensures r.focus.Node? && r.path.Step? && r.path.up == c.path && r.path.side == Left
    ensures InOrder(r.focus.left) == InOrder(c.focus.left) && r.focus.right == Leaf
  {
    Cursor(Node(Red, c.focus.left, k, v, Leaf),
           Step(Left, c.focus.color, c.focus.key, c.focus.value, c.focus.right, c.path))
  }

  /** A node spliced in above an equal key lands just before that key's pair. */
  lemma SplicePlacement<V>(c: Cursor<V>, k: int, v: V)
    requires c.focus.Node? && c.focus.key == k
    ensures Index(c) <= |InOrder(Whole(c))|
    ensures InOrder(Whole(SpliceStart(c, k, v))) ==
      InOrder(Whole(c))[..Index(c)] + [(k, v)] + InOrder(Whole(c))[Index(c)..]
    ensures Sorted(InOrder(Whole(c))) ==> Sorted(InOrder(Whole(SpliceStart(c, k, v))))
  {
    var Node(col, l, key, v0, rt) := c.focus;
    var s := InOrder(Whole(c));
    var t' := Node(col, Node(Red, l, k, v, Leaf), key, v0, rt);
    assert Whole(SpliceStart(c, k, v)) == Plug(t', c.path);
    var a := Before(c.path) + InOrder(l);
    var rest := InOrder(rt) + After(c.path);
    InOrderPlug(c.focus, c.path);
    InOrderPlug(t', c.path);
    assert InOrder(Node(Red, l, k, v, Leaf)) == InOrder(l) + [(k, v)] + InOrder(Leaf);
    assert InOrder(t') == InOrder(l) + [(k, v)] + [] + [(key, v0)] + InOrder(rt);
    SpliceSequences(Before(c.path), InOrder(l), (k, v), (key, v0), InOrder(rt), After(c.path));
    if Sorted(s) {
      SortedBeforeEqual(a, (key, v0), rest, (k, v));
    }
  }

  lemma SpliceSequences<T>(pre: seq<T>, l: seq<T>, x: T, y: T, r: seq<T>, post: seq<T>)
    ensures var s := pre + (l + [y] + r) + post; var i := |pre| + |l|;
      i <= |s| &&
      pre + (l + [x] + [] + [y] + r) + post == s[..i] + [x] + s[i..] &&
      s == (pre + l) + [y] + (r + post) &&
      pre + (l + [x] + [] + [y] + r) + post == (pre + l) + [x] + ([y] + (r + post))
  {
    var s := pre + (l + [y] + r) + post;
    var i := |pre| + |l|;
    assert s[..i] == pre + l;
    assert s[i..] == [y] + r + post;
  }

  /** In a sorted `a + [y] + rest`, a pair with `y`'s key fits just before `y`. */
  lemma SortedBeforeEqual<V>(a: seq<(int, V)>, y: (int, V), rest: seq<(int, V)>, x: (int, V))
    requires Sorted(a + [y] + rest) && x.0 == y.0
    ensures Sorted(a + [x] + ([y] + rest))
  {
    SortedAroundPivot(a, y, rest);
    var b := [y] + rest;
    assert a + [y] + rest == a + b;
    forall j | 0 <= j < |b|
      ensures x.0 <= b[j].0
    {
      if j > 0 {
        assert b[j] == rest[j - 1];
      }
    }
    SortedInsertion(a, x, b);
  }

  /** Inserting 10, 5 and 7 into an empty tree with the as-written zig-zag case
      leaves black height 2 on the left of the root and 1 on the right. */
  lemma ZigZagAsWrittenUnbalances()
    ensures !Balanced(InsertAsWritten(InsertAsWritten(InsertAsWritten(Leaf, 10, 0).0, 5, 0).0, 7, 0).0)
  {
    var t2 := InsertAsWritten(InsertAsWritten(Leaf, 10, 0).0, 5, 0).0;
    assert t2 == Node(Black, Node(Red, Leaf, 5, 0, Leaf), 10, 0, Leaf);
    var c := SeekAsWritten(Cursor(t2, Top), 7);
    assert c == Cursor(Leaf, Step(Right, Red, 5, 0, Leaf, Step(Left, Black, 10, 0, Leaf, Top)));
    var start := Cursor(Node(Red, Leaf, 7, 0, Leaf), c.path);
    var next := InsertStepAsWritten(start);
    assert next == Cursor(Node(Black, Leaf, 5, 0, Leaf), Step(Left, Red, 7, 0, Node(Red, Leaf, 10, 0, Leaf), Top));
    assert InsertAsWritten(t2, 7, 0).0 ==
      Node(Black, Node(Black, Leaf, 5, 0, Leaf), 7, 0, Node(Red, Leaf, 10, 0, Leaf));
  }

  /** Inserting 10, 5 and then 10 again splices a red node with key 10 above the
      red node with key 5: a red node with a red child. */
  lemma DuplicateSpliceAsWrittenBreaksRedRule()
    ensures !RedOk(InsertAsWritten(InsertAsWritten(InsertAsWritten(Leaf, 10, 0).0, 5, 0).0, 10, 1).0)
  {
    var t2 := InsertAsWritten(InsertAsWritten(Leaf, 10, 0).0, 5, 0).0;
    assert t2 == Node(Black, Node(Red, Leaf, 5, 0, Leaf), 10, 0, Leaf);
    assert SeekAsWritten(Cursor(t2, Top), 10) == Cursor(t2, Top);
    assert InsertAsWritten(t2, 10, 1).0 ==
      Node(Black, Node(Red, Node(Red, Leaf, 5, 0, Leaf), 10, 1, Leaf), 10, 0, Leaf);
  }

  /** `insert` with both repairs: equal keys descend left like any smaller key,
      and the colour repair is the textbook one.  It always succeeds, puts the
      pair in key order, and keeps every red-black invariant. */
  function Insert<V>(t: Tree<V>, k: int, v: V): (r: (Tree<V>, bool))
    ensures r.1 && r.0.Node?
    ensures InsertedSomewhere(InOrder(t), InOrder(r.0), (k, v))
    ensures Sorted(InOrder(t)) ==> Sorted(InOrder(r.0))
    ensures IsRedBlack(t) ==> IsRedBlack(r.0)
  {
    var s := InOrder(t);
    if t.Leaf? then
      assert [(k, v)] == s[..0] + [(k, v)] + s[0..];
      (Node(Black, Leaf, k, v, Leaf), true)
    else
      var c := Seek(Cursor(t, Top), k);
      var start := Cursor(Node(Red, Leaf, k, v, Leaf), c.path);
      LeafSlotPlacement(c, k, v);
      InsertInvariants(t, c, k, v);
      (InsertFix(start), true)
  }

  lemma InsertInvariants<V>(t: Tree<V>, c: Cursor<V>, k: int, v: V)
    requires c == Seek(Cursor(t, Top), k)
    ensures Sorted(InOrder(t)) ==> Brackets(c, k)
    ensures IsRedBlack(t) ==> IsRedBlack(InsertFix(Cursor(Node(Red, Leaf, k, v, Leaf), c.path)))
  {
    if Sorted(InOrder(t)) {
      SeekBounds(Cursor(t, Top), k);
    }
    if IsRedBlack(t) {
      NewNodeMeetsFixInv(c, k, v);
      InsertFixRestores(Cursor(Node(Red, Leaf, k, v, Leaf), c.path));
    }
  }
}

=== FILE: rbiterate.dfy ===
/** Tree iterators: `increment_operator` (lines 100-115) and
    `decrement_operator` (lines 84-99), which move a node pointer to the next
    or previous node, and `begin` (lines 179-183) with `findMin` (lines
    130-134).  An iterator is `None` for `end()`, the null pointer, or the
    cursor of the node it points to.  The source decides whether a node is a
    left or a right child by comparing keys; the corrected walks look at the
    links instead, and the two agree as long as the keys are distinct. */
module RbIterate {
  import opened Outcomes
  import opened RbTree
  import opened RbPath
  import opened RbInsert
  import opened RbErase

  // ----- the walks along the links -----

  /** `while (node->left) node = node->left`: the smallest node of the subtree. */
  function Leftmost<V>(c: Cursor<V>): (r: Cursor<V>)
    requires c.focus.Node?
    ensures r.focus.Node? && r.focus.left.Leaf?
    ensures Whole(r) == Whole(c)
    ensures Index(r) == |Before(c.path)|
    decreases c.focus
  {
    if c.focus.left.Leaf? then c else Leftmost(DownLeft(c))
  }

  /** Up through the ancestors of which the position lies in the right
      subtree, then one more step: the first ancestor after the subtree. */
  function Climb<V>(c: Cursor<V>): (r: Option<Cursor<V>>)
    requires c.focus.Node?
    ensures r.Some? ==> r.value.focus.Node? && Whole(r.value) == Whole(c)
    ensures r.Some? ==> Index(r.value) == |Before(c.path)| + |InOrder(c.focus)|
    ensures r.None? ==> |Before(c.path)| + |InOrder(c.focus)| == |InOrder(Whole(c))|
    decreases c.path
  {
    if c.path.Top? then
      InOrderPlug(c.focus, c.path);
      None
    else if c.path.side == Right then Climb(Up(c))
    else Some(Up(c))
  }

  /** Up through the ancestors of which the position lies in the left
      subtree, then one more step: the last ancestor before the subtree. */
  function ClimbLeft<V>(c: Cursor<V>): (r: Option<Cursor<V>>)
    requires c.focus.Node?
    ensures r.Some? ==> r.value.focus.Node? && Whole(r.value) == Whole(c)
    ensures r.Some? ==> Index(r.value) + 1 == |Before(c.path)|
    ensures r.None? ==> |Before(c.path)| == 0
    decreases c.path
  {
    if c.path.Top? then None
    else if c.path.side == Left then ClimbLeft(Up(c))
    else Some(Up(c))
  }

  /** The in-order successor of a node, or `end()` after the last one. */
  function Next<V>(c: Cursor<V>): (r: Option<Cursor<V>>)
    requires c.focus.Node?
    ensures Index(c) < |InOrder(Whole(c))|
    ensures r.Some? ==> r.value.focus.Node? && Whole(r.value) == Whole(c) && Index(r.value) == Index(c) + 1
    ensures r.None? <==> Index(c) + 1 == |InOrder(Whole(c))|
  {
    IndexLocates(c);
    assert |InOrder(c.focus)| == |InOrder(c.focus.left)| + 1 + |InOrder(c.focus.right)|;
    if c.focus.right.Leaf? then
      var r := Climb(c);
      if r.Some? then IndexLocates(r.value); r else r
    else
      var r := Leftmost(DownRight(c));
      IndexLocates(r);
      Some(r)
  }

  /** The in-order predecessor of a node, or `None` before the first one. */
  function Prev<V>(c: Cursor<V>): (r: Option<Cursor<V>>)
    requires c.focus.Node?
    ensures r.Some? ==> r.value.focus.Node? && Whole(r.value) == Whole(c) && Index(r.value) + 1 == Index(c)
    ensures r.None? <==> Index(c) == 0
  {
    if c.focus.left.Leaf? then ClimbLeft(c) else Some(Rightmost(DownLeft(c)))
  }

  // ----- the walks as written -----

  /** The `while` loop of lines 106-108 followed by the step to the parent:
      climb while the key is not below the parent's. */
  function ClimbAsWritten<V>(c: Cursor<V>): (r: Option<Cursor<V>>)
    requires c.focus.Node?
    ensures r.Some? ==> r.value.focus.Node? && Whole(r.value) == Whole(c)
    decreases c.path
  {
    if c.path.Step? && c.focus.key >= c.path.key then ClimbAsWritten(Up(c))
    else if c.path.Step? then Some(Up(c))
    else None
  }

  /** `increment_operator` (lines 100-115) as written. */
  function NextAsWritten<V>(c: Cursor<V>): (r: Option<Cursor<V>>)
    requires c.focus.Node?
    ensures r.Some? ==> r.value.focus.Node? && Whole(r.value) == Whole(c)
  {
    if c.focus.right.Leaf? then
      if c.path.Step? && c.focus.key <= c.path.key then Some(Up(c))
      else ClimbAsWritten(c)
    else Some(Leftmost(DownRight(c)))
  }

  /** The `while` loop of lines 90-92 followed by the step to the parent. */
  function ClimbLeftAsWritten<V>(c: Cursor<V>): (r: Option<Cursor<V>>)
    requires c.focus.Node?
    ensures r.Some? ==> r.value.focus.Node? && Whole(r.value) == Whole(c)
    decreases c.path
  {
    if c.path.Step? && c.focus.key <= c.path.key then ClimbLeftAsWritten(Up(c))
    else if c.path.Step? then Some(Up(c))
    else None
  }

  /** `decrement_operator` (lines 84-99) as written. */
  function PrevAsWritten<V>(c: Cursor<V>): (r: Option<Cursor<V>>)
    requires c.focus.Node?
    ensures r.Some? ==> r.value.focus.Node? && Whole(r.value) == Whole(c)
  {
    if c.focus.left.Leaf? then
      if c.path.Step? && c.focus.key >= c.path.key then Some(Up(c))
      else ClimbLeftAsWritten(c)
    else Some(Rightmost(DownLeft(c)))
  }

  /** With distinct keys, comparing a node's key with its parent's tells
      which child it is. */
  lemma SideByKey<V>(c: Cursor<V>)
    requires c.focus.Node? && c.path.Step? && StrictlySorted(InOrder(Whole(c)))
    ensures c.path.side == Left <==> c.focus.key < c.path.key
    ensures c.path.side == Right <==> c.path.key < c.focus.key
  {
    var u := Up(c);
    IndexLocates(c);
    IndexLocates(u);
    if c.path.side == Left {
      assert Index(c) < Index(u);
    } else {
      assert Index(u) < Index(c);
    }
  }

  lemma {:induction false} ClimbAgrees<V>(c: Cursor<V>)
    requires c.focus.Node? && StrictlySorted(InOrder(Whole(c)))
    ensures ClimbAsWritten(c) == Climb(c)
    ensures ClimbLeftAsWritten(c) == ClimbLeft(c)
    decreases c.path
  {
    if c.path.Step? {
      SideByKey(c);
      ClimbAgrees(Up(c));
    }
  }

  /** With distinct keys the iterators as written walk the tree in order. */
  lemma StepsAgree<V>(c: Cursor<V>)
    requires c.focus.Node? && StrictlySorted(InOrder(Whole(c)))
    ensures NextAsWritten(c) == Next(c)
    ensures PrevAsWritten(c) == Prev(c)
  {
    ClimbAgrees(c);
    if c.path.Step? {
      SideByKey(c);
    }
  }

  // ----- iterators -----

  /** `begin()`: `end()` for an empty tree, else the node `findMin` reaches. */
  function Begin<V>(t: Tree<V>): (r: Option<Cursor<V>>)
    ensures r.Some? ==> r.value.focus.Node? && Whole(r.value) == t && Index(r.value) == 0
    ensures r.None? <==> InOrder(t) == []
  {
    if t.Leaf? then None else Some(Leftmost(Cursor(t, Top)))
  }

  /** `operator++` on an iterator; incrementing `end()` dereferences null. */
  function Increment<V>(it: Option<Cursor<V>>): (r: Outcome<Option<Cursor<V>>>)
    requires it.Some? ==> it.value.focus.Node?
    ensures r.Undefined? <==> it.None?
    ensures r.Ok? ==> r.value == Next(it.value)
  {
    if it.None? then Undefined else Ok(Next(it.value))
  }

  /** The iterator `n` increments after `it`, stopping at `end()`. */
  function Walk<V>(it: Option<Cursor<V>>, n: nat): (r: Option<Cursor<V>>)
    requires it.Some? ==> it.value.focus.Node?
    ensures r.Some? ==> it.Some? && r.value.focus.Node? && Whole(r.value) == Whole(it.value)
    decreases n
  {
    if n == 0 || it.None? then it else Walk(Next(it.value), n - 1)
  }

  /** The same walk with the increment as written. */
  function WalkAsWritten<V>(it: Option<Cursor<V>>, n: nat): (r: Option<Cursor<V>>)
    requires it.Some? ==> it.value.focus.Node?
    ensures r.Some? ==> it.Some? && r.value.focus.Node? && Whole(r.value) == Whole(it.value)
    decreases n
  {
    if n == 0 || it.None? then it else WalkAsWritten(NextAsWritten(it.value), n - 1)
  }

  /** `for (it = begin(); it != end(); ++it)`, with the corrected increment,
      visits the pairs in order: after `n` steps it points at index `n`, and
      after all of them it equals `end()`. */
  lemma {:induction false} WalkVisitsInOrder<V>(t: Tree<V>, n: nat)
    requires n <= |InOrder(t)|
    ensures n < |InOrder(t)| ==> var r := Walk(Begin(t), n);
      r.Some? && Whole(r.value) == t && Index(r.value) == n
    ensures n == |InOrder(t)| ==> Walk(Begin(t), n).None?
  {
    if n > 0 {
      WalkVisitsInOrder(t, n - 1);
      WalkStep(Begin(t), n - 1);
    }
  }

  lemma {:induction false} WalkStep<V>(it: Option<Cursor<V>>, n: nat)
    requires it.Some? ==> it.value.focus.Node?
    ensures Walk(it, n + 1) == (var r := Walk(it, n); if r.Some? then Next(r.value) else None)
    decreases n
  {
    if n > 0 && it.Some? {
      WalkStep(Next(it.value), n - 1);
    }
  }

  /** With distinct keys, the walk as written is the in-order walk. */
  lemma {:induction false} WalkAgrees<V>(it: Option<Cursor<V>>, n: nat)
    requires it.Some? ==> it.value.focus.Node? && StrictlySorted(InOrder(Whole(it.value)))
    ensures WalkAsWritten(it, n) == Walk(it, n)
    decreases n
  {
    if n > 0 && it.Some? {
      StepsAgree(it.value);
      WalkAgrees(Next(it.value), n - 1);
    }
  }

  /** The tree a multiset builds from inserting 10, 10 and 5: the second 10
      is spliced above the first, and the repair after 5 rotates it to the root. */
  function DuplicateTree(): Tree<int>
  {
    Node(Black, Node(Red, Leaf, 5, 5, Leaf), 10, 10, Node(Red, Leaf, 10, 10, Leaf))
  }

  lemma DuplicateTreeFromInserts()
    ensures InsertAsWritten(InsertAsWritten(InsertAsWritten(Leaf, 10, 10).0, 10, 10).0, 5, 5).0 == DuplicateTree()
    ensures Valid(DuplicateTree())
  {
    assert InsertAsWritten(Leaf, 10, 10).0 == Node(Black, Leaf, 10, 10, Leaf);
    SecondTenSpliced();
    FiveRotatesTenUp();
    DuplicateTreeIsValid();
  }

  lemma DuplicateTreeIsValid()
    ensures InOrder(DuplicateTree()) == [(5, 5), (10, 10), (10, 10)]
    ensures Valid(DuplicateTree())
  {
    assert InOrder(DuplicateTree()) == [(5, 5), (10, 10), (10, 10)];
  }

  /** The second 10 becomes the red left child of the first. */
  lemma SecondTenSpliced()
    ensures InsertAsWritten(Node(Black, Leaf, 10, 10, Leaf), 10, 10).0 == Node(Black, Node(Red, Leaf, 10, 10, Leaf), 10, 10, Leaf)
  {
    var c := Cursor(Node(Black, Leaf, 10, 10, Leaf), Top);
    assert SeekAsWritten(c, 10) == c;
  }

  /** 5 hangs red below the red left 10, and the repair rotates that 10 to the root. */
  lemma FiveRotatesTenUp()
    ensures InsertAsWritten(Node(Black, Node(Red, Leaf, 10, 10, Leaf), 10, 10, Leaf), 5, 5).0 == DuplicateTree()
  {
    var c := Cursor(Node(Black, Node(Red, Leaf, 10, 10, Leaf), 10, 10, Leaf), Top);
    assert SeekAsWritten(c, 5) == DownLeft(DownLeft(c));
  }

  /** From the root, the increment as written goes to the right child 10, and
      from there back to the root, because 10 <= 10 reads as "left child". */
  lemma IncrementAsWrittenCycles()
    ensures var root := Cursor(DuplicateTree(), Top);
      NextAsWritten(root) == Some(DownRight(root)) && NextAsWritten(DownRight(root)) == Some(root)
  {
  }

  lemma {:induction false} CycleNeverEnds(n: nat)
    ensures WalkAsWritten(Some(Cursor(DuplicateTree(), Top)), n).Some?
    decreases n
  {
    var root := Cursor(DuplicateTree(), Top);
    IncrementAsWrittenCycles();
    if n >= 2 {
      assert WalkAsWritten(Some(root), n) == WalkAsWritten(Some(root), n - 2);
      CycleNeverEnds(n - 2);
    }
  }

  /** `for (it = begin(); it != end(); it++)` over this multiset never reaches
      `end()`, so `count`, `find`, `contains` and copying never return; the
      corrected walk reaches `end()` after the three elements. */
  lemma WalkAsWrittenNeverEnds(n: nat)
    ensures WalkAsWritten(Begin(DuplicateTree()), n).Some?
    ensures Walk(Begin(DuplicateTree()), 3).None?
  {
    var t := DuplicateTree();
    var root := Cursor(t, Top);
    assert Begin(t) == Some(DownLeft(root));
    assert NextAsWritten(DownLeft(root)) == Some(root);
    if n > 0 {
      CycleNeverEnds(n - 1);
      assert WalkAsWritten(Begin(t), n) == WalkAsWritten(Some(root), n - 1);
    }
    assert InOrder(t) == [(5, 5), (10, 10), (10, 10)];
    WalkVisitsInOrder(t, 3);
  }
}

=== FILE: rbops.dfy ===
/** The remaining operations of `s21::rbtree`: the linear scans behind
    `find` (lines 437-442) and `contains` (lines 444-451), and the ones the
    containers add on top of them (`count`, `lower_bound`, `upper_bound`),
    node counting `size` (lines 419-426), `clear` (lines 408-418), `empty`
    (line 452), `findMin`/`findMax` (lines 130-142), `merge` (lines 430-435)
    and `insert_many` (lines 469-478).  A scan walks `begin()` .. `end()`,
    which visits the in-order sequence (see `RbIterate`), so scans are stated
    over that sequence and return in-order positions, `|s|` standing for
    `end()`. */
module RbOps {
  import opened Outcomes
  import opened RbTree
  import opened RbPath
  import opened RbInsert
  import opened RbErase
  import opened RbIterate

  // ----- scans over the in-order sequence -----

  /** The first position at or after `i` whose key is `k`, or `|s|`. */
  function FindFrom<V>(s: seq<(int, V)>, k: int, i: nat): (r: nat)
    requires i <= |s|
    ensures i <= r <= |s|
    ensures r < |s| ==> s[r].0 == k
    ensures forall j :: i <= j < r ==> s[j].0 != k
    decreases |s| - i
  {
    if i == |s| || s[i].0 == k then i else FindFrom(s, k, i + 1)
  }

  /** `find(key)`: the first position holding `key`, or `end()`. */
  function Find<V>(s: seq<(int, V)>, k: int): (r: nat)
    ensures r <= |s|
    ensures r < |s| ==> s[r].0 == k
    ensures forall j :: 0 <= j < r ==> s[j].0 != k
  {
    FindFrom(s, k, 0)
  }

  /** `contains(key)`: the scan meets `key` somewhere. It is the scan of
      `find`, over the in-order sequence of the corrected iterator. */
  function ContainsFrom<V>(s: seq<(int, V)>, k: int, i: nat): (r: bool)
    requires i <= |s|
    ensures r <==> exists j :: i <= j < |s| && s[j].0 == k
    decreases |s| - i
  {
    if i == |s| then false else s[i].0 == k || ContainsFrom(s, k, i + 1)
  }

  function Contains<V>(s: seq<(int, V)>, k: int): (r: bool)
    ensures r <==> exists j :: 0 <= j < |s| && s[j].0 == k
  {
    ContainsFrom(s, k, 0)
  }

  /** `contains(k)` holds exactly when `find(k)` is not `end()`. */
  lemma ContainsIffFound<V>(s: seq<(int, V)>, k: int)
    ensures Contains(s, k) <==> Find(s, k) < |s|
  {
  }

  /** The number of keys of `s` equal to `k`, as a multiset count. */
  function CountOf<V>(s: seq<(int, V)>, k: int): nat
  {
    multiset(Keys(s))[k]
  }

  /** `count(key)` (multiset lines 64-72): one pass, one tick per equal key. */
  function CountFrom<V>(s: seq<(int, V)>, k: int, i: nat): (r: nat)
    requires i <= |s|
    ensures r == CountOf(s[i..], k)
    decreases |s| - i
  {
    if i == |s| then 0
    else
      assert Keys(s[i..]) == [s[i].0] + Keys(s[i + 1..]) by {
        assert s[i..][1..] == s[i + 1..];
      }
      (if s[i].0 == k then 1 else 0) + CountFrom(s, k, i + 1)
  }

  function Count<V>(s: seq<(int, V)>, k: int): (r: nat)
    ensures r == CountOf(s, k)
  {
    assert s[0..] == s;
    CountFrom(s, k, 0)
  }

  /** `lower_bound(key)` (multiset lines 89-101): the first position whose key is not below `key`. */
  function LowerBoundFrom<V>(s: seq<(int, V)>, k: int, i: nat): (r: nat)
    requires i <= |s|
    ensures i <= r <= |s|
    ensures r < |s| ==> k <= s[r].0
    ensures forall j :: i <= j < r ==> s[j].0 < k
    decreases |s| - i
  {
    if i == |s| || k <= s[i].0 then i else LowerBoundFrom(s, k, i + 1)
  }

  function LowerBound<V>(s: seq<(int, V)>, k: int): (r: nat)
    ensures r <= |s|
    ensures r < |s| ==> k <= s[r].0
    ensures forall j :: 0 <= j < r ==> s[j].0 < k
  {
    LowerBoundFrom(s, k, 0)
  }

  /** `upper_bound(key)` (multiset lines 103-117): the first position whose key exceeds `key`. */
  function UpperBoundFrom<V>(s: seq<(int, V)>, k: int, i: nat): (r: nat)
    requires i <= |s|
    ensures i <= r <= |s|
    ensures r < |s| ==> k < s[r].0
    ensures forall j :: i <= j < r ==> s[j].0 <= k
    decreases |s| - i
  {
    if i == |s| || k < s[i].0 then i else UpperBoundFrom(s, k, i + 1)
  }

  function UpperBound<V>(s: seq<(int, V)>, k: int): (r: nat)
    ensures r <= |s|
    ensures r < |s| ==> k < s[r].0
    ensures forall j :: 0 <= j < r ==> s[j].0 <= k
  {
    UpperBoundFrom(s, k, 0)
  }

  lemma CountSplit<V>(a: seq<(int, V)>, b: seq<(int, V)>, k: int)
    ensures CountOf(a + b, k) == CountOf(a, k) + CountOf(b, k)
  {
    KeysAppend(a, b);
  }

  lemma KeysAppend<V>(a: seq<(int, V)>, b: seq<(int, V)>)
    ensures Keys(a + b) == Keys(a) + Keys(b)
  {
  }

  /** A stretch in which every key is `k` counts its length. */
  lemma {:induction false} CountAll<V>(s: seq<(int, V)>, k: int)
    requires forall j :: 0 <= j < |s| ==> s[j].0 == k
    ensures CountOf(s, k) == |s|
    decreases |s|
  {
    if s != [] {
      assert s == [s[0]] + s[1..];
      CountSplit([s[0]], s[1..], k);
      CountAll(s[1..], k);
    }
  }

  /** A stretch without the key `k` counts zero. */
  lemma {:induction false} CountNone<V>(s: seq<(int, V)>, k: int)
    requires forall j :: 0 <= j < |s| ==> s[j].0 != k
    ensures CountOf(s, k) == 0
    decreases |s|
  {
    if s != [] {
      assert s == [s[0]] + s[1..];
      CountSplit([s[0]], s[1..], k);
      CountNone(s[1..], k);
    }
  }

  /** On an ordered sequence `lower_bound` never passes `upper_bound`, and
      between them lie exactly the positions holding `key`. */
  lemma BoundsBracketKey<V>(s: seq<(int, V)>, k: int)
    requires Sorted(s)
    ensures LowerBound(s, k) <= UpperBound(s, k)
    ensures forall j :: LowerBound(s, k) <= j < UpperBound(s, k) ==> s[j].0 == k
    ensures forall j :: 0 <= j < |s| && s[j].0 == k ==> LowerBound(s, k) <= j < UpperBound(s, k)
  {
    var lo, hi := LowerBound(s, k), UpperBound(s, k);
    forall j | lo <= j < hi
      ensures s[j].0 == k
    {
      assert k <= s[lo].0 <= s[j].0;
    }
    forall j | hi <= j < |s|
      ensures k < s[j].0
    {
      assert k < s[hi].0 <= s[j].0;
    }
  }

  /** The three stretches an ordered sequence falls into around `key`. */
  lemma SlicesAroundKey<V>(s: seq<(int, V)>, k: int)
    requires Sorted(s)
    ensures LowerBound(s, k) <= UpperBound(s, k)
    ensures CountOf(s[..LowerBound(s, k)], k) == 0
    ensures CountOf(s[LowerBound(s, k)..UpperBound(s, k)], k) == UpperBound(s, k) - LowerBound(s, k)
    ensures CountOf(s[UpperBound(s, k)..], k) == 0
  {
    BoundsBracketKey(s, k);
    var lo, hi := LowerBound(s, k), UpperBound(s, k);
    var a, b, c := s[..lo], s[lo..hi], s[hi..];
    assert forall j :: 0 <= j < |a| ==> a[j].0 != k by {
      forall j | 0 <= j < |a| ensures a[j].0 != k {
        assert a[j] == s[j];
      }
    }
    assert forall j :: 0 <= j < |b| ==> b[j].0 == k by {
      forall j | 0 <= j < |b| ensures b[j].0 == k {
        assert b[j] == s[lo + j];
      }
    }
    assert forall j :: 0 <= j < |c| ==> c[j].0 != k by {
      forall j | 0 <= j < |c| ensures c[j].0 != k {
        assert c[j] == s[hi + j];
      }
    }
    CountNone(a, k);
    CountAll(b, k);
    CountNone(c, k);
  }

  /** `equal_range(key)` (multiset lines 83-87) on an ordered sequence spans
      `count(key)` positions. */
  lemma EqualRange<V>(s: seq<(int, V)>, k: int)
    requires Sorted(s)
    ensures LowerBound(s, k) <= UpperBound(s, k)
    ensures UpperBound(s, k) - LowerBound(s, k) == Count(s, k)
  {
    SlicesAroundKey(s, k);
    var lo, hi := LowerBound(s, k), UpperBound(s, k);
    CountThree(s, lo, hi, k);
  }

  lemma CountThree<V>(s: seq<(int, V)>, lo: nat, hi: nat, k: int)
    requires lo <= hi <= |s|
    ensures CountOf(s, k) == CountOf(s[..lo], k) + CountOf(s[lo..hi], k) + CountOf(s[hi..], k)
  {
    var a, b, c := s[..lo], s[lo..hi], s[hi..];
    assert s == a + b + c;
    CountSplit(a + b, c, k);
    CountSplit(a, b, k);
  }

  /** In an ordered sequence the first occurrence of a key is its lower bound. */
  lemma FindIsLowerBound<V>(s: seq<(int, V)>, k: int)
    requires Sorted(s)
    ensures Find(s, k) == (if Contains(s, k) then LowerBound(s, k) else |s|)
  {
    ContainsIffFound(s, k);
    BoundsBracketKey(s, k);
  }

  // ----- the tree as a whole -----

  /** `empty()`: the root pointer is null. */
  function Empty<V>(t: Tree<V>): (r: bool)
    ensures r <==> Size(t) == 0
    ensures r <==> InOrder(t) == []
  {
    t.Leaf?
  }

  /** `clear()`: every node is freed and the root set to null, also on an empty tree. */
  function Clear<V>(t: Tree<V>): (r: Tree<V>)
    ensures Size(r) == 0 && Empty(r) && InOrder(r) == [] && Valid(r)
  {
    Leaf
  }

  /** `swap(other)` (line 428) exchanges the two roots; `set::swap` and
      `multiset::swap` forward to it. */
  function Swap<V>(a: Tree<V>, b: Tree<V>): (r: (Tree<V>, Tree<V>))
  {
    (b, a)
  }

  lemma SwapTwice<V>(a: Tree<V>, b: Tree<V>)
    ensures var r := Swap(a, b); Swap(r.0, r.1) == (a, b)
    ensures InOrder(Swap(a, b).0) == InOrder(b) && InOrder(Swap(a, b).1) == InOrder(a)
  {
  }

  /** `findMin` (lines 130-134): the non-const version reads the root
      without checking it, so an empty tree dereferences null. */
  function FindMin<V>(t: Tree<V>): (r: Outcome<Cursor<V>>)
    ensures r.Undefined? <==> t.Leaf?
    ensures r.Ok? ==> r.value.focus.Node? && Whole(r.value) == t && Index(r.value) == 0 && r.value.focus.left.Leaf?
  {
    if t.Leaf? then Undefined else Ok(Leftmost(Cursor(t, Top)))
  }

  /** `findMax` (lines 136-140). */
  function FindMax<V>(t: Tree<V>): (r: Outcome<Cursor<V>>)
    ensures r.Undefined? <==> t.Leaf?
    ensures r.Ok? ==> r.value.focus.Node? && Whole(r.value) == t && Index(r.value) + 1 == |InOrder(t)| && r.value.focus.right.Leaf?
  {
    if t.Leaf? then Undefined else Ok(Rightmost(Cursor(t, Top)))
  }

  /** In an ordered tree `findMin` and `findMax` reach the smallest and the largest key. */
  lemma MinMaxBound<V>(t: Tree<V>)
    requires Sorted(InOrder(t)) && t.Node?
    ensures forall j :: 0 <= j < |InOrder(t)| ==>
      FindMin(t).value.focus.key <= InOrder(t)[j].0 <= FindMax(t).value.focus.key
  {
    IndexLocates(FindMin(t).value);
    IndexLocates(FindMax(t).value);
  }

  /** Inserting the pairs of `xs` one after the other through the corrected
      `insert` (`RbInsert.Insert`), as `merge` and `insert_many` do.  The
      validity clause is that of the corrected repair; `insert` as written
      (`RbInsert.InsertAsWritten`) can leave a tree that is not red-black. */
  function InsertAll<V>(t: Tree<V>, xs: seq<(int, V)>): (r: Tree<V>)
    ensures multiset(InOrder(r)) == multiset(InOrder(t)) + multiset(xs)
    ensures Valid(t) ==> Valid(r)
    decreases |xs|
  {
    if xs == [] then t
    else
      var t' := Insert(t, xs[0].0, xs[0].1).0;
      InsertedSomewhereMultiset(InOrder(t), InOrder(t'), xs[0]);
      var r := InsertAll(t', xs[1..]);
      MultisetStep(multiset(InOrder(t)), multiset(InOrder(t')), multiset(InOrder(r)), xs);
      r
  }

  lemma InsertedSomewhereMultiset<V>(before: seq<(int, V)>, after: seq<(int, V)>, x: (int, V))
    requires InsertedSomewhere(before, after, x)
    ensures multiset(after) == multiset(before) + multiset{x}
  {
    var i :| 0 <= i <= |before| && after == before[..i] + [x] + before[i..];
    assert before == before[..i] + before[i..];
  }

  /** `merge(other)` (lines 430-435): every pair of `other` goes through the
      corrected `insert`, which never rejects a key, and `other` is cleared.
      `other` is taken in in-order order, the walk of the corrected iterator;
      the source's walk (`RbIterate.WalkAsWritten`) agrees with it when keys
      are distinct and may never reach `end()` otherwise. */
  function Merge<V>(t: Tree<V>, other: Tree<V>): (r: (Tree<V>, Tree<V>))
    ensures multiset(InOrder(r.0)) == multiset(InOrder(t)) + multiset(InOrder(other))
    ensures Valid(t) ==> Valid(r.0)
    ensures r.1 == Leaf
  {
    (InsertAll(t, InOrder(other)), Clear(other))
  }

  /** `insert_many(args...)` (lines 469-478): each argument `el` is inserted
      as the pair (el, el) through the corrected `insert`, and every result
      reports success. */
  function InsertMany(t: Tree<int>, xs: seq<int>): (r: (Tree<int>, seq<bool>))
    ensures multiset(InOrder(r.0)) == multiset(InOrder(t)) + multiset(Pairs(xs))
    ensures Valid(t) ==> Valid(r.0)
    ensures |r.1| == |xs| && forall i :: 0 <= i < |r.1| ==> r.1[i]
  {
    (InsertAll(t, Pairs(xs)), seq(|xs|, _ => true))
  }

  /** Each key paired with itself, as the set-like containers store them. */
  function Pairs(xs: seq<int>): (r: seq<(int, int)>)
    ensures |r| == |xs| && forall i :: 0 <= i < |xs| ==> r[i] == (xs[i], xs[i])
  {
    seq(|xs|, i requires 0 <= i < |xs| => (xs[i], xs[i]))
  }

  // ----- distinct keys -----

  /** The keys a sequence of pairs holds. */
  function KeySet<V>(s: seq<(int, V)>): set<int>
  {
    set i | 0 <= i < |s| :: s[i].0
  }

  lemma KeySetContains<V>(s: seq<(int, V)>, k: int)
    ensures k in KeySet(s) <==> Contains(s, k)
  {
    if Contains(s, k) {
      var j :| 0 <= j < |s| && s[j].0 == k;
      assert s[j].0 in KeySet(s);
    }
  }

  /** Splicing a pair into the sequence: the positions before `i` are
      unchanged and the ones after move one step up. */
  lemma SpliceIndices<V>(before: seq<(int, V)>, x: (int, V), i: nat)
    requires i <= |before|
    ensures var after := before[..i] + [x] + before[i..];
      |after| == |before| + 1 && after[i] == x &&
      (forall j :: 0 <= j < i ==> after[j] == before[j]) &&
      (forall j :: i <= j < |before| ==> after[j + 1] == before[j])
  {
  }

  /** After inserting a pair whose key was absent, `find` of that key lands
      on the new pair. */
  lemma FindNewKey<V>(before: seq<(int, V)>, after: seq<(int, V)>, x: (int, V))
    requires InsertedSomewhere(before, after, x) && !Contains(before, x.0)
    ensures Find(after, x.0) < |after| && after[Find(after, x.0)] == x
  {
    var i :| 0 <= i <= |before| && after == before[..i] + [x] + before[i..];
    SpliceIndices(before, x, i);
    assert after[i].0 == x.0;
    assert Find(after, x.0) == i;
  }

  /** A pair whose key is new, placed so that the order holds, keeps the keys distinct. */
  lemma StrictInsertion<V>(before: seq<(int, V)>, after: seq<(int, V)>, x: (int, V))
    requires StrictlySorted(before) && Sorted(after) && InsertedSomewhere(before, after, x)
    requires !Contains(before, x.0)
    ensures StrictlySorted(after)
    ensures KeySet(after) == KeySet(before) + {x.0}
  {
    var i :| 0 <= i <= |before| && after == before[..i] + [x] + before[i..];
    SpliceIndices(before, x, i);
    StrictInsertionOrder(before, after, x, i);
    StrictInsertionKeys(before, after, x, i);
  }

  lemma StrictInsertionOrder<V>(before: seq<(int, V)>, after: seq<(int, V)>, x: (int, V), i: nat)
    requires StrictlySorted(before) && Sorted(after) && !Contains(before, x.0)
    requires i <= |before| && |after| == |before| + 1 && after[i] == x
    requires forall j :: 0 <= j < i ==> after[j] == before[j]
    requires forall j :: i <= j < |before| ==> after[j + 1] == before[j]
    ensures StrictlySorted(after)
  {
    forall a, b | 0 <= a < b < |after|
      ensures after[a].0 < after[b].0
    {
      assert after[a].0 <= after[b].0;
      if a < i {
        assert after[a] == before[a];
      } else {
        assert after[a] == x || after[a] == before[a - 1];
      }
      if b < i {
        assert after[b] == before[b];
      } else if b > i {
        assert after[b] == before[b - 1];
      }
    }
  }

  lemma StrictInsertionKeys<V>(before: seq<(int, V)>, after: seq<(int, V)>, x: (int, V), i: nat)
    requires i <= |before| && |after| == |before| + 1 && after[i] == x
    requires forall j :: 0 <= j < i ==> after[j] == before[j]
    requires forall j :: i <= j < |before| ==> after[j + 1] == before[j]
    ensures KeySet(after) == KeySet(before) + {x.0}
  {
    forall k | k in KeySet(after)
      ensures k in KeySet(before) || k == x.0
    {
      var j :| 0 <= j < |after| && after[j].0 == k;
      if j < i {
        assert after[j] == before[j];
      } else if j > i {
        assert after[j] == before[j - 1];
      }
    }
    forall k | k in KeySet(before)
      ensures k in KeySet(after)
    {
      var j :| 0 <= j < |before| && before[j].0 == k;
      if j < i {
        assert after[j] == before[j];
      } else {
        assert after[j + 1] == before[j];
      }
    }
    assert after[i].0 in KeySet(after);
  }

  /** Taking out a position of a sequence with distinct keys keeps them
      distinct and loses exactly that key. */
  lemma StrictRemoval<V>(s: seq<(int, V)>, i: nat)
    requires StrictlySorted(s) && i < |s|
    ensures StrictlySorted(Remove(s, i))
    ensures KeySet(Remove(s, i)) == KeySet(s) - {s[i].0}
  {
    var r := Remove(s, i);
    forall a, b | 0 <= a < b < |r|
      ensures r[a].0 < r[b].0
    {
      var a' := if a < i then a else a + 1;
      var b' := if b < i then b else b + 1;
      assert r[a] == s[a'] && r[b] == s[b'];
    }
    forall k | k in KeySet(r)
      ensures k in KeySet(s) && k != s[i].0
    {
      var j :| 0 <= j < |r| && r[j].0 == k;
      var j' := if j < i then j else j + 1;
      assert r[j] == s[j'] && j' != i;
    }
    forall k | k in KeySet(s) && k != s[i].0
      ensures k in KeySet(r)
    {
      var j :| 0 <= j < |s| && s[j].0 == k;
      var j' := if j < i then j else j - 1;
      assert s[j] == r[j'];
    }
  }

  /** Only one position of a sequence with distinct keys holds a given key. */
  lemma StrictKeyHoldsOnly<V>(s: seq<(int, V)>, i: nat)
    requires StrictlySorted(s) && i < |s|
    ensures KeyHoldsOnly(s, s[i])
  {
    forall j | 0 <= j < |s| && s[j].0 == s[i].0
      ensures s[j] == s[i]
    {
      if j != i {
        assert false;
      }
    }
  }
}

=== FILE: rbpath.dfy ===
/** Node pointers with their parent links.  The source walks the tree through
    `parent`, `left` and `right` pointers; here a position is a `Cursor`: the
    subtree below the pointer together with the chain of ancestors above it.
    Moving to a parent or child rebuilds nothing, so `parent` is always
    consistent with the child slot it came from. */
module RbPath {
  import opened RbTree

  datatype Side = Left | Right

  /** The ancestors of a position, nearest first.  A step records which child
      slot the position below occupies, the ancestor's colour, key and value,
      and the subtree hanging in the ancestor's other slot. */
  datatype Path<V> = Top | Step(side: Side, color: Color, key: int, value: V, sibling: Tree<V>, up: Path<V>)

  /** A node pointer: the subtree it points to and the ancestors above it. */
  datatype Cursor<V> = Cursor(focus: Tree<V>, path: Path<V>)

  function Attach<V>(p: Path<V>, t: Tree<V>): Tree<V>
    requires p.Step?
  {
    if p.side == Left then Node(p.color, t, p.key, p.value, p.sibling)
    else Node(p.color, p.sibling, p.key, p.value, t)
  }

  /** The whole tree, rebuilt from a subtree and the ancestors above it. */
  function Plug<V>(t: Tree<V>, p: Path<V>): Tree<V>
    decreases p
  {
    if p.Top? then t else Plug(Attach(p, t), p.up)
  }

  function Whole<V>(c: Cursor<V>): Tree<V>
  {
    Plug(c.focus, c.path)
  }

  function Depth<V>(p: Path<V>): nat
  {
    if p.Top? then 0 else 1 + Depth(p.up)
  }

  /** The pairs an in-order walk visits before the subtree at this position. */
  function Before<V>(p: Path<V>): seq<(int, V)>
  {
    if p.Top? then []
    else if p.side == Left then Before(p.up)
    else Before(p.up) + InOrder(p.sibling) + [(p.key, p.value)]
  }

  /** The pairs an in-order walk visits after the subtree at this position. */
  function After<V>(p: Path<V>): seq<(int, V)>
  {
    if p.Top? then []
    else if p.side == Left then [(p.key, p.value)] + InOrder(p.sibling) + After(p.up)
    else After(p.up)
  }

  lemma {:induction false} InOrderPlug<V>(t: Tree<V>, p: Path<V>)
    ensures InOrder(Plug(t, p)) == Before(p) + InOrder(t) + After(p)
    decreases p
  {
    if p.Step? {
      InOrderPlug(Attach(p, t), p.up);
    }
  }

  /** Replacing the subtree at a position by one with the same in-order
      sequence leaves the in-order sequence of the whole tree unchanged. */
  lemma SameInOrderPlug<V>(t: Tree<V>, u: Tree<V>, p: Path<V>)
    requires InOrder(t) == InOrder(u)
    ensures InOrder(Plug(t, p)) == InOrder(Plug(u, p))
  {
    InOrderPlug(t, p);
    InOrderPlug(u, p);
  }

  /** The in-order index of the node a cursor points to. */
  function Index<V>(c: Cursor<V>): nat
    requires c.focus.Node?
  {
    |Before(c.path)| + |InOrder(c.focus.left)|
  }

  lemma IndexLocates<V>(c: Cursor<V>)
    requires c.focus.Node?
    ensures Index(c) < |InOrder(Whole(c))|
    ensures InOrder(Whole(c))[Index(c)] == (c.focus.key, c.focus.value)
  {
    InOrderPlug(c.focus, c.path);
  }

  // ----- moving along parent and child links -----

  /** `node->parent`. */
  function Up<V>(c: Cursor<V>): (r: Cursor<V>)
    requires c.path.Step?
    ensures Whole(r) == Whole(c)
    ensures Depth(c.path) == Depth(r.path) + 1
    ensures r.focus.Node?
  {
    Cursor(Attach(c.path, c.focus), c.path.up)
  }

  /** `node->left`; its parent link leads back to `node`. */
  function DownLeft<V>(c: Cursor<V>): (r: Cursor<V>)
    requires c.focus.Node?
    ensures Whole(r) == Whole(c)
    ensures Depth(r.path) == Depth(c.path) + 1
    ensures Up(r) == c
  {
    Cursor(c.focus.left, Step(Left, c.focus.color, c.focus.key, c.focus.value, c.focus.right, c.path))
  }

  /** `node->right`; its parent link leads back to `node`. */
  function DownRight<V>(c: Cursor<V>): (r: Cursor<V>)
    requires c.focus.Node?
    ensures Whole(r) == Whole(c)
    ensures Depth(r.path) == Depth(c.path) + 1
    ensures Up(r) == c
  {
    Cursor(c.focus.right, Step(Right, c.focus.color, c.focus.key, c.focus.value, c.focus.left, c.path))
  }

  /** `node->color = col`. */
  function Paint<V>(c: Cursor<V>, col: Color): (r: Cursor<V>)
    requires c.focus.Node?
    ensures InOrder(Whole(r)) == InOrder(Whole(c))
    ensures r.path == c.path && r.focus.Node? && r.focus.color == col
  {
    SameInOrderPlug(c.focus, c.focus.(color := col), c.path);
    Cursor(c.focus.(color := col), c.path)
  }

  /** `rotateLeft(node)`: the subtree is rotated in place, and the link from
      `node`'s parent (or the root pointer) now leads to the new subtree root. */
  function RotateLeftAt<V>(c: Cursor<V>): (r: Cursor<V>)
    requires c.focus.Node? && c.focus.right.Node?
    ensures InOrder(Whole(r)) == InOrder(Whole(c))
    ensures r.path == c.path && r.focus.Node? && r.focus.left.Node?
  {
    SameInOrderPlug(c.focus, RotateLeft(c.focus), c.path);
    Cursor(RotateLeft(c.focus), c.path)
  }

  /** `rotateRight(node)`. */
  function RotateRightAt<V>(c: Cursor<V>): (r: Cursor<V>)
    requires c.focus.Node? && c.focus.left.Node?
    ensures InOrder(Whole(r)) == InOrder(Whole(c))
    ensures r.path == c.path && r.focus.Node? && r.focus.right.Node?
  {
    SameInOrderPlug(c.focus, RotateRight(c.focus), c.path);
    Cursor(RotateRight(c.focus), c.path)
  }

  // ----- the colour invariants, split between a subtree and its ancestors -----

  /** The ancestors keep black height uniform for a subtree of black height `h`. */
  predicate PathBalanced<V>(p: Path<V>, h: nat)
    decreases p
  {
    p.Top? ||
    (Balanced(p.sibling) && BlackHeight(p.sibling) == h &&
     PathBalanced(p.up, h + (if p.color == Black then 1 else 0)))
  }

  /** The ancestors have no red-red edge, given whether the subtree below is red-rooted. */
  predicate PathRedOk<V>(p: Path<V>, below: bool)
    decreases p
  {
    p.Top? ||
    (RedOk(p.sibling) && (p.color == Red ==> !below && !IsRed(p.sibling)) &&
     PathRedOk(p.up, p.color == Red))
  }

  lemma {:induction false} BalancedPlug<V>(t: Tree<V>, p: Path<V>)
    ensures Balanced(Plug(t, p)) <==> Balanced(t) && PathBalanced(p, BlackHeight(t))
    decreases p
  {
    if p.Step? {
      BalancedPlug(Attach(p, t), p.up);
    }
  }

  lemma {:induction false} RedOkPlug<V>(t: Tree<V>, p: Path<V>)
    ensures RedOk(Plug(t, p)) <==> RedOk(t) && PathRedOk(p, IsRed(t))
    decreases p
  {
    if p.Step? {
      RedOkPlug(Attach(p, t), p.up);
    }
  }

  /** Whether a position is the root is the only thing the colour of the root depends on. */
  lemma {:induction false} PlugRootColor<V>(t: Tree<V>, p: Path<V>)
    requires p.Step? || t.Node?
    ensures Plug(t, p).Node?
    ensures p.Top? ==> Plug(t, p).color == t.color
    decreases p
  {
    if p.Step? {
      PlugRootColor(Attach(p, t), p.up);
    }
  }

  // ----- order facts -----

  predicate AllAtMost<V>(s: seq<(int, V)>, k: int)
  {
    forall i :: 0 <= i < |s| ==> s[i].0 <= k
  }

  predicate AllAtLeast<V>(s: seq<(int, V)>, k: int)
  {
    forall i :: 0 <= i < |s| ==> k <= s[i].0
  }

  /** A pair squeezed between the pairs at most and at least its key keeps the order. */
  lemma SortedInsertion<V>(a: seq<(int, V)>, x: (int, V), b: seq<(int, V)>)
    requires Sorted(a + b) && AllAtMost(a, x.0) && AllAtLeast(b, x.0)
    ensures Sorted(a + [x] + b)
  {
    var s := a + [x] + b;
    forall i, j | 0 <= i < j < |s|
      ensures s[i].0 <= s[j].0
    {
      if j < |a| {
        assert s[i] == (a + b)[i] && s[j] == (a + b)[j];
      } else if i > |a| {
        assert s[i] == (a + b)[i - 1] && s[j] == (a + b)[j - 1];
      } else if i < |a| && j > |a| {
        assert s[i] == a[i] && s[j] == b[j - |a| - 1];
      }
    }
  }

  /** In a sorted sequence `a + [x] + b`, nothing in `a` exceeds `x` and nothing in `b` is below it. */
  lemma SortedAroundPivot<V>(a: seq<(int, V)>, x: (int, V), b: seq<(int, V)>)
    requires Sorted(a + [x] + b)
    ensures AllAtMost(a, x.0) && AllAtLeast(b, x.0)
    ensures Sorted(a) && Sorted(b) && Sorted(a + b)
  {
    var s := a + [x] + b;
    assert s[|a|] == x;
    forall i | 0 <= i < |a|
      ensures a[i].0 <= x.0
    {
      assert s[i] == a[i];
    }
    forall i | 0 <= i < |b|
      ensures x.0 <= b[i].0
    {
      assert s[|a| + 1 + i] == b[i];
    }
    forall i, j | 0 <= i < j < |a|
      ensures a[i].0 <= a[j].0
    {
      assert s[i] == a[i] && s[j] == a[j];
    }
    forall i, j | 0 <= i < j < |b|
      ensures b[i].0 <= b[j].0
    {
      assert s[|a| + 1 + i] == b[i] && s[|a| + 1 + j] == b[j];
    }
    var ab := a + b;
    forall i, j | 0 <= i < j < |ab|
      ensures ab[i].0 <= ab[j].0
    {
      var i' := if i < |a| then i else i + 1;
      var j' := if j < |a| then j else j + 1;
      assert ab[i] == s[i'] && ab[j] == s[j'];
    }
  }
}

=== FILE: rbtree.dfy ===
/** The node structure of `s21::rbtree<Key, T>`: a binary tree whose nodes carry a
    colour, a key and a value.  Parent links are not stored: the model keeps the
    tree as an immutable value and recovers parents with cursors (see `RbPath`).
    Keys are integers; the values are an arbitrary payload. */
module RbTree {

  datatype Color = Red | Black

  datatype Tree<V> = Leaf | Node(color: Color, left: Tree<V>, key: int, value: V, right: Tree<V>)

  /** The (key, value) pairs in the order an in-order walk visits them, which is
      the order `begin()` .. `end()` is meant to produce. */
  function InOrder<V>(t: Tree<V>): seq<(int, V)>
  {
    match t
    case Leaf => []
    case Node(_, l, k, v, r) => InOrder(l) + [(k, v)] + InOrder(r)
  }

  /** `helper_in_order`: the number of nodes, counted by a full traversal. */
  function Size<V>(t: Tree<V>): nat
  {
    match t
    case Leaf => 0
    case Node(_, l, _, _, r) => 1 + Size(l) + Size(r)
  }

  function Keys<V>(s: seq<(int, V)>): seq<int>
    ensures |Keys(s)| == |s|
    ensures forall i :: 0 <= i < |s| ==> Keys(s)[i] == s[i].0
  {
    if s == [] then [] else [s[0].0] + Keys(s[1..])
  }

  /** Binary-search-tree order, relaxed to admit equal keys: the in-order keys never decrease. */
  predicate Sorted<V>(s: seq<(int, V)>)
  {
    forall i, j :: 0 <= i < j < |s| ==> s[i].0 <= s[j].0
  }

  /** The order of a tree whose keys are pairwise distinct. */
  predicate StrictlySorted<V>(s: seq<(int, V)>)
  {
    forall i, j :: 0 <= i < j < |s| ==> s[i].0 < s[j].0
  }

  predicate IsRed<V>(t: Tree<V>)
  {
    t.Node? && t.color == Red
  }

  function Blacken<V>(t: Tree<V>): Tree<V>
  {
    if t.Node? then t.(color := Black) else t
  }

  /** No red node has a red child. */
  predicate RedOk<V>(t: Tree<V>)
  {
    match t
    case Leaf => true
    case Node(c, l, _, _, r) => RedOk(l) && RedOk(r) && (c == Red ==> !IsRed(l) && !IsRed(r))
  }

  /** Black nodes on the leftmost path; the black height when the tree is `Balanced`. */
  function BlackHeight<V>(t: Tree<V>): nat
  {
    match t
    case Leaf => 0
    case Node(c, l, _, _, _) => BlackHeight(l) + (if c == Black then 1 else 0)
  }

  /** Every path from a node down to a missing child meets the same number of black nodes. */
  predicate Balanced<V>(t: Tree<V>)
  {
    match t
    case Leaf => true
    case Node(_, l, _, _, r) => Balanced(l) && Balanced(r) && BlackHeight(l) == BlackHeight(r)
  }

  /** The colour invariants the tree promises after every public operation:
      a black (or absent) root, no red-red edge, uniform black height. */
  predicate IsRedBlack<V>(t: Tree<V>)
  {
    !IsRed(t) && RedOk(t) && Balanced(t)
  }

  /** The colour invariants together with the search-tree order. */
  predicate Valid<V>(t: Tree<V>)
  {
    IsRedBlack(t) && Sorted(InOrder(t))
  }

  lemma {:induction false} SizeIsLength<V>(t: Tree<V>)
    ensures Size(t) == |InOrder(t)|
  {
    match t
    case Leaf =>
    case Node(_, l, _, _, r) =>
      SizeIsLength(l);
      SizeIsLength(r);
  }

  lemma BlackenKeepsColorInvariants<V>(t: Tree<V>)
    requires RedOk(t) || (t.Node? && RedOk(t.left) && RedOk(t.right))
    requires Balanced(t)
    ensures IsRedBlack(Blacken(t))
    ensures InOrder(Blacken(t)) == InOrder(t)
  {
  }

  /** `rotateLeft` (lines 280-295): the right child becomes the root of the
      subtree and the old root its left child; every node keeps its colour. */
  function RotateLeft<V>(t: Tree<V>): (r: Tree<V>)
    requires t.Node? && t.right.Node?
    ensures InOrder(r) == InOrder(t)
    ensures Size(r) == Size(t)
    ensures r.Node? && r.left.Node?
  {
    var Node(c, a, k, v, Node(c2, b, k2, v2, d)) := t;
    Node(c2, Node(c, a, k, v, b), k2, v2, d)
  }

  /** `rotateRight` (lines 296-311), the mirror image of `RotateLeft`. */
  function RotateRight<V>(t: Tree<V>): (r: Tree<V>)
    requires t.Node? && t.left.Node?
    ensures InOrder(r) == InOrder(t)
    ensures Size(r) == Size(t)
    ensures r.Node? && r.right.Node?
  {
    var Node(c, Node(c2, a, k2, v2, b), k, v, d) := t;
    Node(c2, a, k2, v2, Node(c, b, k, v, d))
  }

  /** The two rotations undo each other, so a rotation loses no node and no link. */
  lemma RotationsAreInverse<V>(t: Tree<V>)
    requires t.Node? && t.right.Node?
    ensures RotateRight(RotateLeft(t)) == t
  {
  }

  lemma SortedSlices<V>(s: seq<(int, V)>, i: int, j: int)
    requires Sorted(s) && 0 <= i <= j <= |s|
    ensures Sorted(s[i..j])
  {
  }

  /** The multiset of a sequence is its head's plus its tail's. */
  lemma MultisetCons<T>(xs: seq<T>)
    requires xs != []
    ensures multiset(xs) == multiset{xs[0]} + multiset(xs[1..])
  {
    assert xs == [xs[0]] + xs[1..];
  }

  /** Adding the head and then the tail adds the whole sequence. */
  lemma MultisetStep<T>(a: multiset<T>, b: multiset<T>, c: multiset<T>, xs: seq<T>)
    requires xs != [] && b == a + multiset{xs[0]} && c == b + multiset(xs[1..])
    ensures c == a + multiset(xs)
  {
    MultisetCons(xs);
  }
}

=== FILE: sets.dfy ===
/** `set<Key>`: a red-black tree whose nodes hold the pair (key, key).
    `insert` consults `contains` first, so the keys stay distinct; everything
    else is inherited from the tree.  An iterator is an in-order position,
    the number of elements standing for `end()`. */
module Sets {
  import opened Outcomes
  import opened RbTree
  import opened RbPath
  import opened RbInsert
  import opened RbErase
  import opened RbIterate
  import opened RbOps

  /** Every node holds its key as its value too. */
  predicate Paired(s: seq<(int, int)>)
  {
    forall i :: 0 <= i < |s| ==> s[i].1 == s[i].0
  }

  /** What a set keeps true between calls: a valid tree of distinct keys,
      each paired with itself. */
  predicate SetInv(t: Tree<int>)
  {
    Valid(t) && StrictlySorted(InOrder(t)) && Paired(InOrder(t))
  }

  /** The keys of a sequence. */
  function Elements(xs: seq<int>): set<int>
  {
    set i | 0 <= i < |xs| :: xs[i]
  }

  /** Pairing keys with themselves keeps exactly the same keys. */
  lemma PairsKeySet(xs: seq<int>)
    ensures KeySet(Pairs(xs)) == Elements(xs)
  {
    var p := Pairs(xs);
    forall k | k in KeySet(p) ensures k in Elements(xs)
    {
      var i :| 0 <= i < |p| && p[i].0 == k;
      assert xs[i] == k;
    }
    forall k | k in Elements(xs) ensures k in KeySet(p)
    {
      var i :| 0 <= i < |xs| && xs[i] == k;
      assert p[i].0 == k;
    }
  }

  lemma ElementsCons(xs: seq<int>)
    requires xs != []
    ensures Elements(xs) == {xs[0]} + Elements(xs[1..])
  {
    forall k | k in Elements(xs) ensures k == xs[0] || k in Elements(xs[1..])
    {
      var i :| 0 <= i < |xs| && xs[i] == k;
      if i > 0 {
        assert xs[1..][i - 1] == k;
      }
    }
    forall k | k in Elements(xs[1..]) ensures k in Elements(xs)
    {
      var i :| 0 <= i < |xs[1..]| && xs[1..][i] == k;
      assert xs[i + 1] == k;
    }
    assert xs[0] in Elements(xs);
  }

  /** Splicing in a pair (k, k) keeps every pair paired. */
  lemma PairedInsertion(before: seq<(int, int)>, after: seq<(int, int)>, k: int)
    requires Paired(before) && InsertedSomewhere(before, after, (k, k))
    ensures Paired(after)
  {
    var i :| 0 <= i <= |before| && after == before[..i] + [(k, k)] + before[i..];
    SpliceIndices(before, (k, k), i);
  }

  /** Taking a pair out keeps every other pair paired. */
  lemma PairedRemoval(s: seq<(int, int)>, i: nat)
    requires Paired(s) && i < |s|
    ensures Paired(Remove(s, i))
  {
    var r := Remove(s, i);
    forall j | 0 <= j < |r| ensures r[j].1 == r[j].0
    {
      assert r[j] == s[if j < i then j else j + 1];
    }
  }

  /** The tree insert of a key the set lacks, seen from the set. */
  lemma InsertNewKey(t: Tree<int>, k: int)
    requires !Contains(InOrder(t), k)
    ensures Contains(InOrder(Insert(t, k, k).0), k)
    ensures SetInv(t) ==> (SetInv(Insert(t, k, k).0) &&
      KeySet(InOrder(Insert(t, k, k).0)) == KeySet(InOrder(t)) + {k})
  {
    var t' := Insert(t, k, k).0;
    InsertionContains(InOrder(t), InOrder(t'), (k, k));
    if SetInv(t) {
      StrictInsertion(InOrder(t), InOrder(t'), (k, k));
      PairedInsertion(InOrder(t), InOrder(t'), k);
    }
  }

  lemma InsertionContains(before: seq<(int, int)>, after: seq<(int, int)>, x: (int, int))
    requires InsertedSomewhere(before, after, x)
    ensures Contains(after, x.0)
  {
    var i :| 0 <= i <= |before| && after == before[..i] + [x] + before[i..];
    assert after[i] == x;
  }

  /** `insert(value)` (set.h lines 61-67): a key already present gives
      `{end(), false}` and changes nothing; otherwise the pair is added and
      the iterator points at it. */
  function SetInsert(t: Tree<int>, k: int): (r: (Tree<int>, nat, bool))
    ensures r.2 <==> k !in KeySet(InOrder(t))
    ensures !r.2 ==> r.0 == t && r.1 == |InOrder(t)|
    ensures r.2 ==> r.1 < |InOrder(r.0)| && InOrder(r.0)[r.1] == (k, k)
    ensures SetInv(t) ==> SetInv(r.0) && KeySet(InOrder(r.0)) == KeySet(InOrder(t)) + {k}
  {
    var s := InOrder(t);
    KeySetContains(s, k);
    if Contains(s, k) then (t, |s|, false)
    else
      var t' := Insert(t, k, k).0;
      InsertNewKey(t, k);
      FindNewKey(s, InOrder(t'), (k, k));
      (t', Find(InOrder(t'), k), true)
  }

  /** Inserting the keys of `xs` one after the other through the set's own
      `insert`, as the constructors and assignments do. */
  function SetInsertAll(t: Tree<int>, xs: seq<int>): (r: Tree<int>)
    ensures SetInv(t) ==> SetInv(r) && KeySet(InOrder(r)) == KeySet(InOrder(t)) + Elements(xs)
    decreases |xs|
  {
    if xs == [] then t
    else
      ElementsCons(xs);
      SetInsertAll(SetInsert(t, xs[0]).0, xs[1..])
  }

  /** `set(std::initializer_list)` (lines 31-35): the set of the listed keys,
      each once. */
  function SetOf(xs: seq<int>): (r: Tree<int>)
    ensures SetInv(r) && KeySet(InOrder(r)) == Elements(xs)
  {
    SetInsertAll(Leaf, xs)
  }

  /** The keys of a set in iteration order. */
  function SetKeys(t: Tree<int>): (r: seq<int>)
    ensures |r| == |InOrder(t)| && forall i :: 0 <= i < |r| ==> r[i] == InOrder(t)[i].0
    ensures Elements(r) == KeySet(InOrder(t))
  {
    var r := Keys(InOrder(t));
    assert forall k :: k in Elements(r) <==> k in KeySet(InOrder(t)) by {
      forall k ensures k in Elements(r) <==> k in KeySet(InOrder(t)) {
        if k in KeySet(InOrder(t)) {
          var i :| 0 <= i < |InOrder(t)| && InOrder(t)[i].0 == k;
          assert r[i] == k;
        }
      }
    }
    r
  }

  /** The copy constructor (lines 36-40) inserts every key of `s`; on a set
      the copy has the same keys, and so the same in-order sequence. */
  function SetCopy(s: Tree<int>): (r: Tree<int>)
    ensures SetInv(r)
    ensures SetInv(s) ==> KeySet(InOrder(r)) == KeySet(InOrder(s))
  {
    SetOf(SetKeys(s))
  }

  /** Copy assignment as written (lines 52-58): the keys of `s` are inserted
      into the target without clearing it first. Only the missing `clear` is
      as written; the keys go in through the corrected insert, so the `SetInv`
      clause does not cover the tree's `insert` as written. */
  function SetAssignAsWritten(t: Tree<int>, s: Tree<int>): (r: Tree<int>)
    ensures SetInv(t) ==> SetInv(r) && KeySet(InOrder(r)) == KeySet(InOrder(t)) + KeySet(InOrder(s))
  {
    SetInsertAll(t, SetKeys(s))
  }

  /** Copy assignment as intended: the target becomes a copy of `s`. */
  function SetAssign(t: Tree<int>, s: Tree<int>): (r: Tree<int>)
    ensures SetInv(r) && KeySet(InOrder(r)) == KeySet(InOrder(s))
  {
    SetInsertAll(Clear(t), SetKeys(s))
  }

  /** Move assignment as written (lines 43-51): as the copy assignment, then
      `s` is cleared. Only the missing `clear` of the target is as written;
      the insert underneath is the corrected one. */
  function SetMoveAssignAsWritten(t: Tree<int>, s: Tree<int>): (r: (Tree<int>, Tree<int>))
    ensures SetInv(t) ==> SetInv(r.0) && KeySet(InOrder(r.0)) == KeySet(InOrder(t)) + KeySet(InOrder(s))
    ensures r.1 == Leaf
  {
    (SetAssignAsWritten(t, s), Clear(s))
  }

  function SetMoveAssign(t: Tree<int>, s: Tree<int>): (r: (Tree<int>, Tree<int>))
    ensures SetInv(r.0) && KeySet(InOrder(r.0)) == KeySet(InOrder(s))
    ensures r.1 == Leaf
  {
    (SetAssign(t, s), Clear(s))
  }

  function One(k: int): Tree<int>
  {
    Node(Black, Leaf, k, k, Leaf)
  }

  lemma OneHoldsItsKey(k: int)
    ensures InOrder(One(k)) == [(k, k)] && SetInv(One(k))
    ensures KeySet(InOrder(One(k))) == {k}
  {
    var s := InOrder(One(k));
    assert InOrder(One(k).left) == [] && InOrder(One(k).right) == [];
    assert s == [(k, k)];
    assert IsRedBlack(One(k));
    assert StrictlySorted(s) && Sorted(s) && Paired(s);
    forall j | j in KeySet(s) ensures j == k
    {
      var i :| 0 <= i < |s| && s[i].0 == j;
    }
    assert s[0].0 in KeySet(s);
  }

  /** Assigning {2} to {1} as written leaves {1, 2}. */
  lemma AssignAsWrittenKeepsOldKeys()
    ensures SetInv(One(1)) && SetInv(One(2))
    ensures KeySet(InOrder(SetAssignAsWritten(One(1), One(2)))) == {1, 2}
    ensures KeySet(InOrder(SetAssign(One(1), One(2)))) == {2}
  {
    OneHoldsItsKey(1);
    OneHoldsItsKey(2);
  }

  /** `erase(pos)` (lines 69-73): `end()` does nothing; otherwise the node is
      looked up by its pair and removed from the tree. */
  function SetErase(t: Tree<int>, pos: nat): (r: Outcome<Tree<int>>)
    requires pos <= |InOrder(t)|
    ensures pos == |InOrder(t)| ==> r == Ok(t)
    ensures SetInv(t) ==> r.Ok? && SetInv(r.value)
    ensures SetInv(t) && pos < |InOrder(t)| ==>
      KeySet(InOrder(r.value)) == KeySet(InOrder(t)) - {InOrder(t)[pos].0}
  {
    var s := InOrder(t);
    if SetInv(t) && pos < |s| then
      StrictKeyHoldsOnly(s, pos);
      EraseKeepsValid(t, pos);
      StrictRemoval(s, pos);
      PairedRemoval(s, pos);
      Erase(t, pos)
    else Erase(t, pos)
  }

  /** `find(key)` (lines 95-100): the position of the key, or `end()`. */
  function SetFind(t: Tree<int>, k: int): (r: nat)
    ensures r <= |InOrder(t)|
    ensures r == |InOrder(t)| <==> k !in KeySet(InOrder(t))
    ensures SetInv(t) && r < |InOrder(t)| ==> InOrder(t)[r] == (k, k)
  {
    KeySetContains(InOrder(t), k);
    ContainsIffFound(InOrder(t), k);
    Find(InOrder(t), k)
  }

  /** `merge(other)` as written (line 77) calls the tree's `merge`, which
      inserts through the tree's `insert` and so bypasses the key check. */
  function SetMergeAsWritten(t: Tree<int>, other: Tree<int>): (r: (Tree<int>, Tree<int>))
    ensures multiset(InOrder(r.0)) == multiset(InOrder(t)) + multiset(InOrder(other))
    ensures r.1 == Leaf
  {
    Merge(t, other)
  }

  /** `merge` as intended: every key of `other` goes through the set's own
      `insert`, so the keys stay distinct; `other` is cleared as in the source. */
  function SetMerge(t: Tree<int>, other: Tree<int>): (r: (Tree<int>, Tree<int>))
    ensures SetInv(t) ==> SetInv(r.0) && KeySet(InOrder(r.0)) == KeySet(InOrder(t)) + KeySet(InOrder(other))
    ensures r.1 == Leaf
  {
    (SetInsertAll(t, SetKeys(other)), Clear(other))
  }

  /** Merging {1} into {1} as written stores the key 1 twice. */
  lemma MergeAsWrittenDuplicates()
    ensures SetInv(One(1))
    ensures !SetInv(SetMergeAsWritten(One(1), One(1)).0)
    ensures SetInv(SetMerge(One(1), One(1)).0)
  {
    OneHoldsItsKey(1);
    var s := InOrder(SetMergeAsWritten(One(1), One(1)).0);
    TwiceNotStrict(s, (1, 1));
  }

  lemma TwiceNotStrict(s: seq<(int, int)>, x: (int, int))
    requires multiset(s) == multiset{x} + multiset{x}
    ensures !StrictlySorted(s)
  {
    assert |s| == |multiset(s)| == 2;
    assert s[0] in multiset(s) && s[1] in multiset(s);
  }

  /** Iterating a set from `begin()` with `operator++` as written visits the
      keys in ascending order and reaches `end()` after the last one. */
  lemma SetIterationAscends(t: Tree<int>, n: nat)
    requires SetInv(t) && n <= |InOrder(t)|
    ensures n < |InOrder(t)| ==> var it := WalkAsWritten(Begin(t), n);
      it.Some? && Index(it.value) == n && it.value.focus.key == SetKeys(t)[n]
    ensures n == |InOrder(t)| ==> WalkAsWritten(Begin(t), n).None?
  {
    WalkAgrees(Begin(t), n);
    WalkVisitsInOrder(t, n);
    if n < |InOrder(t)| {
      IndexLocates(Walk(Begin(t), n).value);
    }
  }
}

=== FILE: sizet.dfy ===
/** The unsigned 64-bit `size_type` the containers count with. */
module SizeT {

  /** The largest `size_t`. */
  const SizeMax: nat := 0xFFFF_FFFF_FFFF_FFFF

  /** `size_--`: zero wraps around to the largest value. */
  function Dec(n: nat): (r: nat)
    ensures n > 0 ==> r + 1 == n
    ensures n == 0 ==> r == SizeMax
  {
    if n == 0 then SizeMax else n - 1
  }
}

=== FILE: stacks.dfy ===
/** `stack<T>`: a singly linked chain from `top_` and the count `size_`.
    `items` lists the nodes from the top down. */
module Stacks {
  import opened Outcomes
  import opened SizeT

  datatype Stack<T> = Stack(items: seq<T>, size: nat)

  predicate StackInv<T>(s: Stack<T>)
  {
    s.size == |s.items|
  }

  function NewStack<T>(): (r: Stack<T>)
    ensures StackInv(r) && r.items == []
  {
    Stack([], 0)
  }

  /** `top()` (lines 82-85): a null `top_` throws. */
  function Top<T>(s: Stack<T>): (r: Outcome<T>)
    ensures r.OutOfRange? <==> s.items == []
    ensures r.Ok? ==> r.value == s.items[0]
    ensures !r.Undefined?
  {
    if s.items == [] then OutOfRange else Ok(s.items[0])
  }

  /** `push(value)` (lines 90-100): a new top node. */
  function Push<T>(s: Stack<T>, v: T): (r: Stack<T>)
    ensures Top(r) == Ok(v) && r.items[1..] == s.items && r.size == s.size + 1
    ensures StackInv(s) ==> StackInv(r)
  {
    Stack([v] + s.items, s.size + 1)
  }

  /** `pop()` (lines 101-107): a null `top_` throws; otherwise the top node
      goes and the count drops. */
  function Pop<T>(s: Stack<T>): (r: Outcome<Stack<T>>)
    ensures r.OutOfRange? <==> s.items == []
    ensures !r.Undefined?
    ensures r.Ok? ==> r.value.items == s.items[1..] && r.value.size == Dec(s.size)
    ensures StackInv(s) && r.Ok? ==> StackInv(r.value)
  {
    if s.items == [] then OutOfRange
    else Ok(Stack(s.items[1..], Dec(s.size)))
  }

  /** Last in, first out: popping after a push gives the stack back. */
  lemma PushPopInverse<T>(s: Stack<T>, v: T)
    requires StackInv(s)
    ensures Pop(Push(s, v)) == Ok(s)
  {
  }

  /** `push` of each value in turn: the initializer-list constructor
      (lines 18-23) and `insert_many_back(args...)` (lines 113-119). */
  function PushAll<T>(s: Stack<T>, xs: seq<T>): (r: Stack<T>)
    ensures |r.items| == |s.items| + |xs| && r.size == s.size + |xs|
    ensures forall i :: 0 <= i < |xs| ==> r.items[i] == xs[|xs| - 1 - i]
    ensures r.items[|xs|..] == s.items
    ensures xs != [] ==> Top(r) == Ok(xs[|xs| - 1])
    decreases |xs|
  {
    if xs == [] then s
    else
      var r := PushAll(Push(s, xs[0]), xs[1..]);
      assert r.items[|xs| - 1] == xs[0] by {
        assert r.items[|xs| - 1..] == Push(s, xs[0]).items;
      }
      r
  }

  function StackOf<T>(xs: seq<T>): (r: Stack<T>)
    ensures StackInv(r) && |r.items| == |xs|
    ensures xs != [] ==> Top(r) == Ok(xs[|xs| - 1])
    ensures forall i :: 0 <= i < |xs| ==> r.items[i] == xs[|xs| - 1 - i]
  {
    PushAll(NewStack(), xs)
  }

  /** The copy constructor (lines 24-35): the nodes of `s` are pushed onto a
      scratch stack, which reverses them, and then `s.size_` times the
      scratch stack's top is pushed and popped.  A count above the number of
      nodes runs the scratch stack dry and `top()` throws. */
  method Copy<T>(s: Stack<T>) returns (r: Outcome<Stack<T>>)
    ensures r.OutOfRange? <==> s.size > |s.items|
    ensures r.Ok? ==> StackInv(r.value) && r.value.items == s.items[|s.items| - s.size..]
    ensures StackInv(s) ==> r == Ok(s)
  {
    var n := |s.items|;
    var temp := NewStack<T>();
    var i := 0;
    while i < n
      invariant 0 <= i <= n && StackInv(temp) && |temp.items| == i
      invariant forall j :: 0 <= j < i ==> temp.items[j] == s.items[i - 1 - j]
    {
      temp := Push(temp, s.items[i]);
      i := i + 1;
    }
    var out := NewStack<T>();
    var k := 0;
    while k < s.size
      invariant 0 <= k <= s.size && k <= n
      invariant StackInv(temp) && |temp.items| == n - k
      invariant forall j :: 0 <= j < n - k ==> temp.items[j] == s.items[n - 1 - k - j]
      invariant StackInv(out) && out.items == s.items[n - k..]
    {
      var t := Top(temp);
      if t.OutOfRange? {
        return OutOfRange;
      }
      assert t.value == s.items[n - 1 - k];
      out := Push(out, t.value);
      assert out.items == s.items[n - (k + 1)..];
      temp := Pop(temp).value;
      k := k + 1;
    }
    r := Ok(out);
  }

  /** `operator==` (lines 63-80): unequal counts answer false; otherwise
      copies of both are compared top by top. */
  method Equal<T(==)>(a: Stack<T>, b: Stack<T>) returns (r: Outcome<bool>)
    ensures a.size != b.size ==> r == Ok(false)
    ensures StackInv(a) && StackInv(b) ==> r == Ok(a.items == b.items)
  {
    if a.size != b.size {
      return Ok(false);
    }
    var c1 := Copy(a);
    var c2 := Copy(b);
    if !c1.Ok? || !c2.Ok? {
      return OutOfRange;
    }
    var t1 := c1.value;
    var t2 := c2.value;
    var i := 0;
    while i < a.size
      invariant 0 <= i <= a.size
      invariant StackInv(a) && StackInv(b) ==>
        t1.items == a.items[i..] && t2.items == b.items[i..] && a.items[..i] == b.items[..i]
    {
      var x := Top(t1);
      var y := Top(t2);
      if !x.Ok? || !y.Ok? {
        return OutOfRange;
      }
      if x.value != y.value {
        if StackInv(a) && StackInv(b) {
          assert a.items[i] != b.items[i];
        }
        return Ok(false);
      }
      if StackInv(a) && StackInv(b) {
        assert a.items[..i + 1] == a.items[..i] + [a.items[i]];
        assert b.items[..i + 1] == b.items[..i] + [b.items[i]];
      }
      t1 := Pop(t1).value;
      t2 := Pop(t2).value;
      i := i + 1;
    }
    if StackInv(a) && StackInv(b) {
      assert a.items == a.items[..i] && b.items == b.items[..i];
    }
    r := Ok(true);
  }

  /** The move constructor (lines 36-39) and move assignment (lines 48-62):
      the target takes the source's chain and count, the source is left
      empty. */
  function Move<T>(src: Stack<T>): (r: (Stack<T>, Stack<T>))
    ensures r.0 == src && r.1.items == [] && StackInv(r.1)
  {
    (src, NewStack())
  }

  /** `swap(other)` (lines 108-111) exchanges chains and counts. */
  function Swap<T>(a: Stack<T>, b: Stack<T>): (r: (Stack<T>, Stack<T>))
  {
    (b, a)
  }

  lemma SwapTwice<T>(a: Stack<T>, b: Stack<T>)
    ensures var r := Swap(a, b); Swap(r.0, r.1) == (a, b)
    ensures Top(Swap(a, b).0) == Top(b) && Top(Swap(a, b).1) == Top(a)
  {
  }
}

=== FILE: vectors.dfy ===
/** `vector<T>`: a heap buffer `data_`, the count `size_` of elements at its
    front and the recorded `capacity_`.  The buffer is modelled by what it
    is: no buffer, a live allocation of some length, or an allocation that
    was deleted and is still pointed to.  Reading or writing outside the live
    slots, and deleting a buffer twice, is undefined behaviour. */
module Vectors {
  import opened Outcomes
  import RbErase

  datatype Buffer = Null | Live(len: nat) | Freed

  /** `elems` are the first `size_` slots of `data`. */
  datatype Vec<T> = Vec(elems: seq<T>, capacity: nat, data: Buffer)

  /** Number of slots that may be read and written. */
  function Slots(b: Buffer): (r: nat)
    ensures r > 0 ==> b.Live?
  {
    if b.Live? then b.len else 0
  }

  /** The elements lie inside the buffer. */
  predicate Wf<T>(v: Vec<T>)
  {
    |v.elems| <= Slots(v.data)
  }

  /** What the class is meant to keep: `capacity_` is the length of the
      live buffer, and the elements fit in it. */
  predicate VecInv<T>(v: Vec<T>)
  {
    !v.data.Freed? && |v.elems| <= v.capacity && v.capacity == Slots(v.data)
  }

  lemma VecInvWf<T>(v: Vec<T>)
    requires VecInv(v)
    ensures Wf(v)
  {
  }

  /** The default constructor (line 73). */
  function VecNew<T>(): (r: Vec<T>)
    ensures VecInv(r) && r.elems == [] && r.capacity == 0
  {
    Vec([], 0, Null)
  }

  /** `vector(n)` (line 74): room for `n`, no elements. */
  function VecWithCapacity<T>(n: nat): (r: Vec<T>)
    ensures VecInv(r) && r.elems == [] && r.capacity == n
  {
    Vec([], n, Live(n))
  }

  /** The initializer-list constructor (lines 75-79). */
  function VecOf<T>(xs: seq<T>): (r: Vec<T>)
    ensures VecInv(r) && r.elems == xs && r.capacity == |xs|
  {
    Vec(xs, |xs|, Live(|xs|))
  }

  /** `at(pos)` (lines 117-122). */
  function At<T>(v: Vec<T>, pos: nat): (r: Outcome<T>)
    ensures r.OutOfRange? <==> pos >= |v.elems|
    ensures Wf(v) ==> !r.Undefined?
    ensures r.Ok? ==> r.value == v.elems[pos]
  {
    if pos >= |v.elems| then OutOfRange
    else if pos >= Slots(v.data) then Undefined
    else Ok(v.elems[pos])
  }

  /** `front()` and `back()` (lines 124-125) read slot 0 and slot
      `size_ - 1` unchecked; on an empty vector neither is an element. */
  function Front<T>(v: Vec<T>): (r: Outcome<T>)
    ensures r.Ok? <==> v.elems != [] && Slots(v.data) > 0
    ensures r.Ok? ==> r.value == v.elems[0]
  {
    if v.elems == [] || Slots(v.data) == 0 then Undefined else Ok(v.elems[0])
  }

  function Back<T>(v: Vec<T>): (r: Outcome<T>)
    ensures Wf(v) ==> (r.Ok? <==> v.elems != [])
    ensures r.Ok? ==> r.value == v.elems[|v.elems| - 1]
  {
    if v.elems == [] || |v.elems| > Slots(v.data) then Undefined
    else Ok(v.elems[|v.elems| - 1])
  }

  function Max(a: nat, b: nat): nat
  {
    if a < b then b else a
  }

  /** `reserve(n)` (lines 140-153): more than `max_size()` throws; a larger
      capacity moves the elements into a new buffer of exactly that length,
      deleting the old one; otherwise nothing changes. */
  function Reserve<T>(v: Vec<T>, n: nat, maxSize: nat): (r: Outcome<Vec<T>>)
    ensures r.OutOfRange? <==> n > maxSize
    ensures n <= maxSize && n <= v.capacity ==> r == Ok(v)
    ensures r.Ok? ==> r.value.elems == v.elems && r.value.capacity == Max(v.capacity, n)
    ensures VecInv(v) && n <= maxSize ==> r.Ok? && VecInv(r.value)
    ensures Wf(v) && r.Ok? ==> Wf(r.value)
  {
    if n > maxSize then OutOfRange
    else if n <= v.capacity then Ok(v)
    else if |v.elems| > Slots(v.data) || v.data.Freed? || |v.elems| > n then Undefined
    else Ok(Vec(v.elems, n, Live(n)))
  }

  /** `shrink_to_fit()` (lines 155-165): a buffer of exactly `size_` slots. */
  function ShrinkToFit<T>(v: Vec<T>): (r: Outcome<Vec<T>>)
    ensures r.Ok? ==> r.value.elems == v.elems
    ensures r.Ok? ==> r.value.capacity == if |v.elems| < v.capacity then |v.elems| else v.capacity
    ensures VecInv(v) ==> r.Ok? && VecInv(r.value)
  {
    if |v.elems| < v.capacity then
      if |v.elems| > Slots(v.data) || v.data.Freed? then Undefined
      else Ok(Vec(v.elems, |v.elems|, Live(|v.elems|)))
    else Ok(v)
  }

  /** `clear()` as written (lines 167-173): the buffer is deleted and
      `data_` set to null, but `capacity_` keeps its value; with no buffer
      nothing happens. */
  function ClearAsWritten<T>(v: Vec<T>): (r: Outcome<Vec<T>>)
    ensures v.data.Null? ==> r == Ok(v)
    ensures v.data.Live? ==> r == Ok(Vec([], v.capacity, Null))
    ensures v.data.Freed? ==> r.Undefined?
  {
    if v.data.Null? then Ok(v)
    else if v.data.Freed? then Undefined
    else Ok(Vec([], v.capacity, Null))
  }

  /** `clear()` keeping the buffer, so that the capacity stays true. */
  function Clear<T>(v: Vec<T>): (r: Vec<T>)
    ensures r.elems == [] && r.capacity == v.capacity
    ensures VecInv(v) ==> VecInv(r)
  {
    Vec([], v.capacity, v.data)
  }

  /** The new capacity `push_back` asks for when the vector is full. */
  function Grow(c: nat): (r: nat)
    ensures r > c && r <= 2 * c + 1
  {
    if c == 0 then 1 else 2 * c
  }

  /** `push_back(value)` (lines 211-217): when `size_ == capacity_` the
      capacity grows through `reserve`; then the value is written to slot
      `size_` of whatever buffer there is. */
  function PushBack<T>(v: Vec<T>, x: T, maxSize: nat): (r: Outcome<Vec<T>>)
    ensures r.Ok? ==> r.value.elems == v.elems + [x]
    ensures r.Ok? ==> r.value.capacity == if |v.elems| == v.capacity then Grow(v.capacity) else v.capacity
    ensures r.OutOfRange? <==> |v.elems| == v.capacity && Grow(v.capacity) > maxSize
    ensures VecInv(v) && (|v.elems| < v.capacity || Grow(v.capacity) <= maxSize) ==> r.Ok? && VecInv(r.value)
  {
    var grown := if |v.elems| == v.capacity then Reserve(v, Grow(v.capacity), maxSize) else Ok(v);
    match grown
    case Ok(w) =>
      if |w.elems| < Slots(w.data) then Ok(Vec(w.elems + [x], w.capacity, w.data)) else Undefined
    case OutOfRange => OutOfRange
    case Undefined => Undefined
  }

  /** `pop_back()` (lines 218-222). */
  function PopBack<T>(v: Vec<T>): (r: Vec<T>)
    ensures v.elems != [] ==> r.elems == v.elems[..|v.elems| - 1]
    ensures v.elems == [] ==> r == v
    ensures r.capacity == v.capacity && r.data == v.data
    ensures VecInv(v) ==> VecInv(r)
  {
    if v.elems == [] then v else Vec(v.elems[..|v.elems| - 1], v.capacity, v.data)
  }

  /** Pushing and popping gives the elements back. */
  lemma PushPopInverse<T>(v: Vec<T>, x: T, maxSize: nat)
    requires PushBack(v, x, maxSize).Ok?
    ensures PopBack(PushBack(v, x, maxSize).value).elems == v.elems
  {
    assert (v.elems + [x])[..|v.elems|] == v.elems;
  }

  /** `insert(pos, value)` as written (lines 174-194): the elements move to a
      new buffer of `size_ + 1` slots with the value at `pos`, and
      `capacity_` is left as it was.  A position past `end()` writes past the
      new buffer. */
  function InsertAsWritten<T>(v: Vec<T>, pos: nat, x: T): (r: Outcome<(Vec<T>, nat)>)
    ensures r.Ok? ==> pos <= |v.elems| && r.value.0.elems == v.elems[..pos] + [x] + v.elems[pos..] && r.value.1 == pos
    ensures r.Ok? ==> r.value.0.capacity == v.capacity && r.value.0.data == Live(|v.elems| + 1)
    ensures Wf(v) && !v.data.Freed? ==> (r.Ok? <==> pos <= |v.elems|)
  {
    if pos > |v.elems| || |v.elems| > Slots(v.data) || v.data.Freed? then Undefined
    else Ok((Vec(v.elems[..pos] + [x] + v.elems[pos..], v.capacity, Live(|v.elems| + 1)), pos))
  }

  /** `insert(pos, value)` recording the new buffer's length as the capacity. */
  function Insert<T>(v: Vec<T>, pos: nat, x: T): (r: Outcome<(Vec<T>, nat)>)
    ensures r.Ok? ==> pos <= |v.elems| && r.value.0.elems == v.elems[..pos] + [x] + v.elems[pos..] && r.value.1 == pos
    ensures r.Ok? ==> r.value.0.elems[r.value.1] == x
    ensures VecInv(v) ==> (r.Ok? <==> pos <= |v.elems|)
    ensures VecInv(v) && r.Ok? ==> VecInv(r.value.0)
  {
    if pos > |v.elems| || |v.elems| > Slots(v.data) || v.data.Freed? then Undefined
    else Ok((Vec(v.elems[..pos] + [x] + v.elems[pos..], |v.elems| + 1, Live(|v.elems| + 1)), pos))
  }

  /** `erase(pos)` as written (lines 195-210): the other elements move to a
      new buffer of `size_ - 1` slots; `capacity_` stays.  A position at or
      past `end()` of a non-empty vector copies one element too many into it.
      On an empty vector `size_ - 1` wraps to 2^64 - 1 and `new` throws
      `std::bad_array_new_length` before anything changes; the model does not
      tell that exception apart and answers `Undefined` there too. */
  function EraseAsWritten<T>(v: Vec<T>, pos: nat): (r: Outcome<Vec<T>>)
    ensures r.Ok? ==> pos < |v.elems| && r.value.elems == RbErase.Remove(v.elems, pos)
    ensures r.Ok? ==> r.value.capacity == v.capacity && r.value.data == Live(|v.elems| - 1)
    ensures Wf(v) && !v.data.Freed? ==> (r.Ok? <==> pos < |v.elems|)
  {
    if pos >= |v.elems| || |v.elems| > Slots(v.data) || v.data.Freed? then Undefined
    else Ok(Vec(RbErase.Remove(v.elems, pos), v.capacity, Live(|v.elems| - 1)))
  }

  /** `erase(pos)` recording the new buffer's length as the capacity. */
  function Erase<T>(v: Vec<T>, pos: nat): (r: Outcome<Vec<T>>)
    ensures r.Ok? ==> pos < |v.elems| && r.value.elems == RbErase.Remove(v.elems, pos)
    ensures VecInv(v) ==> (r.Ok? <==> pos < |v.elems|)
    ensures VecInv(v) && r.Ok? ==> VecInv(r.value)
  {
    if pos >= |v.elems| || |v.elems| > Slots(v.data) || v.data.Freed? then Undefined
    else Ok(Vec(RbErase.Remove(v.elems, pos), |v.elems| - 1, Live(|v.elems| - 1)))
  }

  /** Erasing the element just inserted gives the elements back. */
  lemma InsertEraseInverse<T>(v: Vec<T>, pos: nat, x: T)
    requires VecInv(v) && pos <= |v.elems|
    ensures Erase(Insert(v, pos, x).value.0, pos).Ok?
    ensures Erase(Insert(v, pos, x).value.0, pos).value.elems == v.elems
  {
    var w := Insert(v, pos, x).value.0;
    assert RbErase.Remove(w.elems, pos) == v.elems;
  }

  /** `insert_many(pos, args...)` as written (lines 229-260): the values are
      placed at `pos` in a new buffer of exactly the new size, and then
      `reserve(size_)` runs, which only grows `capacity_`; a capacity that
      was already larger is left above the buffer's length. */
  function InsertManyAsWritten<T>(v: Vec<T>, pos: nat, xs: seq<T>, maxSize: nat): (r: Outcome<(Vec<T>, nat)>)
    ensures r.Ok? ==> pos <= |v.elems| && r.value.0.elems == v.elems[..pos] + xs + v.elems[pos..] && r.value.1 == pos
    ensures r.Ok? ==> r.value.0.capacity == Max(v.capacity, |v.elems| + |xs|)
    ensures r.Ok? ==> r.value.0.data == Live(|v.elems| + |xs|)
  {
    if pos > |v.elems| || |v.elems| > Slots(v.data) || v.data.Freed? then Undefined
    else
      var n := |v.elems| + |xs|;
      var w := Vec(v.elems[..pos] + xs + v.elems[pos..], v.capacity, Live(n));
      if n > maxSize then OutOfRange
      else if n <= v.capacity then Ok((w, pos))
      else Ok((Vec(w.elems, n, Live(n)), pos))
  }

  /** `insert_many(pos, args...)` recording the new buffer's length as the capacity. */
  function InsertMany<T>(v: Vec<T>, pos: nat, xs: seq<T>, maxSize: nat): (r: Outcome<(Vec<T>, nat)>)
    ensures r.Ok? ==> pos <= |v.elems| && r.value.0.elems == v.elems[..pos] + xs + v.elems[pos..] && r.value.1 == pos
    ensures r.Ok? ==> r.value.0.elems[pos..pos + |xs|] == xs
    ensures VecInv(v) && |v.elems| + |xs| <= maxSize ==> (r.Ok? <==> pos <= |v.elems|)
    ensures VecInv(v) && r.Ok? ==> VecInv(r.value.0)
  {
    if pos > |v.elems| || |v.elems| > Slots(v.data) || v.data.Freed? then Undefined
    else
      var n := |v.elems| + |xs|;
      var items := v.elems[..pos] + xs + v.elems[pos..];
      assert items[pos..pos + |xs|] == xs;
      if n > maxSize then OutOfRange else Ok((Vec(items, n, Live(n)), pos))
  }

  /** `insert_many_back(args...)` as written (lines 262-265): `insert_many`
      as written at `end()`, so a `capacity_` that was already larger stays
      above a buffer of exactly the new size. */
  function InsertManyBackAsWritten<T>(v: Vec<T>, xs: seq<T>, maxSize: nat): (r: Outcome<Vec<T>>)
    ensures r.Ok? ==> r.value.elems == v.elems + xs
    ensures r.Ok? ==> r.value.capacity == Max(v.capacity, |v.elems| + |xs|) && r.value.data == Live(|v.elems| + |xs|)
    ensures Wf(v) && !v.data.Freed? && |v.elems| + |xs| <= maxSize ==> r.Ok?
  {
    var r := InsertManyAsWritten(v, |v.elems|, xs, maxSize);
    if r.Ok? then
      assert v.elems[..|v.elems|] == v.elems;
      Ok(r.value.0)
    else if r.OutOfRange? then OutOfRange
    else Undefined
  }

  /** `insert_many_back` on a vector reserved for ten: as written the one
      element sits in a one-slot buffer under a `capacity_` of ten, so the
      next `push_back` writes past it; corrected, the capacity is one. */
  lemma InsertManyBackAsWrittenKeepsCapacity()
    ensures var r := InsertManyBackAsWritten(VecWithCapacity<int>(10), [1], 100);
      r == Ok(Vec([1], 10, Live(1))) && !VecInv(r.value) && PushBack(r.value, 2, 100).Undefined?
    ensures InsertManyBack(VecWithCapacity<int>(10), [1], 100) == Ok(Vec([1], 1, Live(1)))
  {
    var e: seq<int> := [];
    assert e[..0] + [1] + e[0..] == [1];
    assert InsertManyAsWritten(VecWithCapacity<int>(10), 0, [1], 100) == Ok((Vec([1], 10, Live(1)), 0));
    assert PushBack(Vec([1], 10, Live(1)), 2, 100).Undefined?;
    assert InsertMany(VecWithCapacity<int>(10), 0, [1], 100) == Ok((Vec([1], 1, Live(1)), 0));
  }

  /** `insert_many_back(args...)` over the corrected `insert_many`. */
  function InsertManyBack<T>(v: Vec<T>, xs: seq<T>, maxSize: nat): (r: Outcome<Vec<T>>)
    ensures r.Ok? ==> r.value.elems == v.elems + xs
    ensures VecInv(v) && |v.elems| + |xs| <= maxSize ==> r.Ok? && VecInv(r.value)
  {
    var r := InsertMany(v, |v.elems|, xs, maxSize);
    if r.Ok? then
      assert v.elems[..|v.elems|] == v.elems;
      Ok(r.value.0)
    else if r.OutOfRange? then OutOfRange
    else Undefined
  }

  // ----- the capacity mismatch -----

  /** After `insert` of 0 at the front of {1, 2, 3} the buffer has four
      slots and `capacity_` says three, so the next `push_back` does not grow
      and writes a fifth slot. */
  lemma InsertThenPushBackAsWrittenOverruns()
    ensures var i := InsertAsWritten(VecOf([1, 2, 3]), 0, 0);
      i.Ok? && i.value.0.elems == [0, 1, 2, 3] && PushBack(i.value.0, 4, 100).Undefined?
    ensures var i := Insert(VecOf([1, 2, 3]), 0, 0);
      i.Ok? && PushBack(i.value.0, 4, 100) == Ok(Vec([0, 1, 2, 3, 4], 8, Live(8)))
  {
    assert [1, 2, 3][..0] + [0] + [1, 2, 3][0..] == [0, 1, 2, 3];
    var w := Vec([0, 1, 2, 3], 3, Live(4));
    assert InsertAsWritten(VecOf([1, 2, 3]), 0, 0) == Ok((w, 0));
    assert PushBack(w, 4, 100).Undefined?;
    var u := Vec([0, 1, 2, 3], 4, Live(4));
    assert Insert(VecOf([1, 2, 3]), 0, 0) == Ok((u, 0));
    assert Reserve(u, 8, 100) == Ok(Vec([0, 1, 2, 3], 8, Live(8)));
    assert [0, 1, 2, 3] + [4] == [0, 1, 2, 3, 4];
  }

  /** After `erase` of the front of {1, 2, 3} the buffer has two slots and
      `capacity_` says three, so the next `push_back` writes a third slot. */
  lemma EraseThenPushBackAsWrittenOverruns()
    ensures var e := EraseAsWritten(VecOf([1, 2, 3]), 0);
      e.Ok? && e.value.elems == [2, 3] && PushBack(e.value, 4, 100).Undefined?
    ensures var e := Erase(VecOf([1, 2, 3]), 0);
      e.Ok? && PushBack(e.value, 4, 100) == Ok(Vec([2, 3, 4], 4, Live(4)))
  {
    assert RbErase.Remove([1, 2, 3], 0) == [2, 3];
    assert EraseAsWritten(VecOf([1, 2, 3]), 0) == Ok(Vec([2, 3], 3, Live(2)));
    assert PushBack(Vec([2, 3], 3, Live(2)), 4, 100).Undefined?;
    assert Erase(VecOf([1, 2, 3]), 0) == Ok(Vec([2, 3], 2, Live(2)));
    assert Reserve(Vec([2, 3], 2, Live(2)), 4, 100) == Ok(Vec([2, 3], 4, Live(4)));
    assert [2, 3] + [4] == [2, 3, 4];
  }

  /** `clear()` nulls the buffer but keeps the capacity, so the next
      `push_back` writes through the null pointer. */
  lemma ClearThenPushBackAsWrittenFails()
    ensures var c := ClearAsWritten(VecOf([1, 2, 3]));
      c.Ok? && c.value.elems == [] && c.value.capacity == 3 && PushBack(c.value, 4, 100).Undefined?
    ensures PushBack(Clear(VecOf([1, 2, 3])), 4, 100) == Ok(Vec([4], 3, Live(3)))
  {
    var e: seq<int> := [];
    assert ClearAsWritten(VecOf([1, 2, 3])) == Ok(Vec(e, 3, Null));
    assert PushBack(Vec(e, 3, Null), 4, 100).Undefined?;
    assert Clear(VecOf([1, 2, 3])) == Vec(e, 3, Live(3));
    assert e + [4] == [4];
  }

  /** `insert_many` into a vector of room 10 leaves a one-slot buffer that
      claims ten. */
  lemma InsertManyAsWrittenOverruns()
    ensures var i := InsertManyAsWritten(VecWithCapacity<int>(10), 0, [1], 100);
      i.Ok? && PushBack(i.value.0, 2, 100).Undefined?
    ensures var i := InsertMany(VecWithCapacity<int>(10), 0, [1], 100);
      i.Ok? && PushBack(i.value.0, 2, 100) == Ok(Vec([1, 2], 2, Live(2)))
  {
    var e: seq<int> := [];
    assert e[..0] + [1] + e[0..] == [1];
    assert InsertManyAsWritten(VecWithCapacity<int>(10), 0, [1], 100) == Ok((Vec([1], 10, Live(1)), 0));
    assert PushBack(Vec([1], 10, Live(1)), 2, 100).Undefined?;
    assert InsertMany(VecWithCapacity<int>(10), 0, [1], 100) == Ok((Vec([1], 1, Live(1)), 0));
    assert Reserve(Vec([1], 1, Live(1)), 2, 100) == Ok(Vec([1], 2, Live(2)));
    assert [1] + [2] == [1, 2];
  }

  // ----- copies -----

  predicate IsPow2(n: nat)
    decreases n
  {
    n == 1 || (n > 1 && n % 2 == 0 && IsPow2(n / 2))
  }

  /** The capacity a run of `push_back`s from nothing reaches: zero for no
      elements, otherwise the least power of two that holds them. */
  predicate Doubled(n: nat, c: nat)
  {
    (n == 0 && c == 0) || (n <= c < 2 * n && IsPow2(c))
  }

  /** `push_back` of every value in turn. */
  function PushAll<T>(v: Vec<T>, xs: seq<T>, maxSize: nat): (r: Outcome<Vec<T>>)
    ensures r.Ok? ==> r.value.elems == v.elems + xs
    decreases |xs|
  {
    if xs == [] then Ok(v)
    else match PushBack(v, xs[0], maxSize)
      case Ok(w) =>
        assert v.elems + xs == w.elems + xs[1..];
        PushAll(w, xs[1..], maxSize)
      case OutOfRange => OutOfRange
      case Undefined => Undefined
  }

  /** From a vector whose capacity was reached by doubling, pushing keeps the
      capacity the least power of two that holds the elements. */
  lemma {:induction false} PushAllDoubles<T>(v: Vec<T>, xs: seq<T>, maxSize: nat)
    requires VecInv(v) && Doubled(|v.elems|, v.capacity)
    requires 2 * (|v.elems| + |xs|) <= maxSize
    ensures PushAll(v, xs, maxSize).Ok?
    ensures VecInv(PushAll(v, xs, maxSize).value)
    ensures Doubled(|v.elems| + |xs|, PushAll(v, xs, maxSize).value.capacity)
    decreases |xs|
  {
    if xs != [] {
      var w := PushBack(v, xs[0], maxSize);
      if |v.elems| == v.capacity {
        assert Grow(v.capacity) <= maxSize;
      }
      assert w.Ok?;
      if |v.elems| == v.capacity && v.capacity > 0 {
        assert (2 * v.capacity) / 2 == v.capacity;
      }
      assert Doubled(|w.value.elems|, w.value.capacity);
      assert PushAll(v, xs, maxSize) == PushAll(w.value, xs[1..], maxSize);
      PushAllDoubles(w.value, xs[1..], maxSize);
    }
  }

  /** The copy constructor (lines 80-84): `push_back` of every element into
      an empty vector. */
  function Copy<T>(src: Vec<T>, maxSize: nat): (r: Outcome<Vec<T>>)
    ensures r.Ok? ==> r.value.elems == src.elems
    ensures 2 * |src.elems| <= maxSize ==> r.Ok? && VecInv(r.value) && Doubled(|src.elems|, r.value.capacity)
  {
    var e := VecNew<T>();
    if 2 * |src.elems| <= maxSize then
      PushAllDoubles(e, src.elems, maxSize);
      PushAll(e, src.elems, maxSize)
    else PushAll(e, src.elems, maxSize)
  }

  /** The move constructor (line 85): a copy, then `clear()` of the source. */
  function MoveConstruct<T>(src: Vec<T>, maxSize: nat): (r: Outcome<(Vec<T>, Vec<T>)>)
    ensures r.Ok? ==> r.value.0.elems == src.elems
    ensures r.Ok? && Wf(src) ==> r.value.1.elems == []
    ensures VecInv(src) && 2 * |src.elems| <= maxSize ==> r.Ok? && VecInv(r.value.0)
  {
    var c := Copy(src, maxSize);
    var s := ClearAsWritten(src);
    if c.Ok? && s.Ok? then Ok((c.value, s.value))
    else if c.OutOfRange? then OutOfRange
    else Undefined
  }

  /** Move assignment (lines 87-101): the target's buffer is deleted and it
      takes over the source's three fields; the source is left empty. */
  function MoveAssign<T>(t: Vec<T>, src: Vec<T>): (r: Outcome<(Vec<T>, Vec<T>)>)
    ensures !t.data.Freed? ==> r == Ok((src, VecNew()))
    ensures VecInv(t) && VecInv(src) ==> r.Ok? && VecInv(r.value.0) && VecInv(r.value.1)
  {
    if t.data.Freed? then Undefined else Ok((src, VecNew()))
  }

  /** Copy assignment as written (lines 103-115): the buffer is deleted but
      `data_` still points at it, and the `push_back`s that follow reach
      `reserve`, which deletes it again. */
  function CopyAssignAsWritten<T>(t: Vec<T>, src: Vec<T>, maxSize: nat): (r: Outcome<Vec<T>>)
    ensures r.Ok? ==> r.value.elems == src.elems
    ensures t.data.Live? && src.elems != [] && maxSize >= 1 ==> r.Undefined?
  {
    if t.data.Freed? then Undefined
    else
      var d := if t.data.Null? then Null else Freed;
      PushAll(Vec([], 0, d), src.elems, maxSize)
  }

  /** Copy assignment with `data_` reset after the delete. */
  function CopyAssign<T>(t: Vec<T>, src: Vec<T>, maxSize: nat): (r: Outcome<Vec<T>>)
    ensures r.Ok? ==> r.value.elems == src.elems
    ensures !t.data.Freed? && 2 * |src.elems| <= maxSize ==> r.Ok? && VecInv(r.value)
  {
    if t.data.Freed? then Undefined else Copy(src, maxSize)
  }

  /** Assigning {2} to {1} as written deletes {1}'s buffer twice. */
  lemma CopyAssignAsWrittenDeletesTwice()
    ensures CopyAssignAsWritten(VecOf([1]), VecOf([2]), 100).Undefined?
    ensures CopyAssign(VecOf([1]), VecOf([2]), 100) == Ok(VecOf([2]))
  {
  }

  /** `swap(other)` (lines 223-227) exchanges the three fields. */
  function Swap<T>(a: Vec<T>, b: Vec<T>): (r: (Vec<T>, Vec<T>))
  {
    (b, a)
  }

  lemma SwapTwice<T>(a: Vec<T>, b: Vec<T>)
    ensures var r := Swap(a, b); Swap(r.0, r.1) == (a, b)
    ensures VecInv(a) && VecInv(b) ==> VecInv(Swap(a, b).0) && VecInv(Swap(a, b).1)
  {
  }
}
